=== FILE: README.md ===
# Wanankucha account credentials, in Dafny

This project models the account-credential lifecycle of the Wanankucha back end, its `api/` revision.

The main flows are:
- Login with its lockout state machine.
- Refresh-token rotation.
- The two-step password reset: request a token, then redeem it.
- The hourly sweep that clears expired tokens.
- Registration with its uniqueness checks.
- The user store those handlers rely on: repository lookups, the soft-delete filter, the unique indexes, paging and audit stamps.

Around them sit:
- The request validators.
- The `ServiceResponse`, `Result` and `ApiResponse` wrappers.
- The exception middleware and the controller's status mapping.
- The user-list query and the reset-mail builder, which uses percent-encoding as in section 2.1 of RFC 3986.
- The web client's token cache and its authentication-state decision.

A second, thinner model covers the older `Wanankucha.*` revision: registration, the password check, refresh update, lookups, unordered paging and its response type. Its context is written for Identity's `AppUser` while its repository uses the domain `User`; the model reads it as a table of domain `User` rows (see "## Left out").

Every handler is a pure function from the store, the instant `now` and the request to the saved store and the answer. Its return type is `Handled`. The modelling choices:
- Time is a count of .NET ticks.
- A nullable `DateTime` is an `Option`, and a lifted comparison with null is false.
- `int` counters wrap as 32-bit values.
- `Guid.NewGuid()` draws are parameters.
- A paged query runs on PostgreSQL, which refuses a negative `OFFSET` or `LIMIT`; that error is an explicit outcome, and it reaches the exception middleware as a 500.
- The handlers and controller actions use the repository's lookup and offset as written. Where the code is wrong (see "## Findings"), a corrected member sits beside the as-written one, and the intended properties are proved of it.
- The BCrypt hasher and the JWT token service are values that hold total functions. The only law assumed of the hasher is that a password verifies against its own hash (`Credentials.Sound`).

The modules follow the program's layers:
- `Accounts`, `UserStore`, `Stamping`: the entity, the repository and the database context.
- `UserService`, plus one module per command handler: `LoginUser`, `RefreshToken`, `ForgotPassword`, `ResetPassword`, `CleanupExpiredTokens`, `GetAllUsers`.
- `Validators`, `Responses`, `ExceptionMiddleware`, `AuthController`.
- `EmailService` and `UriEscape`.
- `SharedResponses`, `TokenStorage`, `AuthState`.
- `LegacyUsers`.
- `Scenarios`: properties that span several handlers.

Small generic modules (`Wrappers`, `Clock`, `Int32`, `Text`, `Hex`, `Seqs`) hold the .NET behaviour the handlers lean on.

## Model

| member | source | states |
|---|---|---|
| Accounts.NewUser | api/Wanankucha.Api.Domain/Entities/User.cs:5-21 | a new account has lockout enabled, no failed attempts and no lock, both token pairs null, every string column empty, and it is not deleted |
| Accounts.MapToDto | api/Wanankucha.Api.Application/Services/UserService.cs:94-105 | the dto carries the id, email, username, full name and refresh pair of the account, and nothing else |
| Accounts.MapToDtoHidesSecrets | api/Wanankucha.Api.Application/Services/UserService.cs:94-105 | two accounts that differ only in password hash, reset pair or lockout state give the same dto, so none of these leaks |
| Accounts.Saved | api/Wanankucha.Api.Persistence/Contexts/AppDbContext.cs:26-44 | saving an Added account sets its creation date; saving a Modified one sets its update date; any other state leaves it as it is |
| Stamping.Stamp | api/Wanankucha.Api.Persistence/Contexts/AppDbContext.cs:32-40 | Added sets `CreatedDate = now`, Modified sets `UpdatedDate = now`, and each state leaves the other stamp alone |
| Stamping.StampIdempotent | api/Wanankucha.Api.Persistence/Contexts/AppDbContext.cs:32-40 | stamping twice at one instant equals stamping once |
| Stamping.StampEntry | api/Wanankucha.Api.Persistence/Contexts/AppDbContext.cs:28-40 | the loop body over `Entries<BaseEntity<Guid>>()`: an entry of a `BaseEntity<Guid>` kind gets the stamp of its state; an entry of any other kind is left as it is |
| Stamping.SaveChanges | Wanankucha.Persistence/Contexts/AppDbContext.cs:15-34 | only `BaseEntity<Guid>` entries are stamped, so identity users and roles never are; only Added and Modified entries change, and each entry keeps its kind and state |
| UserStore.Find | api/Wanankucha.Api.Persistence/Repositories/UserRepository.cs:14-27 | `FirstOrDefaultAsync`: returns the first visible row that matches the key, and nothing exactly when no visible row matches |
| UserStore.ExistsIffFound | api/Wanankucha.Api.Persistence/Repositories/UserRepository.cs:29-33 | `ExistsWith*Async(k)` holds exactly when the matching `Find*Async(k)` returns an account |
| UserStore.DeletedRowsAreInvisible | api/Wanankucha.Api.Persistence/Contexts/AppDbContext.cs:21-23 | a soft-deleted row is never returned, whatever the key |
| UserStore.InsertKeepsValid | api/Wanankucha.Api.Persistence/Configurations/UserConfiguration.cs:11-22 | a row that passes the primary-key, unique-index and length constraints keeps the store valid |
| UserStore.UpdateKeepsValid | api/Wanankucha.Api.Persistence/Configurations/UserConfiguration.cs:11-22 | changing one row outside its key, indexed and length-limited columns keeps the store valid |
| UserStore.RowwiseUpdateKeepsValid | api/Wanankucha.Api.Persistence/Configurations/UserConfiguration.cs:11-22 | the same, for a change to every row at once |
| UserStore.CanInsert | api/Wanankucha.Api.Persistence/Configurations/UserConfiguration.cs:11-22 | the database accepts a new row exactly when its username and email fit in 256 characters and no stored row, soft-deleted or not, has the same id, normalised email or normalised username |
| UserStore.FindByEmailIsUnique | api/Wanankucha.Api.Persistence/Configurations/UserConfiguration.cs:14 | under the unique email index, a visible account's normalised email selects that account and no other |
| UserStore.RefreshTokenMayRepeat | api/Wanankucha.Api.Persistence/Configurations/UserConfiguration.cs:18-19 | the token indexes are not unique: a valid store can hold the same refresh token on two accounts |
| UserStore.FindForLogin | api/Wanankucha.Api.Persistence/Repositories/UserRepository.cs:23-24 | the login lookup returns a visible row whose normalised email or username is the key, and nothing exactly when the repository's lookup returns nothing |
| UserStore.FindForLoginReachesEmailOwner | api/Wanankucha.Api.Persistence/Repositories/UserRepository.cs:23-24 | in a valid store, a visible account's own normalised email always reaches that account |
| UserStore.FindForLoginReachesUserNameOwner | api/Wanankucha.Api.Persistence/Repositories/UserRepository.cs:23-24 | a username reaches its owner unless the same text is some visible account's email |
| UserStore.OrderedByCreation | api/Wanankucha.Api.Persistence/Repositories/UserRepository.cs:36-37 | `OrderBy(CreatedDate)`: sorted by creation date; every visible row of the store appears exactly as often as in the store, and nothing else appears |
| UserStore.Window | api/Wanankucha.Api.Persistence/Repositories/UserRepository.cs:38-39 | `Skip(offset).Take(size)` on that order, sent to PostgreSQL: an error exactly when the offset or the size is negative; otherwise at most `size` visible accounts of the store, still in creation order |
| UserStore.WindowIsSlice | api/Wanankucha.Api.Persistence/Repositories/UserRepository.cs:36-39 | for a non-negative offset and size, the query succeeds with the slice of the creation order from `offset` to `offset + size`, clipped to its end |
| UserStore.GetAllAsWritten | api/Wanankucha.Api.Persistence/Repositories/UserRepository.cs:35-40 | `GetAllAsync` with `page * size` in 32-bit arithmetic: an error exactly when the wrapped product or the size is negative; otherwise at most `size` visible accounts of the store |
| UserStore.GetAll | api/Wanankucha.Api.Persistence/Repositories/UserRepository.cs:35-40 | `GetAllAsync` with the offset it means: an error exactly when the true product or the size is negative; otherwise at most `size` visible accounts, in creation order |
| UserStore.GetAllIsWindow | api/Wanankucha.Api.Persistence/Repositories/UserRepository.cs:35-40 | for a non-negative page and size, the page is the window that starts `page * size` accounts into the creation order |
| UserStore.WindowExtendsPrefix | api/Wanankucha.Api.Persistence/Repositories/UserRepository.cs:36-39 | a window at a non-negative offset succeeds, and everything before it, followed by the window, is everything up to the window's end |
| UserStore.NextPageContinues | api/Wanankucha.Api.Persistence/Repositories/UserRepository.cs:36-39 | the accounts before page `p`, followed by page `p`, are the accounts before page `p + 1`, so paging never skips or repeats an account |
| UserStore.FirstPagesArePrefix | api/Wanankucha.Api.Persistence/Repositories/UserRepository.cs:36-39 | the first `n` pages, concatenated, are exactly the first `n * size` accounts of the creation order |
| UserStore.PageOffsetWraps | api/Wanankucha.Api.Persistence/Repositories/UserRepository.cs:38 | with `page = size = 65536`, the page as written repeats the first page, while the intended page is empty |
| UserStore.PageOffsetTurnsNegative | api/Wanankucha.Api.Persistence/Repositories/UserRepository.cs:38 | with `page = size = 46341`, the product as written wraps to a negative offset and the database refuses the query, while the intended page is empty |
| UserStore.FindRoleByName | api/Wanankucha.Api.Persistence/Repositories/UserRepository.cs:49-50 | returns the first visible role whose normalised name equals the upper-cased name, and nothing exactly when there is none |
| UserStore.FindRoleByNameIgnoresCase | api/Wanankucha.Api.Persistence/Repositories/UserRepository.cs:49-50 | the role lookup gives the same answer for a name and its upper-cased form |
| Int32.Increment | api/Wanankucha.Api.Application/Features/Commands/AppUser/LoginUser/LoginUserCommandHandler.cs:46 | `FailedLoginAttempts++` adds one below `int.MaxValue` and wraps to `int.MinValue` at it |
| Int32.Multiply | api/Wanankucha.Api.Persistence/Repositories/UserRepository.cs:38 | `page * size` is the true product when it fits in 32 bits, and otherwise agrees with it modulo 2^32 |
| Int32.Wrap | api/Wanankucha.Api.Persistence/Repositories/UserRepository.cs:38 | reducing to 32 bits leaves an in-range value alone and otherwise keeps it modulo 2^32 |
| Text.ToUpperInvariant | api/Wanankucha.Api.Application/Services/UserService.cs:24 | upper-casing keeps the length and maps each character on its own |
| Text.ToUpperIdempotent | api/Wanankucha.Api.Application/Services/UserService.cs:24-30 | upper-casing an upper-cased string changes nothing |
| Text.ToUpperFixesExactlyUpperStrings | api/Wanankucha.Api.Application/Services/UserService.cs:24-30 | a string is its own upper-cased form exactly when it has no lower-case letter |
| Hex.GuidN | api/Wanankucha.Api.Application/Features/Commands/AppUser/ForgotPassword/ForgotPasswordCommandHandler.cs:32 | `Guid.ToString("N")`: 32 lower-case hex digits that parse back to the guid |
| Hex.GuidNInjective | api/Wanankucha.Api.Application/Features/Commands/AppUser/ForgotPassword/ForgotPasswordCommandHandler.cs:32 | distinct guids have distinct "N" strings |
| Hex.ParseToHex | api/Wanankucha.Api.Application/Features/Commands/AppUser/ForgotPassword/ForgotPasswordCommandHandler.cs:32 | a number below `16^width`, written in `width` hex digits, parses back to itself |
| Hex.GuidD | api/Wanankucha.Api.Application/Features/Queries/AppUser/GetAllUsers/GetAllUsersQueryHandler.cs:17 | `Guid.ToString()`: 36 characters, dashes at 8, 13, 18 and 23, and the "N" digits once the dashes are removed |
| Hex.GuidDInjective | api/Wanankucha.Api.Application/Features/Queries/AppUser/GetAllUsers/GetAllUsersQueryHandler.cs:17 | distinct guids have distinct string forms |
| Credentials.CreateAccessToken | api/Wanankucha.Api.Application/Features/Commands/AppUser/LoginUser/LoginUserCommandHandler.cs:69 | the issued token expires the configured number of minutes after `now`, and carries the fresh refresh string and the signed access token |
| Responses.Make | api/Wanankucha.Api.Application/Wrappers/ServiceResponse.cs:7-34 | what each `ServiceResponse` constructor leaves: `(data)` and `(data, message)` succeed with the data; `(message)` fails with no data; the parameterless one fails with the empty message; none sets errors |
| Responses.MakeSucceedsIffData | api/Wanankucha.Api.Application/Wrappers/ServiceResponse.cs:10-34 | a constructed response has data exactly when it succeeded, and two constructor calls agree exactly when they agree once the default message is filled in |
| Responses.Success | api/Wanankucha.Api.Domain/Common/Result.cs:22 | `Success(v)` succeeds with value `v`, no error and an empty error list |
| Responses.Failure | api/Wanankucha.Api.Domain/Common/Result.cs:24 | `Failure(e)` fails with error `e`, no value and an empty error list |
| Responses.FirstOrNone | api/Wanankucha.Api.Domain/Common/Result.cs:29 | `FirstOrDefault()` on a list of strings is null exactly for the empty list, and otherwise its first element |
| Responses.FailureList | api/Wanankucha.Api.Domain/Common/Result.cs:26-30 | `Failure(list)` keeps the list in order, and its error is the first element, or null for an empty list |
| Responses.MatchLaws | api/Wanankucha.Api.Domain/Common/Result.cs:32-33 | `Match` calls `onSuccess` on a success, and calls `onFailure` with the error, or with "Unknown error" when there is none |
| Responses.UnitSuccess | api/Wanankucha.Api.Domain/Common/Result.cs:52 | the non-generic `Success()` succeeds with no error and an empty list |
| Responses.UnitFailure | api/Wanankucha.Api.Domain/Common/Result.cs:54 | the non-generic `Failure(e)` fails with error `e` and an empty list |
| Responses.UnitFailureList | api/Wanankucha.Api.Domain/Common/Result.cs:56-60 | the non-generic `Failure(list)` keeps the list, and its error is the first element or null |
| Responses.UnitAgreesWithGeneric | api/Wanankucha.Api.Domain/Common/Result.cs:52-60 | the non-generic factories agree with the generic ones on success, error and error list |
| Validators.Check | api/Wanankucha.Api.Application/Features/Commands/AppUser/CreateUser/CreateUserCommandValidator.cs:9-28 | a check adds nothing when it passes and exactly its own message when it fails |
| Validators.NameSurnameErrors | api/Wanankucha.Api.Application/Features/Commands/AppUser/CreateUser/CreateUserCommandValidator.cs:9-12 | the full name passes exactly when it is non-blank and at most 50 characters; a null name gets both the empty and the null message |
| Validators.UserNameErrors | api/Wanankucha.Api.Application/Features/Commands/AppUser/CreateUser/CreateUserCommandValidator.cs:14-16 | the username passes exactly when it is non-blank and at least 3 characters |
| Validators.EmailErrors | api/Wanankucha.Api.Application/Features/Commands/AppUser/CreateUser/CreateUserCommandValidator.cs:18-20 | the email passes exactly when it is non-blank and of email shape |
| Validators.PasswordErrors | api/Wanankucha.Api.Application/Features/Commands/AppUser/CreateUser/CreateUserCommandValidator.cs:22-24 | the password passes exactly when it is non-blank and at least 6 characters |
| Validators.PasswordConfirmErrors | api/Wanankucha.Api.Application/Features/Commands/AppUser/CreateUser/CreateUserCommandValidator.cs:26-28 | the confirmation passes exactly when it is non-blank and equal to the password |
| Validators.ValidateCreateUser | api/Wanankucha.Api.Application/Features/Commands/AppUser/CreateUser/CreateUserCommandValidator.cs:7-29 | a registration request has no failures exactly when it meets all five rules, and the full-name messages come first |
| Validators.LoginErrors | api/Wanankucha.Api.Application/Features/Commands/AppUser/LoginUser/LoginUserCommandValidator.cs:9-14 | a login request has no failures exactly when the identifier is non-blank and the password is non-blank and at least 6 characters; a null password reports the null message |
| Validators.LoginErrorsAreOrdered | api/Wanankucha.Api.Application/Features/Commands/AppUser/LoginUser/LoginUserCommandValidator.cs:11-14 | a blank, short password gets exactly the emptiness message and then the length message |
| UserService.Conflict | api/Wanankucha.Api.Application/Services/UserService.cs:24-34 | the email-taken message exactly when the upper-cased email is in use; the username-taken message exactly when only the upper-cased username is |
| UserService.ConflictIgnoresCase | api/Wanankucha.Api.Application/Services/UserService.cs:24-30 | the uniqueness checks give the same answer for the inputs and their upper-cased forms |
| UserService.Registered | api/Wanankucha.Api.Application/Services/UserService.cs:36-45 | the new row keeps the email and username as typed, their upper-cased forms, the password's hash and the creation stamp; every other column is at its default |
| UserService.CreateUser | api/Wanankucha.Api.Application/Services/UserService.cs:22-51 | a conflict answers with its message and adds nothing; otherwise a row the constraints accept is added and the new id is returned with success; a row they refuse ends in `DbUpdateException` and nothing is written |
| UserService.EmailReportedFirst | api/Wanankucha.Api.Application/Services/UserService.cs:24-34 | on a double conflict, the email one is reported |
| UserService.CreateUserKeepsValid | api/Wanankucha.Api.Application/Services/UserService.cs:36-48 | registration keeps the store valid |
| UserService.DeletedEmailIsRefusedByTheDatabase | api/Wanankucha.Api.Persistence/Configurations/UserConfiguration.cs:14-25 | an email last used by a soft-deleted account passes the check, and the unique index then refuses the row |
| UserService.FindByEmailOrUserName | api/Wanankucha.Api.Application/Services/UserService.cs:53-60 | returns the dto of a visible account whose normalised email or username is the upper-cased key, and null exactly when there is none |
| UserService.FindByRefreshToken | api/Wanankucha.Api.Application/Services/UserService.cs:87-92 | returns the dto of a visible store account holding exactly that refresh token, and null exactly when there is none |
| UserService.CheckPassword | api/Wanankucha.Api.Application/Services/UserService.cs:62-68 | false for an unknown id; otherwise what `verify(password, hash)` says |
| UserService.RegisteredPasswordChecks | api/Wanankucha.Api.Application/Services/UserService.cs:44-68 | with a sound hasher, the password an account was registered with checks out against the new id |
| UserService.UpdateRefreshToken | api/Wanankucha.Api.Application/Services/UserService.cs:77-85 | sets both refresh fields of the account with that id and touches no other row or column; an unknown id changes nothing |
| UserService.UpdateRefreshTokenIdempotent | api/Wanankucha.Api.Application/Services/UserService.cs:77-85 | setting the same pair twice is the same as setting it once |
| UserService.GetAllUsers | api/Wanankucha.Api.Application/Services/UserService.cs:70-75 | nothing when the database refuses the page; otherwise one dto for each account of the page as written, in the page's order, each of a visible store account |
| LoginUser.FailedAttempt | api/Wanankucha.Api.Application/Features/Commands/AppUser/LoginUser/LoginUserCommandHandler.cs:43-58 | a wrong password adds one to the counter, with wrap-around; the lock is set to `now + 15 min` exactly when lockout is on and the count has reached 5; nothing else but the update stamp changes |
| LoginUser.SuccessfulAttempt | api/Wanankucha.Api.Application/Features/Commands/AppUser/LoginUser/LoginUserCommandHandler.cs:62-79 | a correct password clears the counter and the lock; the stored refresh token is the issued one and ends 7 days after the access token |
| LoginUser.AttemptAt | api/Wanankucha.Api.Application/Features/Commands/AppUser/LoginUser/LoginUserCommandHandler.cs:27-79 | after the lookup: no account fails with the bad-credentials message; a locked account fails and nothing is saved; a wrong password fails and saves only the failed attempt; a correct one succeeds with the token and saves the granted account |
| LoginUser.IsLocked | api/Wanankucha.Api.Application/Features/Commands/AppUser/LoginUser/LoginUserCommandHandler.cs:31 | an account is locked exactly when lockout is enabled and its lock end is set and strictly later than `now` |
| LoginUser.LockedMessage | api/Wanankucha.Api.Application/Features/Commands/AppUser/LoginUser/LoginUserCommandHandler.cs:36-37 | the lock notice names the minutes left and points to "Forgot Password" |
| LoginUser.LookUp | api/Wanankucha.Api.Persistence/Repositories/UserRepository.cs:23-24 | either lookup returns a visible row whose normalised email or username is the key, and nothing exactly when there is no such row |
| LoginUser.LoginWith | api/Wanankucha.Api.Application/Features/Commands/AppUser/LoginUser/LoginUserCommandHandler.cs:21-80 | with either lookup, the attempt on the account found for the upper-cased identifier: nothing saved when none is found; success exactly when the account is unlocked and the password verifies, with the success message |
| LoginUser.MinutesLeft | api/Wanankucha.Api.Application/Features/Commands/AppUser/LoginUser/LoginUserCommandHandler.cs:33-37 | the whole minutes until the lock ends, rounded up |
| LoginUser.LoginAsWritten | api/Wanankucha.Api.Application/Features/Commands/AppUser/LoginUser/LoginUserCommandHandler.cs:21-80 | the handler with the repository's lookup as written: nothing saved when no visible account's email or username is the upper-cased identifier; success exactly when the first such account is unlocked and the password verifies, with the success message |
| LoginUser.Login | api/Wanankucha.Api.Application/Features/Commands/AppUser/LoginUser/LoginUserCommandHandler.cs:21-80 | the handler with the email-first lookup: the attempt on the account it finds for the upper-cased identifier; it succeeds exactly when that account exists, is not locked and the password verifies |
| LoginUser.LoginChangesOneRow | api/Wanankucha.Api.Application/Features/Commands/AppUser/LoginUser/LoginUserCommandHandler.cs:55-76 | with either lookup, a login saves at most the row its lookup found; every other row stays as it was |
| LoginUser.UnknownAndWrongPasswordLookAlike | api/Wanankucha.Api.Application/Features/Commands/AppUser/LoginUser/LoginUserCommandHandler.cs:27-58 | with either lookup, an unknown identifier and a wrong password give the same failed response |
| LoginUser.LoginIgnoresCase | api/Wanankucha.Api.Application/Features/Commands/AppUser/LoginUser/LoginUserCommandHandler.cs:24-25 | with either lookup, login gives the same outcome for an identifier and its upper-cased form |
| LoginUser.LockedAccountIsNotChecked | api/Wanankucha.Api.Application/Features/Commands/AppUser/LoginUser/LoginUserCommandHandler.cs:31-38 | with either lookup, on a locked account the outcome is the same for every hasher and every password; it fails and nothing is saved |
| LoginUser.FailRepeatedly | api/Wanankucha.Api.Application/Features/Commands/AppUser/LoginUser/LoginUserCommandHandler.cs:43-58 | repeated wrong passwords never change the lockout flag, the hash or the refresh pair |
| LoginUser.LockoutDisabledNeverLocks | api/Wanankucha.Api.Application/Features/Commands/AppUser/LoginUser/LoginUserCommandHandler.cs:48-53 | with lockout off, no number of wrong passwords ever sets a lock |
| LoginUser.FailuresCount | api/Wanankucha.Api.Application/Features/Commands/AppUser/LoginUser/LoginUserCommandHandler.cs:46-53 | wrong passwords count one by one, and below 5 no lock is set |
| LoginUser.FiveFailuresLock | api/Wanankucha.Api.Application/Features/Commands/AppUser/LoginUser/LoginUserCommandHandler.cs:18-19 | five wrong passwords on a fresh account lock it for 15 minutes from the fifth |
| LoginUser.ExpiredLockRelocksOnNextFailure | api/Wanankucha.Api.Application/Features/Commands/AppUser/LoginUser/LoginUserCommandHandler.cs:46-66 | the counter survives the end of a lock, so the next wrong password locks the account again at once |
| LoginUser.AttemptKeepsValid | api/Wanankucha.Api.Application/Features/Commands/AppUser/LoginUser/LoginUserCommandHandler.cs:55-76 | any attempt keeps the store valid |
| LoginUser.LoginKeepsValid | api/Wanankucha.Api.Application/Features/Commands/AppUser/LoginUser/LoginUserCommandHandler.cs:21-80 | both lookups leave a valid store valid |
| LoginUser.AmbiguousKey | api/Wanankucha.Api.Persistence/Repositories/UserRepository.cs:23-24 | a valid two-account store in which the repository's lookup and the email-first lookup pick different accounts for `B@X` |
| LoginUser.EmailLoginHijackedByUsername | api/Wanankucha.Api.Persistence/Repositories/UserRepository.cs:23-24 | as written, the owner of `b@x` logging in with it and the correct password gets the bad-credentials answer, and the other account's counter goes up |
| LoginUser.EmailOwnerLogsInWhenCorrected | api/Wanankucha.Api.Application/Features/Commands/AppUser/LoginUser/LoginUserCommandHandler.cs:24-79 | with the email-first lookup, the same request succeeds |
| RefreshToken.Rotated | api/Wanankucha.Api.Application/Features/Commands/AppUser/RefreshToken/RefreshTokenCommandHandler.cs:32-35 | rotation replaces only the refresh token and its end date, which becomes `expiration + 7 days`, plus the update stamp |
| RefreshToken.Expired | api/Wanankucha.Api.Application/Features/Commands/AppUser/RefreshToken/RefreshTokenCommandHandler.cs:22 | a token is refused as expired exactly when its end date is set and strictly before `now`; a null end date never is |
| RefreshToken.Refresh | api/Wanankucha.Api.Application/Features/Commands/AppUser/RefreshToken/RefreshTokenCommandHandler.cs:17-40 | succeeds exactly when an account holds the token and its end date is not before `now`; it then rotates that row and returns the new token; otherwise it refuses and saves nothing |
| RefreshToken.UnknownTokenRefused | api/Wanankucha.Api.Application/Features/Commands/AppUser/RefreshToken/RefreshTokenCommandHandler.cs:20-26 | an unknown token is refused with "Invalid or expired refresh token." and the store is unchanged |
| RefreshToken.ExpiryBoundary | api/Wanankucha.Api.Application/Features/Commands/AppUser/RefreshToken/RefreshTokenCommandHandler.cs:22 | a found token is accepted exactly when its end date is null or not before `now`, so an end date equal to `now` passes |
| RefreshToken.RotationIsSingleUse | api/Wanankucha.Api.Application/Features/Commands/AppUser/RefreshToken/RefreshTokenCommandHandler.cs:29-36 | once a refresh has succeeded, the old token fails, provided the fresh token differs from it |
| RefreshToken.RefreshKeepsValid | api/Wanankucha.Api.Application/Features/Commands/AppUser/RefreshToken/RefreshTokenCommandHandler.cs:32-36 | a refresh keeps the store valid |
| ForgotPassword.ResetToken | api/Wanankucha.Api.Application/Features/Commands/AppUser/ForgotPassword/ForgotPasswordCommandHandler.cs:32 | the token is 64 lower-case hex characters: the "N" forms of the two draws |
| ForgotPassword.ResetTokenDeterminesDraws | api/Wanankucha.Api.Application/Features/Commands/AppUser/ForgotPassword/ForgotPasswordCommandHandler.cs:32 | equal tokens come from equal draws |
| ForgotPassword.WithResetToken | api/Wanankucha.Api.Application/Features/Commands/AppUser/ForgotPassword/ForgotPasswordCommandHandler.cs:33-37 | both reset fields are set together, the expiry to `now + 1 hour`; nothing else but the update stamp changes |
| ForgotPassword.Forgot | api/Wanankucha.Api.Application/Features/Commands/AppUser/ForgotPassword/ForgotPasswordCommandHandler.cs:16-55 | always the same successful answer; an unknown email changes nothing and sends no mail; a known one stores the fresh token on that row and mails it to the account's email |
| ForgotPassword.AnswerRevealsNothing | api/Wanankucha.Api.Application/Features/Commands/AppUser/ForgotPassword/ForgotPasswordCommandHandler.cs:25-54 | a known and an unknown email get the same response, whatever the mailer does |
| ForgotPassword.MailFailureKeepsToken | api/Wanankucha.Api.Application/Features/Commands/AppUser/ForgotPassword/ForgotPasswordCommandHandler.cs:36-49 | a failing mailer changes neither the saved store nor the answer |
| ForgotPassword.LaterRequestOverwrites | api/Wanankucha.Api.Application/Features/Commands/AppUser/ForgotPassword/ForgotPasswordCommandHandler.cs:31-37 | a second request leaves only the later token and expiry, and keeps the hash, refresh pair and lockout state |
| ForgotPassword.ForgotKeepsValid | api/Wanankucha.Api.Application/Features/Commands/AppUser/ForgotPassword/ForgotPasswordCommandHandler.cs:33-37 | a reset request keeps the store valid |
| ResetPassword.Redeemed | api/Wanankucha.Api.Application/Features/Commands/AppUser/ResetPassword/ResetPasswordCommandHandler.cs:51-60 | the new hash is stored, the reset pair and refresh pair are cleared, and everything else, lockout state included, is kept |
| ResetPassword.Redeemable | api/Wanankucha.Api.Application/Features/Commands/AppUser/ResetPassword/ResetPasswordCommandHandler.cs:31-41 | a reset token is accepted exactly when it equals the stored token and the stored expiry is set and not before `now` |
| ResetPassword.Reset | api/Wanankucha.Api.Application/Features/Commands/AppUser/ResetPassword/ResetPasswordCommandHandler.cs:16-68 | succeeds exactly when the upper-cased email finds an account whose reset token is the one presented and whose expiry is set and not before `now`; every refusal is one and the same answer, and nothing is saved |
| ResetPassword.ExpiryBoundary | api/Wanankucha.Api.Application/Features/Commands/AppUser/ResetPassword/ResetPasswordCommandHandler.cs:41 | an expiry equal to `now` is accepted; one tick earlier is refused |
| ResetPassword.TokenIsSingleUse | api/Wanankucha.Api.Application/Features/Commands/AppUser/ResetPassword/ResetPasswordCommandHandler.cs:31-53 | redeeming the same token again fails, at any time and with any new password |
| ResetPassword.ResetEndsSessions | api/Wanankucha.Api.Application/Features/Commands/AppUser/ResetPassword/ResetPasswordCommandHandler.cs:55-57 | after a reset, no refresh token selects the account |
| ResetPassword.NewPasswordVerifies | api/Wanankucha.Api.Application/Features/Commands/AppUser/ResetPassword/ResetPasswordCommandHandler.cs:51 | with a sound hasher, the new password verifies against the stored hash |
| ResetPassword.ResetKeepsValid | api/Wanankucha.Api.Application/Features/Commands/AppUser/ResetPassword/ResetPasswordCommandHandler.cs:51-60 | a reset keeps the store valid |
| CleanupExpiredTokens.ResetStep | api/Wanankucha.Api/Jobs/CleanupExpiredTokensJob.cs:21-30 | clearing a reset pair changes neither the refresh selection nor visibility, so the two sweeps are independent |
| CleanupExpiredTokens.ResetExpired | api/Wanankucha.Api/Jobs/CleanupExpiredTokensJob.cs:21-22 | the first query selects a visible account whose reset expiry is set and strictly before the job's instant |
| CleanupExpiredTokens.RefreshExpired | api/Wanankucha.Api/Jobs/CleanupExpiredTokensJob.cs:33-34 | the second query selects a visible account whose refresh end date is set and strictly before the job's instant |
| CleanupExpiredTokens.Swept | api/Wanankucha.Api/Jobs/CleanupExpiredTokensJob.cs:21-46 | each expired pair is cleared as a pair; every pair not expired is kept; nothing expired remains; the account changes exactly when something expired, and then gets its update stamp |
| CleanupExpiredTokens.SweepStore | api/Wanankucha.Api/Jobs/CleanupExpiredTokensJob.cs:21-42 | the run's effect on the store, row by row |
| CleanupExpiredTokens.SweepResets | api/Wanankucha.Api/Jobs/CleanupExpiredTokensJob.cs:21-30 | the first loop clears exactly the expired reset pairs and counts them |
| CleanupExpiredTokens.SweepRefreshes | api/Wanankucha.Api/Jobs/CleanupExpiredTokensJob.cs:33-42 | the second loop clears exactly the expired refresh pairs and counts them |
| CleanupExpiredTokens.SaveChanged | api/Wanankucha.Api/Jobs/CleanupExpiredTokensJob.cs:46 | the save stamps exactly the rows the sweeps changed |
| CleanupExpiredTokens.Cleanup | api/Wanankucha.Api/Jobs/CleanupExpiredTokensJob.cs:12-55 | the job: each count is the number of accounts whose pair of that kind expired; it saves exactly when a count is positive; without a save the store is unchanged |
| CleanupExpiredTokens.SecondRunFindsNothing | api/Wanankucha.Api/Jobs/CleanupExpiredTokensJob.cs:44-54 | a second run at the same instant counts nothing and changes nothing |
| CleanupExpiredTokens.NothingExpiredRemains | api/Wanankucha.Api/Jobs/CleanupExpiredTokensJob.cs:21-42 | after a run, no visible account has a reset expiry or refresh end date before `now`; later or null ones are untouched |
| CleanupExpiredTokens.SweepKeepsInvariants | api/Wanankucha.Api/Jobs/CleanupExpiredTokensJob.cs:27-40 | a run keeps the store valid and never breaks the pairing of a token with its expiry |
| GetAllUsers.ToRow | api/Wanankucha.Api.Application/Features/Queries/AppUser/GetAllUsers/GetAllUsersQueryHandler.cs:15-21 | the id becomes its string form; a null email or username becomes the empty string |
| GetAllUsers.GetAllUsersQuery | api/Wanankucha.Api.Application/Features/Queries/AppUser/GetAllUsers/GetAllUsersQueryHandler.cs:10-24 | a missing pagination falls back to the default; when the wrapped offset or the size is negative the database error reaches the middleware as a 500; otherwise the answer succeeds with one row per account of the page as written, in order |
| GetAllUsers.RowsKeepIdentity | api/Wanankucha.Api.Application/Features/Queries/AppUser/GetAllUsers/GetAllUsersQueryHandler.cs:17 | rows of accounts with distinct ids have distinct `Id` strings |
| ExceptionMiddleware.HandleException | api/Wanankucha.Api/Middlewares/GlobalExceptionHandlerMiddleware.cs:23-49 | every reply fails, is JSON and carries no data; a validation failure gives 400, "Validation Error" and its messages in order; anything else gives 500 and "Internal Server Error" |
| ExceptionMiddleware.RawMessageNeverLeaks | api/Wanankucha.Api/Middlewares/GlobalExceptionHandlerMiddleware.cs:28-41 | the reply does not depend on the exception's own message |
| AuthController.ByOutcome | api/Wanankucha.Api/Controllers/AuthController.cs:20-30 | 200 exactly when the response succeeded, otherwise 400, with the body unchanged |
| AuthController.AlwaysOk | api/Wanankucha.Api/Controllers/AuthController.cs:61-65 | 200 whatever the response, with the body unchanged |
| AuthController.LoginAction | api/Wanankucha.Api/Controllers/AuthController.cs:18-30 | over the handler as written, login answers 200 exactly when the first visible account whose email or username is the upper-cased identifier is unlocked and the password verifies, and 400 otherwise |
| AuthController.RefreshAction | api/Wanankucha.Api/Controllers/AuthController.cs:33-43 | refresh answers 200 exactly when the token is found and not expired; otherwise 400 with the refusal, and the store is unchanged |
| AuthController.RegisterAction | api/Wanankucha.Api/Controllers/AuthController.cs:47-57 | a conflict answers 400 with its message; an accepted row answers 200 with the new id; a refused row surfaces as the middleware's 500 |
| AuthController.ForgotAction | api/Wanankucha.Api/Controllers/AuthController.cs:61-65 | forgot-password always answers 200 with the one fixed response |
| AuthController.ResetAction | api/Wanankucha.Api/Controllers/AuthController.cs:69-79 | reset answers 200 exactly when the token is redeemable; otherwise 400 with the refusal, and nothing is saved |
| AuthController.ForgotStatusRevealsNothing | api/Wanankucha.Api/Controllers/AuthController.cs:61-65 | a known and an unknown email get the same status and body |
| UriEscape.Utf8 | api/Wanankucha.Api.Infrastructure/Services/Email/ResendEmailService.cs:74 | the UTF-8 encoding of a character is one to four bytes; it is one byte, the character's own code, exactly for ASCII; every byte after the first is a continuation byte |
| UriEscape.Utf8Encode | api/Wanankucha.Api.Infrastructure/Services/Email/ResendEmailService.cs:74 | the UTF-8 encoding of a string, character after character |
| UriEscape.DecodeOne | api/Wanankucha.Api.Infrastructure/Services/Email/ResendEmailService.cs:74 | decoding one UTF-8 sequence refuses overlong forms and surrogates |
| UriEscape.DecodeOneUtf8 | api/Wanankucha.Api.Infrastructure/Services/Email/ResendEmailService.cs:74 | decoding the encoding of a character gives the character back, with the rest of the input left over |
| UriEscape.Utf8RoundTrip | api/Wanankucha.Api.Infrastructure/Services/Email/ResendEmailService.cs:74 | decoding the UTF-8 encoding of a string gives the string back |
| UriEscape.PercentByte | api/Wanankucha.Api.Infrastructure/Services/Email/ResendEmailService.cs:74 | a byte is written as `%` and two upper-case hex digits that decode back to it |
| UriEscape.PercentBytes | api/Wanankucha.Api.Infrastructure/Services/Email/ResendEmailService.cs:74 | a byte sequence is written as three characters per byte |
| UriEscape.EscapeChar | api/Wanankucha.Api.Infrastructure/Services/Email/ResendEmailService.cs:74 | an unreserved character is kept; any other one is written as its percent-encoded UTF-8 bytes |
| UriEscape.Escape | api/Wanankucha.Api.Infrastructure/Services/Email/ResendEmailService.cs:74 | `Uri.EscapeDataString`: the escapes of the characters, in order |
| UriEscape.PercentBytesDecode | api/Wanankucha.Api.Infrastructure/Services/Email/ResendEmailService.cs:74 | percent-decoding the written bytes gives the bytes back, ahead of whatever follows |
| UriEscape.EscapeCharDecodes | api/Wanankucha.Api.Infrastructure/Services/Email/ResendEmailService.cs:74 | percent-decoding the escape of a character gives its UTF-8 bytes |
| UriEscape.EscapeDecodesToUtf8 | api/Wanankucha.Api.Infrastructure/Services/Email/ResendEmailService.cs:74 | percent-decoding the escape of a string gives its UTF-8 bytes |
| UriEscape.EscapeRoundTrip | api/Wanankucha.Api.Infrastructure/Services/Email/ResendEmailService.cs:74 | unescaping the escape of any string gives the string back |
| UriEscape.EscapeChangesExactlyReserved | api/Wanankucha.Api.Infrastructure/Services/Email/ResendEmailService.cs:74 | escaping leaves a string unchanged, and likewise keeps its length, exactly when all its characters are unreserved |
| UriEscape.HexTokenIsNotEscaped | api/Wanankucha.Api.Infrastructure/Services/Email/ResendEmailService.cs:74 | a hex-only reset token is its own escape |
| EmailService.Sender | api/Wanankucha.Api.Infrastructure/Services/Email/ResendEmailService.cs:55 | the sender is `FromName <FromEmail>` |
| EmailService.IsConfigured | api/Wanankucha.Api.Infrastructure/Services/Email/ResendEmailService.cs:29 | the service is configured exactly when the API key is neither null nor empty and starts with `re_` |
| EmailService.SendEmail | api/Wanankucha.Api.Infrastructure/Services/Email/ResendEmailService.cs:38-70 | skipped exactly when the key is not configured; rethrown exactly when it is configured and the mail API throws; otherwise the message has the sender, recipient, subject and body |
| EmailService.ResetUrl | api/Wanankucha.Api.Infrastructure/Services/Email/ResendEmailService.cs:74 | base, `/reset-password?token=`, escaped token, `&email=`, escaped address, in that order; the token segment unescapes to the token |
| EmailService.ResetBody | api/Wanankucha.Api.Infrastructure/Services/Email/ResendEmailService.cs:77-112 | the reset URL occurs in the body twice: in the button link and in the copyable text |
| EmailService.SendPasswordResetEmail | api/Wanankucha.Api.Infrastructure/Services/Email/ResendEmailService.cs:72-115 | sends to the address with the fixed subject "Reset Your Password - Wanankucha", and a body that contains the reset URL, unless the service is not configured |
| EmailService.IssuedTokenAppearsVerbatim | api/Wanankucha.Api.Infrastructure/Services/Email/ResendEmailService.cs:74 | a token issued by forgot-password appears unescaped in the link |
| SharedResponses.MakeApi | shared/Wanankucha.Shared/Wrappers/ApiResponse.cs:10-38 | what each `ApiResponse` constructor leaves: `(data)` and `(data, message)` succeed with the data; `(message)` fails with the message; `(errors)` fails with the errors and the empty message |
| SharedResponses.ApiSucceedsIffData | shared/Wanankucha.Shared/Wrappers/ApiResponse.cs:13-38 | a constructed response has data exactly when it succeeded |
| TokenStorage.GetToken | web/Wanankucha.Web/Services/CookieTokenStorageService.cs:20-35 | a cached token is returned without reading storage; a successful read is cached and returned; a failed or throwing read gives null; a cache that agrees with storage stays in agreement |
| TokenStorage.SetToken | web/Wanankucha.Web/Services/CookieTokenStorageService.cs:37-41 | the token is both cached and stored |
| TokenStorage.ClearToken | web/Wanankucha.Web/Services/CookieTokenStorageService.cs:43-47 | the cache is emptied and the stored token deleted |
| TokenStorage.IsAuthenticated | web/Wanankucha.Web/Services/CookieTokenStorageService.cs:49-53 | authenticated exactly when a token is found and its expiration is after `now` |
| TokenStorage.GetAfterSet | web/Wanankucha.Web/Services/CookieTokenStorageService.cs:37-41 | after setting `t`, getting returns `t`, whatever the storage does |
| TokenStorage.NothingAfterClear | web/Wanankucha.Web/Services/CookieTokenStorageService.cs:43-53 | after a clear, no token is found and the client is not authenticated |
| TokenStorage.ExpiryIsStrict | web/Wanankucha.Web/Services/CookieTokenStorageService.cs:52 | a token counts as authenticated up to one tick before its expiration, and not at it |
| AuthState.FromClaims | web/Wanankucha.Web/Auth/JwtAuthenticationStateProvider.cs:58-62 | the principal is signed in exactly when the access token can be read |
| AuthState.GetAuthenticationState | web/Wanankucha.Web/Auth/JwtAuthenticationStateProvider.cs:23-68 | the decision table: no token or an empty access token gives anonymous; an unexpired token gives its claims; an expired one is refreshed, and a failed or impossible refresh clears storage and gives anonymous |
| AuthState.UnexpiredTokenNeedsNoRefresh | web/Wanankucha.Web/Auth/JwtAuthenticationStateProvider.cs:35-62 | for an unexpired token, the outcome does not depend on the refresh reply |
| AuthState.SignedInOnlyWithLiveOrRenewedToken | web/Wanankucha.Web/Auth/JwtAuthenticationStateProvider.cs:27-62 | a signed-in principal comes either from the stored token unexpired or from a successful refresh, and the cache stays in agreement with storage |
| LegacyUsers.Find | Wanankucha.Persistence/Repositories/UserRepository.cs:14-27 | returns the first row that matches; there is no soft-delete filter |
| LegacyUsers.ExistsIffFound | Wanankucha.Persistence/Repositories/UserRepository.cs:29-33 | `Exists*` agrees with `Find*` on the same key |
| LegacyUsers.DeletedRowsStayVisible | Wanankucha.Persistence/Repositories/UserRepository.cs:17-18 | a soft-deleted row is still found by its email |
| LegacyUsers.GetAll | Wanankucha.Persistence/Repositories/UserRepository.cs:35-39 | an error exactly when the wrapped product or the size is negative; otherwise at most `size` rows, and for an in-range product the store-order slice from `page * size` |
| LegacyUsers.MapToDto | Wanankucha.Application/Services/UserService.cs:94-105 | the dto carries identity and the refresh pair only |
| LegacyUsers.MakeLegacy | Wanankucha.Application/Wrappers/ServiceResponse.cs:10-31 | what each older constructor leaves: `(data, message)` does not assign errors, and the parameterless one leaves the message null |
| LegacyUsers.LegacySucceedsIffData | Wanankucha.Application/Wrappers/ServiceResponse.cs:10-31 | a constructed response has data exactly when it succeeded, and a null message exactly for the parameterless constructor |
| LegacyUsers.Registered | Wanankucha.Application/Services/UserService.cs:36-48 | the new row keeps the names as typed, their upper-cased forms and the password's hash, and is stamped as created |
| LegacyUsers.CreateUser | Wanankucha.Application/Services/UserService.cs:22-51 | the email check comes first, then the username; on a conflict nothing is added; when both names are free but the drawn id is a row's primary key, the save throws and the store is unchanged; it succeeds exactly when neither name nor the id is taken, and then adds the row and returns its id |
| LegacyUsers.CreateUserKeepsNamesUnique | Wanankucha.Application/Services/UserService.cs:24-48 | registration keeps normalised emails and usernames unique |
| LegacyUsers.CreateUserKeepsIdsUnique | Wanankucha.Application/Services/UserService.cs:36-48 | the primary key on `Id` keeps ids unique across registrations |
| LegacyUsers.CheckPassword | Wanankucha.Application/Services/UserService.cs:62-68 | false for an unknown id; otherwise what `verify` says |
| LegacyUsers.RegisteredPasswordChecks | Wanankucha.Application/Services/UserService.cs:44-68 | with a sound hasher, a newly registered password checks out |
| LegacyUsers.UpdateRefreshToken | Wanankucha.Application/Services/UserService.cs:77-85 | sets both refresh fields of that row, stamps it only when a value changed, and leaves every other column and row as it was; an unknown id changes nothing |
| Scenarios.RegisterThenLogin | api/Wanankucha.Api.Application/Services/UserService.cs:36-50 | after a successful registration into a valid store, logging in with the email and password succeeds with the corrected lookup, and with the lookup as written unless an older visible account has that email as its username |
| Scenarios.ResetRevokesRefreshToken | api/Wanankucha.Api.Application/Features/Commands/AppUser/ResetPassword/ResetPasswordCommandHandler.cs:55-57 | after a reset, a refresh with a token the account held before fails |
| Scenarios.ResetTokenLastsOneHour | api/Wanankucha.Api.Application/Features/Commands/AppUser/ForgotPassword/ForgotPasswordCommandHandler.cs:32-34 | a token just issued is redeemable exactly one hour later and not one tick after that |

## Left out

- Logging, cancellation tokens, dependency-injection wiring, hosting, rate limiting and the Hangfire schedule: none of them changes what a handler computes.
- Concurrency: each handler call is one atomic step, so lost updates between concurrent calls are not modelled.
- The JWT signing, the random bytes of the refresh token and BCrypt are library code. They are the `TokenIssuer` and `Hasher` parameters.
- The identity-framework handlers of the older revision delegate to a user manager whose rules are not visible, so they are not modelled. The older revision's model is the registration service, the repository, the response type and the stamping.
- The MediatR validation pipeline behaviour is not part of this model. The validators produce the failure list, and `ExceptionMiddleware.HandleException` gives the reply for a validation failure.
- The `EmailAddress()` shape check is the `isEmail` parameter.
- The default `Pagination` instance is a parameter, because the `Pagination` class is not part of this model.
- The HTML of the reset mail, apart from the two places that hold the link, is a template parameter.
- The JWT claims parsing is the `readable` parameter. An unreadable token stands for the exception the provider catches.
- The HTTP refresh reply is a parameter. AuthState.GetAuthenticationState also stores the renewed token, because the web `AuthService.RefreshTokenAsync` it calls does so on success; that service is otherwise not part of this model.
- `SetAsync` and `DeleteAsync` of the protected session storage are taken never to throw.
- LoginUser.MinutesLeft: the lock message counts the remaining minutes with an exact integer ceiling, not with floating-point `Math.Ceiling(TotalMinutes)`.
- Text.ToUpperInvariant: only ASCII letters are upper-cased; other characters are kept as they are.
- Validators.ValidateCreateUser: lengths are counted in Unicode scalar values, whereas .NET counts UTF-16 code units, so a character outside the Basic Multilingual Plane counts once here and twice there.
- UriEscape.Escape: a string holding a lone surrogate cannot be written here, so the exception `Uri.EscapeDataString` throws for one is not modelled.
- Clock: `DateTime` arithmetic is unbounded, so `AddHours` and `AddDays` near `DateTime.MaxValue` do not throw as they do in .NET.
- UserStore.Find: `FindAsync` for the id lookup is modelled as a query. The change tracker's local cache is not modelled.
- UserStore.NextPageContinues: `OrderBy(CreatedDate)` fixes no order among accounts created at the same instant, and rows added in one save share that instant. PostgreSQL may order such ties differently in each page's query, so the source can skip or repeat a tied account across pages. The lemma holds for one fixed tie order, the insertion order `Seqs.SortBy` gives, which is one admissible outcome.
- UserStore.FirstPagesArePrefix: the same tie-order assumption, across `n` separate queries.
- LegacyUsers: the older `AppDbContext` is an `IdentityDbContext<AppUser, AppRole, Guid>`, so its `Users` set holds Identity's `AppUser`, while the repository and the service read and add the domain `User`; as written the two do not type-check together. The model takes the domain-`User` reading: a table with only the primary key on `Id`, no unique or name index, and the `Added` stamp of `SaveChangesAsync`, since `User` is a `BaseEntity<Guid>`. The `AppUser` reading would add Identity's unique index on `NormalizedUserName` and its 256-character limits on the names and emails, so a duplicate username would also be refused by the database, and it would drop the `CreatedDate` stamp, because `AppUser` is not a `BaseEntity<Guid>`.
- LegacyUsers.GetAll: the older query has no `OrderBy` at all, so PostgreSQL fixes no row order. The store-order slice in its contract is one admissible outcome, and two page queries need not agree on an order.
- EmailService.IsConfigured: `StartsWith("re_")` is the culture-sensitive overload in .NET, which ignores characters such as U+FEFF or U+00AD; the model compares the prefix character by character, so a key like `"\uFEFFre_x"` counts as configured there and not here.
- EmailService.SendEmail: "configured" is the character-by-character prefix test of `EmailService.IsConfigured` above.
- EmailService.SendPasswordResetEmail: its skip condition is the same character-by-character `EmailService.IsConfigured`.
- Clock: each handler call is modelled at a single instant `now`, whereas the source reads `DateTime.UtcNow` several times. The lock check and the remaining time of the lock message read the clock separately, so a lock that ends between the two reads gives "try again in -0 minutes" in the source; in the model `MinutesLeft` is at least 1 whenever `IsLocked` holds. Likewise `SaveChangesAsync` reads the clock once per entry, and the cleanup job stamps its save at a later instant than the one its queries compare against.
- UserStore.Find: `FirstOrDefaultAsync` without `OrderBy` leaves the row order to the database. The model takes the first match in store order, which is one admissible outcome. Where several visible rows match (the email-or-username key, a repeated refresh token), the database may return another of them. The second Findings row needs only one admissible outcome in which the squatting account is returned.
- RefreshToken.RotationIsSingleUse: requires that no other account holds the old token, because the refresh-token index is not unique and another account with the same string would still be found.
- CleanupExpiredTokens.Cleanup: the two counters are natural numbers, not 32-bit `int`s; they cannot wrap for a store of fewer than 2^31 accounts.
- The role lookup is the only role operation modelled. Adding roles and user roles has no logic beyond the insert.

## Findings

| source | as written | input that shows it | evidently intended | confidence | as-written member | corrected member |
|---|---|---|---|---|---|---|
| api/Wanankucha.Api.Persistence/Repositories/UserRepository.cs:38 | `Skip(page * size)` multiplies two `int`s without a check, so the offset wraps modulo 2^32, to a smaller or a negative value | `page = size = 65536` with at least one account: the offset becomes 0, and page 65536 repeats the first page instead of being empty; `page = size = 46341`: the offset becomes negative, PostgreSQL refuses it and the request fails with a 500 instead of returning an empty page | skip `page * size` accounts, with the true product | not executed | UserStore.GetAllAsWritten (shown by UserStore.PageOffsetWraps and UserStore.PageOffsetTurnsNegative) | UserStore.GetAll (with UserStore.NextPageContinues) |
| api/Wanankucha.Api.Persistence/Repositories/UserRepository.cs:23-24 | `FirstOrDefault(email == k \|\| username == k)` returns the first row matching either field | an older account has username `b@x` and a newer one has email `b@x`; logging in as `b@x` with the newer account's password picks the older account, fails, and raises the older account's failure count | an account's own email always reaches that account | not executed | LoginUser.LoginAsWritten (shown by LoginUser.EmailLoginHijackedByUsername) | LoginUser.Login (with UserStore.FindForLoginReachesEmailOwner and LoginUser.EmailOwnerLogsInWhenCorrected) |

=== FILE: accounts.dfy ===
/** The account record (`User`) and the data it is projected to. */
module Accounts {
  import opened Wrappers
  import opened Clock
  import opened Int32
  import opened Hex
  import Stamping

  /**
   * A `User` row: the `BaseEntity<Guid>` columns, identity, credential and lockout state.
   * The navigation collection of user roles is not part of the model.
   */
  datatype Account = Account(
    id: Guid,
    createdDate: Time,
    updatedDate: Option<Time>,
    isDeleted: bool,
    userName: string,
    normalizedUserName: string,
    email: string,
    normalizedEmail: string,
    nameSurname: string,
    passwordHash: string,
    refreshToken: Option<string>,
    refreshTokenEndDate: Option<Time>,
    passwordResetToken: Option<string>,
    passwordResetTokenExpiry: Option<Time>,
    failedLoginAttempts: int32,
    lockoutEnd: Option<Time>,
    lockoutEnabled: bool)

  /** `new User { Id = id }`: every other property at its declared default. */
  function NewUser(id: Guid): (u: Account)
    ensures u.id == id
    ensures u.lockoutEnabled
    ensures u.failedLoginAttempts == 0 && u.lockoutEnd.None?
    ensures u.refreshToken.None? && u.refreshTokenEndDate.None?
    ensures u.passwordResetToken.None? && u.passwordResetTokenExpiry.None?
    ensures u.userName == u.normalizedUserName == u.email == u.normalizedEmail == u.nameSurname == u.passwordHash == ""
    ensures !u.isDeleted && u.createdDate == DefaultTime && u.updatedDate.None?
  {
    Account(id, DefaultTime, None, false, "", "", "", "", "", "", None, None, None, None, 0, None, true)
  }

  /** The `BaseEntity` stamps of an account. */
  function StampsOf(u: Account): Stamping.Stamps {
    Stamping.Stamps(u.createdDate, u.updatedDate)
  }

  /** The account as `SaveChangesAsync` leaves it when its entry is in `state`. */
  function Saved(u: Account, state: Stamping.EntityState, now: Time): (r: Account)
    ensures state == Stamping.Added ==> r == u.(createdDate := now)
    ensures state == Stamping.Modified ==> r == u.(updatedDate := Some(now))
    ensures !(state in {Stamping.Added, Stamping.Modified}) ==> r == u
  {
    var st := Stamping.Stamp(state, StampsOf(u), now);
    u.(createdDate := st.createdDate, updatedDate := st.updatedDate)
  }

  /** The result of `userRepository.Update(user)` followed by a save at `now`. */
  function Updated(u: Account, now: Time): Account {
    Saved(u, Stamping.Modified, now)
  }

  /** Both halves of the refresh pair are present, or neither is. */
  predicate RefreshPairConsistent(u: Account) {
    u.refreshToken.Some? <==> u.refreshTokenEndDate.Some?
  }

  /** Both halves of the reset pair are present, or neither is. */
  predicate ResetPairConsistent(u: Account) {
    u.passwordResetToken.Some? <==> u.passwordResetTokenExpiry.Some?
  }

  predicate PairsConsistent(u: Account) {
    RefreshPairConsistent(u) && ResetPairConsistent(u)
  }

  /** `UserDto`: the fields of an account a caller of the user service may see. */
  datatype UserDto = UserDto(
    id: Guid,
    email: Option<string>,
    userName: Option<string>,
    nameSurname: string,
    refreshToken: Option<string>,
    refreshTokenEndDate: Option<Time>)

  /**
   * `MapToDto`: copies identity and refresh state; the dto has no field for the password
   * hash, reset token or lockout state, so two accounts differing only there map alike.
   */
  function MapToDto(u: Account): (d: UserDto)
    ensures d.id == u.id && d.email == Some(u.email) && d.userName == Some(u.userName)
    ensures d.nameSurname == u.nameSurname
    ensures d.refreshToken == u.refreshToken && d.refreshTokenEndDate == u.refreshTokenEndDate
  {
    UserDto(u.id, Some(u.email), Some(u.userName), u.nameSurname, u.refreshToken, u.refreshTokenEndDate)
  }

  /** Nothing of the password hash, the reset pair or the lockout state reaches the dto. */
  lemma MapToDtoHidesSecrets(u: Account, v: Account)
    requires v == u.(passwordHash := v.passwordHash, passwordResetToken := v.passwordResetToken,
                     passwordResetTokenExpiry := v.passwordResetTokenExpiry,
                     failedLoginAttempts := v.failedLoginAttempts, lockoutEnd := v.lockoutEnd)
    ensures MapToDto(u) == MapToDto(v)
  {
  }

  /** `Role`: the columns a role lookup reads. */
  datatype Role = Role(id: Guid, name: string, normalizedName: string, isDeleted: bool)
}

=== FILE: api_response.dfy ===
/** The shared `ApiResponse<T>` that the web client reads. */
module SharedResponses {
  import opened Wrappers

  datatype ApiResponse<T> = ApiResponse(data: Option<T>, succeeded: bool, message: string, errors: Option<seq<string>>)

  /** The five constructors of `ApiResponse<T>`. */
  datatype ApiCtor<T> =
    | Parameterless
    | WithData(d: T)
    | WithDataAndMessage(d: T, m: string)
    | WithMessage(m: string)
    | WithErrors(list: seq<string>)

  /** What each constructor sets; a property it does not assign keeps its initial value. */
  function MakeApi<T>(c: ApiCtor<T>): (r: ApiResponse<T>)
    ensures c.Parameterless? ==> !r.succeeded && r.data.None? && r.message == "" && r.errors.None?
    ensures c.WithData? ==> r.succeeded && r.data == Some(c.d) && r.message == "" && r.errors.None?
    ensures c.WithDataAndMessage? ==> r.succeeded && r.data == Some(c.d) && r.message == c.m && r.errors.None?
    ensures c.WithMessage? ==> !r.succeeded && r.data.None? && r.message == c.m && r.errors.None?
    ensures c.WithErrors? ==> !r.succeeded && r.data.None? && r.message == "" && r.errors == Some(c.list)
  {
    var blank := ApiResponse(None, false, "", None);
    match c
    case Parameterless => blank
    case WithData(d) => blank.(succeeded := true, data := Some(d))
    case WithDataAndMessage(d, m) => blank.(succeeded := true, message := m, data := Some(d))
    case WithMessage(m) => blank.(succeeded := false, message := m)
    case WithErrors(list) => blank.(succeeded := false, errors := Some(list))
  }

  /** Only the data-carrying constructors report success, and a reply with errors is a failure. */
  lemma ApiSucceedsIffData<T>(c: ApiCtor<T>)
    ensures MakeApi(c).succeeded <==> MakeApi(c).data.Some?
    ensures MakeApi(c).errors.Some? ==> !MakeApi(c).succeeded
  {
  }
}

=== FILE: auth_controller.dfy ===
/**
 * `AuthController`: each action sends its request to the handler and picks the HTTP status
 * from the reply. An exception escaping the handler reaches `GlobalExceptionHandlerMiddleware`
 * instead.
 */
module AuthController {
  import opened Wrappers
  import opened Clock
  import opened Text
  import opened Hex
  import opened Credentials
  import opened UserStore
  import opened Responses
  import LoginUser
  import RefreshToken
  import ForgotPassword
  import ResetPassword
  import UserService
  import ExceptionMiddleware

  const Ok: int := 200
  const BadRequest: int := 400

  datatype ActionResult<T> = ActionResult(status: int, body: ServiceResponse<T>)

  /** What the client gets: the action's result, or the middleware's reply to an exception. */
  datatype Reply<T> = Answered(result: ActionResult<T>) | Faulted(error: ExceptionMiddleware.ErrorReply)

  /** `Login`, `RefreshToken`, `Register` and `ResetPassword`: 200 on success, 400 otherwise. */
  function ByOutcome<T>(response: ServiceResponse<T>): (r: ActionResult<T>)
    ensures r.status == Ok <==> response.succeeded
    ensures r.status == Ok || r.status == BadRequest
    ensures r.body == response
  {
    if response.succeeded then ActionResult(Ok, response) else ActionResult(BadRequest, response)
  }

  /** `ForgotPassword`: always 200. */
  function AlwaysOk<T>(response: ServiceResponse<T>): (r: ActionResult<T>)
    ensures r.status == Ok && r.body == response
  {
    ActionResult(Ok, response)
  }

  /**
   * The `Login` action over the login handler as written: 200 exactly when the first visible
   * account whose email or username is the upper-cased identifier is unlocked and the password
   * verifies against it.
   */
  function LoginAction(s: Store, now: Time, h: Hasher, iss: TokenIssuer, req: LoginUser.LoginRequest): (r: Handled<ActionResult<Token>>)
    ensures var found := Find(s, ByEmailOrUserName(ToUpperInvariant(req.emailOrUserName)));
      r.response.status == Ok <==>
        found.Some? && !LoginUser.IsLocked(s[found.value], now) && h.verify(req.password, s[found.value].passwordHash)
    ensures r.response.status != Ok ==> r.response.status == BadRequest && !r.response.body.succeeded
  {
    var handled := LoginUser.LoginAsWritten(s, now, h, iss, req);
    Handled(handled.store, ByOutcome(handled.response))
  }

  /** The `RefreshToken` action: 200 exactly when a visible account holds the token and it has not expired. */
  function RefreshAction(s: Store, now: Time, iss: TokenIssuer, presented: string): (r: Handled<ActionResult<Token>>)
    ensures var f := Find(s, ByRefreshToken(presented));
      r.response.status == Ok <==> f.Some? && !RefreshToken.Expired(s[f.value], now)
    ensures r.response.status != Ok ==>
      r.response == ActionResult(BadRequest, OfMessage(RefreshToken.InvalidRefresh)) && r.store == s
  {
    var handled := RefreshToken.Refresh(s, now, iss, presented);
    Handled(handled.store, ByOutcome(handled.response))
  }

  /**
   * The `Register` action over `CreateUserAsync`: 200 with the new id, 400 with the conflict
   * message, or, when a unique index refuses the row, the middleware's 500.
   */
  function RegisterAction(s: Store, now: Time, h: Hasher, newId: Guid, nameSurname: string, email: string,
                          userName: string, password: string): (r: (Store, Reply<Guid>))
    ensures var c := UserService.Conflict(s, email, userName);
      && (c.Some? ==> r == (s, Answered(ActionResult(BadRequest, OfMessage(c.value)))))
      && (c.None? ==>
            var u := UserService.Registered(newId, now, h, nameSurname, email, userName, password);
            && (CanInsert(s, u) ==> r == (s + [u], Answered(ActionResult(Ok, OfDataMessage(newId, UserService.UserCreated)))))
            && (!CanInsert(s, u) ==> r.0 == s && r.1.Faulted? && r.1.error.status == ExceptionMiddleware.InternalServerError))
  {
    match UserService.CreateUser(s, now, h, newId, nameSurname, email, userName, password)
    case Committed(handled) => (handled.store, Answered(ByOutcome(handled.response)))
    case ConstraintViolated(kept) =>
      (kept, Faulted(ExceptionMiddleware.HandleException(ExceptionMiddleware.OtherException("DbUpdateException"))))
  }

  /** The `ForgotPassword` action: 200 and the one fixed answer, for every email. */
  function ForgotAction(s: Store, now: Time, g1: Guid, g2: Guid, email: string, mailFails: bool): (r: Handled<ActionResult<string>>)
    ensures r.response == ActionResult(Ok, ForgotPassword.Answer)
  {
    var outcome := ForgotPassword.Forgot(s, now, g1, g2, email, mailFails);
    Handled(outcome.handled.store, AlwaysOk(outcome.handled.response))
  }

  /** The `ResetPassword` action: 200 exactly when the presented token can be redeemed. */
  function ResetAction(s: Store, now: Time, h: Hasher, req: ResetPassword.ResetRequest): (r: Handled<ActionResult<string>>)
    ensures var f := Find(s, ByEmail(ToUpperInvariant(req.email)));
      r.response.status == Ok <==> f.Some? && ResetPassword.Redeemable(s[f.value], req.token, now)
    ensures r.response.status != Ok ==>
      r == Handled(s, ActionResult(BadRequest, ResetPassword.Refusal))
  {
    var handled := ResetPassword.Reset(s, now, h, req);
    Handled(handled.store, ByOutcome(handled.response))
  }

  /**
   * No enumeration over HTTP: whether the email is known or not, and whether the mailer fails
   * or not, the status and body are the same.
   */
  lemma ForgotStatusRevealsNothing(s: Store, now: Time, g1: Guid, g2: Guid, known: string, unknown: string,
                                   fails: bool, fails': bool)
    ensures ForgotAction(s, now, g1, g2, known, fails).response == ForgotAction(s, now, g1, g2, unknown, fails').response
  {
  }
}

=== FILE: auth_state.dfy ===
/**
 * The web client's `JwtAuthenticationStateProvider.GetAuthenticationStateAsync`: decides from
 * the stored token whether the user is signed in, refreshing an expired access token when a
 * refresh token is at hand. The refresh call's reply and whether a JWT can be read are
 * parameters; the claims themselves are not modelled.
 */
module AuthState {
  import opened Wrappers
  import opened Clock
  import opened TokenStorage
  import opened SharedResponses

  /** An anonymous principal, or one built from the claims of this access token. */
  datatype Principal = Anonymous | SignedIn(accessToken: string)

  predicate IsNullOrEmpty(s: Option<string>) {
    s.None? || s.value == ""
  }

  /** `Expiration <= DateTime.UtcNow` */
  predicate ExpiredAt(t: TokenDto, now: Time) {
    t.expiration <= now
  }

  /**
   * The principal for a token that survived the checks; reading a JWT that cannot be read
   * throws, and the provider's catch turns that into an anonymous principal.
   */
  function FromClaims(t: TokenDto, readable: string -> bool): (p: Principal)
    ensures p.SignedIn? <==> t.accessToken.Some? && readable(t.accessToken.value)
    ensures p.SignedIn? ==> p.accessToken == t.accessToken.value
  {
    if t.accessToken.Some? && readable(t.accessToken.value) then SignedIn(t.accessToken.value) else Anonymous
  }

  /**
   * `GetAuthenticationStateAsync`. `refreshReply` is what `RefreshTokenAsync` answers; on a
   * successful reply with data, `AuthService` has already stored the new token.
   */
  function GetAuthenticationState(st: StorageState, now: Time, fault: ReadFault,
                                  refreshReply: ApiResponse<TokenDto>, readable: string -> bool): (r: (Principal, StorageState))
    ensures var (token, st1) := GetToken(st, fault);
      && (token.None? || IsNullOrEmpty(token.value.accessToken) ==> r == (Anonymous, st1))
      && (token.Some? && !IsNullOrEmpty(token.value.accessToken) && !ExpiredAt(token.value, now) ==>
            r == (FromClaims(token.value, readable), st1))
      && (token.Some? && !IsNullOrEmpty(token.value.accessToken) && ExpiredAt(token.value, now) ==>
            if IsNullOrEmpty(token.value.refreshToken) || !refreshReply.succeeded || refreshReply.data.None?
            then r == (Anonymous, ClearToken(st1))
            else r == (FromClaims(refreshReply.data.value, readable), SetToken(st1, refreshReply.data.value)))
  {
    var (token, st1) := GetToken(st, fault);
    if token.None? || IsNullOrEmpty(token.value.accessToken) then (Anonymous, st1)
    else if ExpiredAt(token.value, now) then
      if IsNullOrEmpty(token.value.refreshToken) then (Anonymous, ClearToken(st1))
      else if refreshReply.succeeded && refreshReply.data.Some? then
        (FromClaims(refreshReply.data.value, readable), SetToken(st1, refreshReply.data.value))
      else (Anonymous, ClearToken(st1))
    else (FromClaims(token.value, readable), st1)
  }

  /** A token that has not expired is used as it is: the refresh reply plays no part. */
  lemma UnexpiredTokenNeedsNoRefresh(st: StorageState, now: Time, fault: ReadFault,
                                     reply: ApiResponse<TokenDto>, reply': ApiResponse<TokenDto>, readable: string -> bool)
    requires GetToken(st, fault).0.Some? && !ExpiredAt(GetToken(st, fault).0.value, now)
    ensures GetAuthenticationState(st, now, fault, reply, readable) == GetAuthenticationState(st, now, fault, reply', readable)
  {
  }

  /**
   * Signed in means a usable token: either the stored one has not expired, or a refresh
   * succeeded and its token is now stored and cached. An anonymous outcome after an expired
   * token leaves nothing stored.
   */
  lemma SignedInOnlyWithLiveOrRenewedToken(st: StorageState, now: Time, fault: ReadFault,
                                           reply: ApiResponse<TokenDto>, readable: string -> bool)
    requires Coherent(st)
    ensures var (p, st') := GetAuthenticationState(st, now, fault, reply, readable);
      && Coherent(st')
      && (p.SignedIn? ==>
            (st.stored.Some? && !ExpiredAt(st.stored.value, now) && st.stored.value.accessToken == Some(p.accessToken))
            || (reply.succeeded && reply.data.Some? && st'.cached == reply.data && reply.data.value.accessToken == Some(p.accessToken)))
  {
  }
}

=== FILE: cleanup.dfy ===
/**
 * `CleanupExpiredTokensJob.ExecuteAsync`: the hourly sweep. Among the accounts the query
 * filter lets through, it clears every reset pair whose expiry is before `now`, then every
 * refresh pair whose end date is before `now`, counts both, and saves only when it cleared
 * something.
 */
module CleanupExpiredTokens {
  import opened Wrappers
  import opened Clock
  import opened Seqs
  import opened Accounts
  import opened UserStore

  /** Selected by the first query: visible, with a reset expiry strictly before `now`. */
  predicate ResetExpired(u: Account, now: Time) {
    Visible(u) && u.passwordResetTokenExpiry.Some? && LiftedLess(u.passwordResetTokenExpiry, now)
  }

  /** Selected by the second query: visible, with a refresh end date strictly before `now`. */
  predicate RefreshExpired(u: Account, now: Time) {
    Visible(u) && u.refreshTokenEndDate.Some? && LiftedLess(u.refreshTokenEndDate, now)
  }

  function ResetExpiredAt(now: Time): Account -> bool {
    u => ResetExpired(u, now)
  }

  function RefreshExpiredAt(now: Time): Account -> bool {
    u => RefreshExpired(u, now)
  }

  function ClearReset(u: Account): Account {
    u.(passwordResetToken := None, passwordResetTokenExpiry := None)
  }

  function ClearRefresh(u: Account): Account {
    u.(refreshToken := None, refreshTokenEndDate := None)
  }

  /** The first sweep's effect on one account. */
  function ResetStep(u: Account, now: Time): (r: Account)
    ensures RefreshExpired(r, now) == RefreshExpired(u, now) && Visible(r) == Visible(u)
  {
    if ResetExpired(u, now) then ClearReset(u) else u
  }

  /** The second sweep's effect on one account. */
  function RefreshStep(u: Account, now: Time): Account {
    if RefreshExpired(u, now) then ClearRefresh(u) else u
  }

  /** `SaveChangesAsync` after the sweeps: a row the sweeps changed is stamped as modified. */
  function StampIfChanged(before: Account, after: Account, now: Time): Account {
    if after != before then Updated(after, now) else after
  }

  /**
   * What one run does to one account: each expired pair is cleared as a pair, the other pair
   * and every pair not expired are kept, and a changed account gets its update stamp.
   */
  function Swept(u: Account, now: Time): (r: Account)
    ensures !ResetExpired(r, now) && !RefreshExpired(r, now)
    ensures ResetExpired(u, now) ==> r.passwordResetToken.None? && r.passwordResetTokenExpiry.None?
    ensures !ResetExpired(u, now) ==>
      r.passwordResetToken == u.passwordResetToken && r.passwordResetTokenExpiry == u.passwordResetTokenExpiry
    ensures RefreshExpired(u, now) ==> r.refreshToken.None? && r.refreshTokenEndDate.None?
    ensures !RefreshExpired(u, now) ==>
      r.refreshToken == u.refreshToken && r.refreshTokenEndDate == u.refreshTokenEndDate
    ensures r == u <==> !ResetExpired(u, now) && !RefreshExpired(u, now)
    ensures r != u ==> r.updatedDate == Some(now)
    ensures SameIndexedColumns(u, r) && r.passwordHash == u.passwordHash && r.isDeleted == u.isDeleted
  {
    StampIfChanged(u, RefreshStep(ResetStep(u, now), now), now)
  }

  /** The store after a run, row by row. */
  function SweepStore(s: Store, now: Time): (r: Store)
    ensures |r| == |s|
    ensures forall i :: 0 <= i < |s| ==> r[i] == Swept(s[i], now)
  {
    if s == [] then [] else [Swept(s[0], now)] + SweepStore(s[1..], now)
  }

  /** The first query and loop: clear each expired reset pair, counting them. */
  method SweepResets(s: Store, now: Time) returns (out: Store, count: nat)
    ensures |out| == |s| && forall j :: 0 <= j < |s| ==> out[j] == ResetStep(s[j], now)
    ensures count == CountWhere(s, ResetExpiredAt(now))
  {
    out := s;
    count := 0;
    for i := 0 to |s|
      invariant |out| == |s|
      invariant forall j :: 0 <= j < i ==> out[j] == ResetStep(s[j], now)
      invariant forall j :: i <= j < |s| ==> out[j] == s[j]
      invariant count == CountWhere(s[..i], ResetExpiredAt(now))
    {
      CountWherePrefixStep(s, i, ResetExpiredAt(now));
      if ResetExpiredAt(now)(s[i]) {
        count := count + 1;
      }
      out := out[i := ResetStep(s[i], now)];
    }
    assert s[..|s|] == s;
  }

  /** The second query and loop: clear each expired refresh pair, counting them. */
  method SweepRefreshes(s: Store, now: Time) returns (out: Store, count: nat)
    ensures |out| == |s| && forall j :: 0 <= j < |s| ==> out[j] == RefreshStep(s[j], now)
    ensures count == CountWhere(s, RefreshExpiredAt(now))
  {
    out := s;
    count := 0;
    for i := 0 to |s|
      invariant |out| == |s|
      invariant forall j :: 0 <= j < i ==> out[j] == RefreshStep(s[j], now)
      invariant forall j :: i <= j < |s| ==> out[j] == s[j]
      invariant count == CountWhere(s[..i], RefreshExpiredAt(now))
    {
      CountWherePrefixStep(s, i, RefreshExpiredAt(now));
      if RefreshExpiredAt(now)(s[i]) {
        count := count + 1;
      }
      out := out[i := RefreshStep(s[i], now)];
    }
    assert s[..|s|] == s;
  }

  /** The save: every row that differs from its state before the sweeps gets its update stamp. */
  method SaveChanged(before: Store, after: Store, now: Time) returns (out: Store)
    requires |after| == |before|
    ensures |out| == |before| && forall j :: 0 <= j < |before| ==> out[j] == StampIfChanged(before[j], after[j], now)
  {
    out := after;
    for i := 0 to |before|
      invariant |out| == |before|
      invariant forall j :: 0 <= j < i ==> out[j] == StampIfChanged(before[j], after[j], now)
      invariant forall j :: i <= j < |before| ==> out[j] == after[j]
    {
      if out[i] != before[i] {
        out := out[i := Updated(out[i], now)];
      }
    }
  }

  /**
   * `ExecuteAsync`: the two sweeps as the job runs them, then the save, which happens only
   * when a sweep cleared something.
   */
  method Cleanup(s: Store, now: Time) returns (out: Store, resetCount: nat, refreshCount: nat, saved: bool)
    ensures out == SweepStore(s, now)
    ensures resetCount == CountWhere(s, ResetExpiredAt(now))
    ensures refreshCount == CountWhere(s, RefreshExpiredAt(now))
    ensures saved <==> resetCount > 0 || refreshCount > 0
    ensures !saved ==> out == s
  {
    var afterReset;
    afterReset, resetCount := SweepResets(s, now);
    var afterRefresh;
    afterRefresh, refreshCount := SweepRefreshes(afterReset, now);
    CountWhereAgree(afterReset, RefreshExpiredAt(now), s, RefreshExpiredAt(now));
    saved := resetCount > 0 || refreshCount > 0;
    if saved {
      out := SaveChanged(s, afterRefresh, now);
    } else {
      out := s;
      forall j | 0 <= j < |s| ensures s[j] == Swept(s[j], now) {
        assert !ResetExpiredAt(now)(s[j]) && !RefreshExpiredAt(now)(s[j]);
      }
    }
  }

  /** The sweep is idempotent: a second run at the same instant finds nothing and does not save. */
  lemma SecondRunFindsNothing(s: Store, now: Time)
    ensures CountWhere(SweepStore(s, now), ResetExpiredAt(now)) == 0
    ensures CountWhere(SweepStore(s, now), RefreshExpiredAt(now)) == 0
    ensures SweepStore(SweepStore(s, now), now) == SweepStore(s, now)
  {
    var r := SweepStore(s, now);
    assert forall j :: 0 <= j < |r| ==> !ResetExpiredAt(now)(r[j]) && !RefreshExpiredAt(now)(r[j]);
  }

  /**
   * After a run no visible account holds a reset pair or refresh pair that has expired, and
   * every expiry at or after `now`, and every missing one, is still there.
   */
  lemma NothingExpiredRemains(s: Store, now: Time, i: nat)
    requires i < |s| && Visible(s[i])
    ensures !LiftedLess(SweepStore(s, now)[i].passwordResetTokenExpiry, now)
    ensures !LiftedLess(SweepStore(s, now)[i].refreshTokenEndDate, now)
    ensures !LiftedLess(s[i].passwordResetTokenExpiry, now) ==>
      SweepStore(s, now)[i].passwordResetTokenExpiry == s[i].passwordResetTokenExpiry
    ensures !LiftedLess(s[i].refreshTokenEndDate, now) ==>
      SweepStore(s, now)[i].refreshTokenEndDate == s[i].refreshTokenEndDate
  {
  }

  /** A run never breaks the pairing of token and expiry, and keeps the store valid. */
  lemma SweepKeepsInvariants(s: Store, now: Time)
    requires Valid(s)
    ensures Valid(SweepStore(s, now))
    ensures forall i :: 0 <= i < |s| && PairsConsistent(s[i]) ==> PairsConsistent(SweepStore(s, now)[i])
  {
    RowwiseUpdateKeepsValid(s, SweepStore(s, now));
  }
}

=== FILE: clock.dfy ===
/**
 * Instants are .NET `DateTime` ticks (100 ns each), counted from `DateTime.MinValue`,
 * so the default value of a `DateTime` field is tick 0. A `DateTime?` is an `Option<Time>`.
 */
module Clock {
  import opened Wrappers

  type Time = int

  const TicksPerSecond: int := 10_000_000
  const TicksPerMinute: int := 60 * TicksPerSecond
  const TicksPerHour: int := 60 * TicksPerMinute
  const TicksPerDay: int := 24 * TicksPerHour

  /** The value of a `DateTime` field nobody assigned (`default(DateTime)`). */
  const DefaultTime: Time := 0

  /**
   * C# lifted `a < b` with `a: DateTime?`: false when `a` is null.
   */
  predicate LiftedLess(a: Option<Time>, b: Time) {
    a.Some? && a.value < b
  }

  /**
   * C# lifted `a > b` with `a: DateTime?`: false when `a` is null.
   */
  predicate LiftedGreater(a: Option<Time>, b: Time) {
    a.Some? && a.value > b
  }
}

=== FILE: credentials.dfy ===
/**
 * The collaborators the handlers call but whose insides are libraries: the BCrypt password
 * hasher and the JWT token service. Each is a value holding total functions, so a handler
 * behaves the same for every hasher and issuer it is given.
 */
module Credentials {
  import opened Clock
  import opened Int32
  import opened Accounts

  /** `IPasswordHasher`: `HashPassword` and `VerifyPassword`. */
  datatype Hasher = Hasher(hash: string -> string, verify: (string, string) -> bool)

  /** The one law assumed of the hashing library: a password verifies against its own hash. */
  ghost predicate Sound(h: Hasher) {
    forall p :: h.verify(p, h.hash(p))
  }

  /** The `Token` DTO: access token, its expiry, and the refresh token issued with it. */
  datatype Token = Token(accessToken: string, expiration: Time, refreshToken: string)

  /**
   * `ITokenService`: `sign` stands for the signed JWT built from the account's claims at the
   * given instant, `expirationMinutes` for the configured lifetime and `freshRefresh` for the
   * Base64 text of the 32 random bytes drawn for this call.
   */
  datatype TokenIssuer = TokenIssuer(sign: (Account, Time) -> string, expirationMinutes: int32, freshRefresh: string)

  /** `CreateAccessToken(user)`: expires the configured number of minutes after `now`. */
  function CreateAccessToken(iss: TokenIssuer, u: Account, now: Time): (t: Token)
    ensures t.expiration == now + iss.expirationMinutes * TicksPerMinute
    ensures t.refreshToken == iss.freshRefresh
    ensures t.accessToken == iss.sign(u, now)
  {
    Token(iss.sign(u, now), now + iss.expirationMinutes * TicksPerMinute, iss.freshRefresh)
  }

  /** How long a refresh token outlives the access token issued with it (`AddDays(7)`). */
  const RefreshLifetime: int := 7 * TicksPerDay
}

=== FILE: email_service.dfy ===
/**
 * `ResendEmailService`: the configuration check, the gate in `SendEmailAsync`, and the reset
 * mail `SendPasswordResetEmailAsync` builds. The mail API call is a parameter saying whether
 * it throws.
 */
module EmailService {
  import opened Wrappers
  import opened Text
  import opened Hex
  import opened UriEscape
  import ForgotPassword

  /** The `SmtpOptions` fields the service reads; the API key is kept in `Password`. */
  datatype SmtpOptions = SmtpOptions(password: Option<string>, fromEmail: string, fromName: string, webAppBaseUrl: string)

  datatype EmailMessage = EmailMessage(from: string, to: string, subject: string, htmlBody: string)

  /** Not sent because the service is unconfigured; handed to the API; or the API threw and the exception is rethrown. */
  datatype SendOutcome = Skipped | Sent(message: EmailMessage) | Rethrown(message: EmailMessage)

  const ApiKeyPrefix := "re_"
  const ResetSubject := "Reset Your Password - Wanankucha"
  const ResetPath := "/reset-password?token="
  const EmailParameter := "&email="

  /** `_isConfigured`: a key that is neither null nor empty and starts with `re_`. */
  predicate IsConfigured(o: SmtpOptions) {
    o.password.Some? && |o.password.value| > 0 && StartsWith(o.password.value, ApiKeyPrefix)
  }

  /** `"{FromName} <{FromEmail}>"` */
  function Sender(o: SmtpOptions): (r: string)
    ensures |r| == |o.fromName| + |o.fromEmail| + 3
    ensures r[..|o.fromName|] == o.fromName && r[|o.fromName| + 2..|r| - 1] == o.fromEmail
    ensures r[|o.fromName|] == ' ' && r[|o.fromName| + 1] == '<' && r[|r| - 1] == '>'
  {
    o.fromName + " <" + o.fromEmail + ">"
  }

  /** `SendEmailAsync`; `apiThrows` says whether `EmailSendAsync` throws. */
  function SendEmail(o: SmtpOptions, to: string, subject: string, htmlBody: string, apiThrows: bool): (r: SendOutcome)
    ensures r.Skipped? <==> !IsConfigured(o)
    ensures r.Rethrown? <==> IsConfigured(o) && apiThrows
    ensures !r.Skipped? ==> r.message == EmailMessage(Sender(o), to, subject, htmlBody)
  {
    if !IsConfigured(o) then Skipped
    else
      var message := EmailMessage(Sender(o), to, subject, htmlBody);
      if apiThrows then Rethrown(message) else Sent(message)
  }

  /** The link in the mail: the base URL, the path, and both values percent-encoded. */
  function ResetUrl(o: SmtpOptions, token: string, to: string): (r: string)
    ensures r == o.webAppBaseUrl + ResetPath + Escape(token) + EmailParameter + Escape(to)
    ensures Unescape(r[|o.webAppBaseUrl| + |ResetPath|..|o.webAppBaseUrl| + |ResetPath| + |Escape(token)|]) == Some(token)
  {
    EscapeRoundTrip(token);
    var r := o.webAppBaseUrl + ResetPath + Escape(token) + EmailParameter + Escape(to);
    assert r[|o.webAppBaseUrl| + |ResetPath|..|o.webAppBaseUrl| + |ResetPath| + |Escape(token)|] == Escape(token);
    r
  }

  /**
   * The fixed HTML of the reset mail, around the two places where the link appears. Its text
   * is not part of this model.
   */
  datatype ResetTemplate = ResetTemplate(head: string, middle: string, tail: string)

  function ResetBody(tpl: ResetTemplate, url: string): (r: string)
    ensures OccursAt(r, url, |tpl.head|) && OccursAt(r, url, |tpl.head| + |url| + |tpl.middle|)
  {
    var r := tpl.head + url + tpl.middle + url + tpl.tail;
    assert r[|tpl.head|..|tpl.head| + |url|] == url;
    assert r[|tpl.head| + |url| + |tpl.middle|..|tpl.head| + |url| + |tpl.middle| + |url|] == url;
    r
  }

  /** `SendPasswordResetEmailAsync`: the fixed subject, and a body holding the reset link. */
  function SendPasswordResetEmail(o: SmtpOptions, tpl: ResetTemplate, to: string, resetToken: string, apiThrows: bool): (r: SendOutcome)
    ensures r.Skipped? <==> !IsConfigured(o)
    ensures !r.Skipped? ==>
      && r.message.to == to && r.message.subject == ResetSubject
      && Contains(r.message.htmlBody, ResetUrl(o, resetToken, to))
  {
    var url := ResetUrl(o, resetToken, to);
    SendEmail(o, to, ResetSubject, ResetBody(tpl, url), apiThrows)
  }

  /**
   * A reset token issued by the forgot-password handler is 64 lower-case hex digits, so it
   * appears in the link exactly as issued.
   */
  lemma IssuedTokenAppearsVerbatim(o: SmtpOptions, g1: Guid, g2: Guid, to: string)
    ensures ResetUrl(o, ForgotPassword.ResetToken(g1, g2), to)
         == o.webAppBaseUrl + ResetPath + ForgotPassword.ResetToken(g1, g2) + EmailParameter + Escape(to)
  {
    HexTokenIsNotEscaped(ForgotPassword.ResetToken(g1, g2));
  }
}

=== FILE: exception_middleware.dfy ===
/**
 * `GlobalExceptionHandlerMiddleware.HandleExceptionAsync`: turns an exception escaping a
 * request into a status code and a JSON `ServiceResponse<string>` body.
 */
module ExceptionMiddleware {
  import opened Wrappers
  import opened Responses

  /** The exceptions the mapping tells apart: validation failures and everything else. */
  datatype Failure =
    | ValidationException(message: string, failureMessages: seq<string>)
    | OtherException(message: string)

  const BadRequest: int := 400
  const InternalServerError: int := 500
  const JsonContentType := "application/json"
  const ValidationError := "Validation Error"
  const InternalError := "Internal Server Error"

  datatype ErrorReply = ErrorReply(status: int, contentType: string, body: ServiceResponse<string>)

  function HandleException(e: Failure): (r: ErrorReply)
    ensures !r.body.succeeded && r.contentType == JsonContentType && r.body.data.None?
    ensures e.ValidationException? ==>
      r.status == BadRequest && r.body.message == ValidationError && r.body.errors == Some(e.failureMessages)
    ensures e.OtherException? ==>
      r.status == InternalServerError && r.body.message == InternalError && r.body.errors.None?
  {
    var initial := OfMessage<string>(e.message).(succeeded := false);
    match e
    case ValidationException(_, messages) =>
      ErrorReply(BadRequest, JsonContentType, initial.(errors := Some(messages), message := ValidationError))
    case OtherException(_) =>
      ErrorReply(InternalServerError, JsonContentType, initial.(message := InternalError))
  }

  /** The exception's message never reaches the reply: two exceptions of a kind reply alike. */
  lemma RawMessageNeverLeaks(m: string, m': string, v: seq<string>)
    ensures HandleException(OtherException(m)) == HandleException(OtherException(m'))
    ensures HandleException(ValidationException(m, v)) == HandleException(ValidationException(m', v))
  {
  }
}

=== FILE: forgot_password.dfy ===
/**
 * `ForgotPasswordCommandHandler.Handle`: for a known email, store a fresh one-hour reset token
 * and hand it to the mailer; answer the same way whether or not the email is known. The two
 * `Guid.NewGuid()` draws are parameters.
 */
module ForgotPassword {
  import opened Wrappers
  import opened Clock
  import opened Text
  import opened Hex
  import opened Accounts
  import opened UserStore
  import opened Responses

  const ResetLinkSent := "If the email exists, a password reset link has been sent."
  const ResetTokenLifetime: int := TicksPerHour

  /** The one answer the handler ever gives: the message with `Succeeded` forced to true. */
  const Answer: ServiceResponse<string> := OfMessage<string>(ResetLinkSent).(succeeded := true)

  /** `Guid.NewGuid().ToString("N") + Guid.NewGuid().ToString("N")` */
  function ResetToken(g1: Guid, g2: Guid): (t: string)
    ensures |t| == 64
    ensures forall i :: 0 <= i < |t| ==> IsLowerHexDigit(t[i])
    ensures t[..32] == GuidN(g1) && t[32..] == GuidN(g2)
  {
    GuidN(g1) + GuidN(g2)
  }

  /** The two draws can be read back from the token, so distinct draws give distinct tokens. */
  lemma ResetTokenDeterminesDraws(g1: Guid, g2: Guid, h1: Guid, h2: Guid)
    requires ResetToken(g1, g2) == ResetToken(h1, h2)
    ensures g1 == h1 && g2 == h2
  {
    var t, u := ResetToken(g1, g2), ResetToken(h1, h2);
    assert GuidN(g1) == t[..32] == u[..32] == GuidN(h1);
    assert GuidN(g2) == t[32..] == u[32..] == GuidN(h2);
    GuidNInjective(g1, h1);
    GuidNInjective(g2, h2);
  }

  /** The message the mailer is asked to send: the account's email as typed, and the token. */
  datatype ResetMail = ResetMail(to: string, token: string)

  /** The saved store, the answer, and the mail attempted after the save (if any). */
  datatype ForgotOutcome = ForgotOutcome(handled: Handled<ServiceResponse<string>>, mail: Option<ResetMail>)

  /** The account with a fresh reset pair; nothing else but the update stamp changes. */
  function WithResetToken(u: Account, token: string, now: Time): (r: Account)
    ensures r.passwordResetToken == Some(token)
    ensures r.passwordResetTokenExpiry == Some(now + ResetTokenLifetime)
    ensures ResetPairConsistent(r)
    ensures r == u.(passwordResetToken := r.passwordResetToken,
                    passwordResetTokenExpiry := r.passwordResetTokenExpiry, updatedDate := Some(now))
  {
    Updated(u.(passwordResetToken := Some(token), passwordResetTokenExpiry := Some(now + ResetTokenLifetime)), now)
  }

  /**
   * `Handle`. `mailFails` says whether `SendPasswordResetEmailAsync` throws; the handler
   * catches it, so it changes nothing.
   */
  function Forgot(s: Store, now: Time, g1: Guid, g2: Guid, email: string, mailFails: bool): (r: ForgotOutcome)
    ensures r.handled.response == Answer
    ensures var f := Find(s, ByEmail(ToUpperInvariant(email)));
      && (f.None? ==> r.handled.store == s && r.mail.None?)
      && (f.Some? ==>
            r.handled.store == s[f.value := WithResetToken(s[f.value], ResetToken(g1, g2), now)]
            && r.mail == Some(ResetMail(s[f.value].email, ResetToken(g1, g2))))
  {
    match Find(s, ByEmail(ToUpperInvariant(email)))
    case None => ForgotOutcome(Handled(s, Answer), None)
    case Some(i) =>
      var token := ResetToken(g1, g2);
      var saved := s[i := WithResetToken(s[i], token, now)];
      ForgotOutcome(Handled(saved, Answer), Some(ResetMail(s[i].email, token)))
  }

  /**
   * No enumeration: a known and an unknown email get the same answer, and the answer does not
   * depend on the mailer either.
   */
  lemma AnswerRevealsNothing(s: Store, now: Time, g1: Guid, g2: Guid, known: string, unknown: string,
                             fails: bool, fails': bool)
    ensures Forgot(s, now, g1, g2, known, fails).handled.response
         == Forgot(s, now, g1, g2, unknown, fails').handled.response
    ensures Answer.succeeded && Answer.message == ResetLinkSent
  {
  }

  /** The token is saved before the mail is tried: a failing mailer leaves the same store. */
  lemma MailFailureKeepsToken(s: Store, now: Time, g1: Guid, g2: Guid, email: string)
    ensures Forgot(s, now, g1, g2, email, true) == Forgot(s, now, g1, g2, email, false)
  {
  }

  /**
   * A second request replaces the first token: after two requests only the later token is
   * stored, and the password hash, refresh pair and lockout state are as before either.
   */
  lemma LaterRequestOverwrites(s: Store, now: Time, later: Time, g1: Guid, g2: Guid, h1: Guid, h2: Guid,
                               email: string)
    requires Find(s, ByEmail(ToUpperInvariant(email))).Some?
    ensures var i := Find(s, ByEmail(ToUpperInvariant(email))).value;
      var s2 := Forgot(Forgot(s, now, g1, g2, email, false).handled.store, later, h1, h2, email, false).handled.store;
      && s2[i].passwordResetToken == Some(ResetToken(h1, h2))
      && s2[i].passwordResetTokenExpiry == Some(later + ResetTokenLifetime)
      && s2[i].passwordHash == s[i].passwordHash
      && s2[i].refreshToken == s[i].refreshToken && s2[i].refreshTokenEndDate == s[i].refreshTokenEndDate
      && s2[i].failedLoginAttempts == s[i].failedLoginAttempts && s2[i].lockoutEnd == s[i].lockoutEnd
  {
    var k := ToUpperInvariant(email);
    var i := Find(s, ByEmail(k)).value;
    var s1 := Forgot(s, now, g1, g2, email, false).handled.store;
    assert Find(s1, ByEmail(k)) == Some(i) by {
      assert forall j :: 0 <= j < |s1| ==> (Selects(s1[j], ByEmail(k)) <==> Selects(s[j], ByEmail(k)));
    }
  }

  /** A reset request writes only the reset pair of one row, so the store stays valid. */
  lemma ForgotKeepsValid(s: Store, now: Time, g1: Guid, g2: Guid, email: string, fails: bool)
    requires Valid(s)
    ensures Valid(Forgot(s, now, g1, g2, email, fails).handled.store)
  {
    var f := Find(s, ByEmail(ToUpperInvariant(email)));
    if f.Some? {
      UpdateKeepsValid(s, f.value, WithResetToken(s[f.value], ResetToken(g1, g2), now));
    }
  }
}

=== FILE: get_all_users.dfy ===
/**
 * `GetAllUsersQueryHandler.Handle`: one page of users, each projected to its id text, email,
 * full name and username.
 */
module GetAllUsers {
  import opened Wrappers
  import opened Int32
  import opened Hex
  import opened Accounts
  import opened UserStore
  import opened Responses
  import UserService
  import ExceptionMiddleware

  datatype Pagination = Pagination(page: int32, size: int32)

  /** `GetAllUsersQueryResponse` */
  datatype UserRow = UserRow(id: string, email: string, nameSurname: string, userName: string)

  /** One dto as a response row: the id in its dashed text form, and `""` for a null name. */
  function ToRow(d: UserDto): (r: UserRow)
    ensures r.id == GuidD(d.id) && r.nameSurname == d.nameSurname
    ensures r.email == (if d.email.Some? then d.email.value else "")
    ensures r.userName == (if d.userName.Some? then d.userName.value else "")
  {
    UserRow(GuidD(d.id), d.email.OrElse(""), d.nameSurname, d.userName.OrElse(""))
  }

  /** What the client gets: the handler's response, or the middleware's reply to the database's error. */
  datatype QueryReply =
    | Answered(response: ServiceResponse<seq<UserRow>>)
    | Faulted(error: ExceptionMiddleware.ErrorReply)

  /**
   * `Handle`. The request's pagination may be absent; `defaults` stands for a freshly
   * constructed `Pagination`, whose initial values are not part of this model. When the
   * database refuses the page's bounds the exception escapes to the middleware.
   */
  function GetAllUsersQuery(s: Store, requested: Option<Pagination>, defaults: Pagination): (r: QueryReply)
    ensures var p := requested.OrElse(defaults);
      r.Faulted? <==> Multiply(p.page, p.size) < 0 || p.size < 0
    ensures r.Faulted? ==> r.error.status == ExceptionMiddleware.InternalServerError && !r.error.body.succeeded
    ensures r.Answered? ==> r.response.succeeded && r.response.message == "" && r.response.errors.None?
    ensures r.Answered? ==> var p := requested.OrElse(defaults);
      var page := GetAllAsWritten(s, p.page, p.size).value;
      && r.response.data.Some? && |r.response.data.value| == |page|
      && forall i :: 0 <= i < |page| ==>
           r.response.data.value[i] == UserRow(GuidD(page[i].id), page[i].email, page[i].nameSurname, page[i].userName)
  {
    var p := requested.OrElse(defaults);
    match UserService.GetAllUsers(s, p.page, p.size)
    case None => Faulted(ExceptionMiddleware.HandleException(ExceptionMiddleware.OtherException("PostgresException")))
    case Some(dtos) => Answered(OfData(seq(|dtos|, i requires 0 <= i < |dtos| => ToRow(dtos[i]))))
  }

  /** Distinct accounts on a page give distinct rows: the id text still tells them apart. */
  lemma RowsKeepIdentity(s: Store, p: Pagination, i: nat, j: nat)
    requires GetAllAsWritten(s, p.page, p.size).Some?
    requires var page := GetAllAsWritten(s, p.page, p.size).value;
      i < |page| && j < |page| && page[i].id != page[j].id
    ensures GetAllUsersQuery(s, Some(p), p).Answered?
    ensures GetAllUsersQuery(s, Some(p), p).response.data.value[i] != GetAllUsersQuery(s, Some(p), p).response.data.value[j]
  {
    var page := GetAllAsWritten(s, p.page, p.size).value;
    if GuidD(page[i].id) == GuidD(page[j].id) {
      GuidDInjective(page[i].id, page[j].id);
    }
  }
}

=== FILE: hex.dfy ===
/**
 * Hexadecimal rendering. A `Guid` is modelled as the 128-bit number its "N" string
 * (`Guid.ToString("N")`: 32 lower-case hex digits, no dashes) spells.
 */
module Hex {

  function Pow16(n: nat): (r: nat)
    ensures r >= 1
  {
    if n == 0 then 1 else 16 * Pow16(n - 1)
  }

  const GuidBound: nat := Pow16(32)

  type Guid = x: nat | x < GuidBound

  predicate IsLowerHexDigit(c: char) {
    ('0' <= c <= '9') || ('a' <= c <= 'f')
  }

  predicate IsUpperHexDigit(c: char) {
    ('0' <= c <= '9') || ('A' <= c <= 'F')
  }

  function LowerDigit(d: nat): (c: char)
    requires d < 16
    ensures IsLowerHexDigit(c)
  {
    if d < 10 then ('0' as int + d) as char else ('a' as int + d - 10) as char
  }

  function UpperDigit(d: nat): (c: char)
    requires d < 16
    ensures IsUpperHexDigit(c)
  {
    if d < 10 then ('0' as int + d) as char else ('A' as int + d - 10) as char
  }

  /** The value of a hex digit of either case; 0 for anything else. */
  function DigitValue(c: char): (d: nat)
    ensures d < 16
  {
    if '0' <= c <= '9' then c as int - '0' as int
    else if 'a' <= c <= 'f' then c as int - 'a' as int + 10
    else if 'A' <= c <= 'F' then c as int - 'A' as int + 10
    else 0
  }

  lemma DigitRoundTrip(d: nat)
    requires d < 16
    ensures DigitValue(LowerDigit(d)) == d && DigitValue(UpperDigit(d)) == d
  {
  }

  /** The `width` lowest hex digits of `n`, most significant first, lower case. */
  function ToHex(n: nat, width: nat): (r: string)
    ensures |r| == width
    ensures forall i :: 0 <= i < |r| ==> IsLowerHexDigit(r[i])
  {
    if width == 0 then [] else ToHex(n / 16, width - 1) + [LowerDigit(n % 16)]
  }

  /** Reads a string of hex digits, most significant first. */
  function ParseHex(s: string): nat {
    if s == [] then 0 else ParseHex(s[..|s| - 1]) * 16 + DigitValue(s[|s| - 1])
  }

  /** Rendering then reading gives the number back: `width` digits hold any `n < 16^width`. */
  lemma {:induction false} ParseToHex(n: nat, width: nat)
    requires n < Pow16(width)
    ensures ParseHex(ToHex(n, width)) == n
  {
    if width > 0 {
      var s := ToHex(n, width);
      assert s[..|s| - 1] == ToHex(n / 16, width - 1);
      assert n / 16 < Pow16(width - 1);
      ParseToHex(n / 16, width - 1);
      DigitRoundTrip(n % 16);
    }
  }

  /** `Guid.ToString("N")`: 32 lower-case hex digits. */
  function GuidN(g: Guid): (r: string)
    ensures |r| == 32
    ensures forall i :: 0 <= i < |r| ==> IsLowerHexDigit(r[i])
    ensures ParseHex(r) == g
  {
    ParseToHex(g, 32);
    ToHex(g, 32)
  }

  /** Distinct identifiers never share a rendering. */
  lemma GuidNInjective(a: Guid, b: Guid)
    requires GuidN(a) == GuidN(b)
    ensures a == b
  {
  }

  /** `Guid.ToString()`: the same digits grouped 8-4-4-4-12 by dashes. */
  function GuidD(g: Guid): (r: string)
    ensures |r| == 36
    ensures r[8] == '-' && r[13] == '-' && r[18] == '-' && r[23] == '-'
    ensures r[..8] + r[9..13] + r[14..18] + r[19..23] + r[24..] == GuidN(g)
  {
    var n := GuidN(g);
    var r := n[..8] + "-" + n[8..12] + "-" + n[12..16] + "-" + n[16..20] + "-" + n[20..];
    assert r[..8] == n[..8] && r[9..13] == n[8..12] && r[14..18] == n[12..16];
    assert r[19..23] == n[16..20] && r[24..] == n[20..];
    assert n == n[..8] + n[8..12] + n[12..16] + n[16..20] + n[20..];
    r
  }

  /** The dashed form still determines the identifier. */
  lemma GuidDInjective(a: Guid, b: Guid)
    requires GuidD(a) == GuidD(b)
    ensures a == b
  {
    var da, db := GuidD(a), GuidD(b);
    assert GuidN(a) == da[..8] + da[9..13] + da[14..18] + da[19..23] + da[24..];
    GuidNInjective(a, b);
  }
}

=== FILE: int32.dfy ===
/** The 32-bit signed `int` of C#, with the wrap-around of unchecked arithmetic. */
module Int32 {

  const Min: int := -0x8000_0000
  const Max: int := 0x7FFF_FFFF
  const Modulus: int := 0x1_0000_0000

  type int32 = x: int | Min <= x <= Max

  /** Reduces a mathematical integer to the 32-bit value unchecked C# arithmetic yields. */
  function Wrap(x: int): (r: int32)
    ensures Min <= x <= Max ==> r == x
    ensures (x - r) % Modulus == 0
  {
    (x - Min) % Modulus + Min
  }

  /** `x++` on an `int`. */
  function Increment(x: int32): (r: int32)
    ensures x < Max ==> r == x + 1
    ensures x == Max ==> r == Min
  {
    Wrap(x + 1)
  }

  /** `a * b` on two `int`s in an unchecked context. */
  function Multiply(a: int32, b: int32): (r: int32)
    ensures Min <= a * b <= Max ==> r == a * b
    ensures (a * b - r) % Modulus == 0
  {
    Wrap(a * b)
  }
}

=== FILE: legacy.dfy ===
/**
 * The older `Wanankucha.*` revision: the same registration, lookups, refresh update and
 * stamping over a smaller `User` row with no lockout or reset columns. Its context registers
 * no soft-delete filter and no index for the domain `User`, so only the primary key on `Id`
 * constrains a save, and `GetAllAsync` pages the table in storage order.
 */
module LegacyUsers {
  import opened Wrappers
  import opened Clock
  import opened Int32
  import opened Text
  import opened Hex
  import opened Seqs
  import opened Stamping
  import opened Accounts
  import opened Credentials

  /** The older `User`: the `BaseEntity<Guid>` columns, identity and the refresh pair. */
  datatype LegacyUser = LegacyUser(
    id: Guid,
    createdDate: Time,
    updatedDate: Option<Time>,
    isDeleted: bool,
    userName: string,
    normalizedUserName: string,
    email: string,
    normalizedEmail: string,
    nameSurname: string,
    passwordHash: string,
    refreshToken: Option<string>,
    refreshTokenEndDate: Option<Time>)

  type LegacyStore = seq<LegacyUser>

  datatype LegacyKey =
    | ById(id: Guid)
    | ByEmail(normalizedEmail: string)
    | ByUserName(normalizedUserName: string)
    | ByEmailOrUserName(normalized: string)
    | ByRefreshToken(refreshToken: string)

  /** The repository's predicates; with no query filter, a deleted row matches like any other. */
  predicate Matches(u: LegacyUser, key: LegacyKey) {
    match key
    case ById(id) => u.id == id
    case ByEmail(e) => u.normalizedEmail == e
    case ByUserName(n) => u.normalizedUserName == n
    case ByEmailOrUserName(k) => u.normalizedEmail == k || u.normalizedUserName == k
    case ByRefreshToken(t) => u.refreshToken == Some(t)
  }

  /** `FirstOrDefaultAsync` and `FindAsync`: the first row that matches, deleted or not. */
  function Find(s: LegacyStore, key: LegacyKey): (r: Option<nat>)
    ensures r.Some? ==> r.value < |s| && Matches(s[r.value], key)
    ensures r.Some? ==> forall j :: 0 <= j < r.value ==> !Matches(s[j], key)
    ensures r.None? <==> forall j :: 0 <= j < |s| ==> !Matches(s[j], key)
  {
    FirstWhere(s, u => Matches(u, key))
  }

  /** `AnyAsync` */
  predicate Exists(s: LegacyStore, key: LegacyKey) {
    exists i | 0 <= i < |s| :: Matches(s[i], key)
  }

  /** `ExistsWith*Async(k)` agrees with `Find*Async(k)`. */
  lemma ExistsIffFound(s: LegacyStore, key: LegacyKey)
    ensures Exists(s, key) <==> Find(s, key).Some?
  {
  }

  /** Unlike the newer revision, a soft-deleted row is still found and still blocks its email. */
  lemma DeletedRowsStayVisible(s: LegacyStore, i: nat)
    requires i < |s| && s[i].isDeleted
    requires forall j :: 0 <= j < i ==> s[j].normalizedEmail != s[i].normalizedEmail
    ensures Find(s, ByEmail(s[i].normalizedEmail)) == Some(i)
  {
  }

  /**
   * `GetAllAsync(page, size)`: `Skip(page * size).Take(size)` in storage order, the product in
   * 32-bit arithmetic; PostgreSQL refuses a negative bound, and the query throws (`None`).
   */
  function GetAll(s: LegacyStore, page: int32, size: int32): (r: Option<LegacyStore>)
    ensures r.None? <==> Multiply(page, size) < 0 || size < 0
    ensures r.Some? ==> |r.value| <= size
    ensures 0 <= page * size <= Max && 0 <= size ==>
      r == Some(if page * size >= |s| then [] else s[page * size..Lesser(page * size + size, |s|)])
  {
    SqlPage(s, Multiply(page, size), size)
  }

  /** `MapToDto`: the same projection as the newer revision; the hash is not in it. */
  function MapToDto(u: LegacyUser): (d: UserDto)
    ensures d.id == u.id && d.email == Some(u.email) && d.userName == Some(u.userName)
    ensures d.nameSurname == u.nameSurname
    ensures d.refreshToken == u.refreshToken && d.refreshTokenEndDate == u.refreshTokenEndDate
  {
    UserDto(u.id, Some(u.email), Some(u.userName), u.nameSurname, u.refreshToken, u.refreshTokenEndDate)
  }

  /** The older `ServiceResponse<T>`: `Message` and `Errors` start out null. */
  datatype LegacyResponse<T> = LegacyResponse(data: Option<T>, succeeded: bool, message: Option<string>, errors: Option<seq<string>>)

  datatype LegacyCtor<T> = Parameterless | WithData(d: T) | WithDataAndMessage(d: T, m: string) | WithMessage(m: string)

  function MakeLegacy<T>(c: LegacyCtor<T>): (r: LegacyResponse<T>)
    ensures c.Parameterless? ==> !r.succeeded && r.data.None? && r.message.None? && r.errors.None?
    ensures c.WithData? ==> r.succeeded && r.data == Some(c.d) && r.message == Some("") && r.errors.None?
    ensures c.WithDataAndMessage? ==> r.succeeded && r.data == Some(c.d) && r.message == Some(c.m) && r.errors.None?
    ensures c.WithMessage? ==> !r.succeeded && r.data.None? && r.message == Some(c.m) && r.errors.None?
  {
    var blank := LegacyResponse(None, false, None, None);
    match c
    case Parameterless => blank
    case WithData(d) => blank.(succeeded := true, message := Some(""), errors := None, data := Some(d))
    case WithDataAndMessage(d, m) => blank.(succeeded := true, message := Some(m), data := Some(d))
    case WithMessage(m) => blank.(succeeded := false, message := Some(m))
  }

  /** As in the newer revision, success goes with data; only the null message of `()` differs. */
  lemma LegacySucceedsIffData<T>(c: LegacyCtor<T>)
    ensures MakeLegacy(c).succeeded <==> MakeLegacy(c).data.Some?
    ensures MakeLegacy(c).message.None? <==> c.Parameterless?
  {
  }

  const EmailTaken := "A user with this email already exists."
  const UserNameTaken := "A user with this username already exists."
  const UserCreated := "User created successfully."

  /** The row `CreateUserAsync` adds, with the `Added` stamp of the save. */
  function Registered(newId: Guid, now: Time, h: Hasher, nameSurname: string, email: string,
                      userName: string, password: string): (u: LegacyUser)
    ensures u.id == newId && u.createdDate == now && !u.isDeleted
    ensures u.normalizedEmail == ToUpperInvariant(email) && u.normalizedUserName == ToUpperInvariant(userName)
    ensures u.email == email && u.userName == userName && u.passwordHash == h.hash(password)
    ensures u.refreshToken.None? && u.refreshTokenEndDate.None?
  {
    var st := Stamp(Added, Stamps(DefaultTime, None), now);
    LegacyUser(newId, st.createdDate, st.updatedDate, false, userName, ToUpperInvariant(userName), email,
               ToUpperInvariant(email), nameSurname, h.hash(password), None, None)
  }

  /**
   * What `CreateUserAsync` ends in: an answer with the store it leaves, or the exception
   * `SaveChangesAsync` throws when the drawn id is already a row's primary key.
   */
  datatype LegacySaving =
    | Answered(store: LegacyStore, response: LegacyResponse<Guid>)
    | KeyViolated(store: LegacyStore)

  /**
   * `CreateUserAsync`: email check, then username check, then the insert, which the primary key
   * on `Id` refuses when the id is taken, deleted rows included.
   */
  function CreateUser(s: LegacyStore, now: Time, h: Hasher, newId: Guid, nameSurname: string, email: string,
                      userName: string, password: string): (r: LegacySaving)
    ensures Exists(s, ByEmail(ToUpperInvariant(email))) ==> r == Answered(s, MakeLegacy(WithMessage(EmailTaken)))
    ensures !Exists(s, ByEmail(ToUpperInvariant(email))) && Exists(s, ByUserName(ToUpperInvariant(userName))) ==>
      r == Answered(s, MakeLegacy(WithMessage(UserNameTaken)))
    ensures r.KeyViolated? <==>
      !Exists(s, ByEmail(ToUpperInvariant(email))) && !Exists(s, ByUserName(ToUpperInvariant(userName)))
      && Exists(s, ById(newId))
    ensures r.KeyViolated? ==> r.store == s
    ensures r.Answered? && r.response.succeeded <==>
      !Exists(s, ByEmail(ToUpperInvariant(email))) && !Exists(s, ByUserName(ToUpperInvariant(userName)))
      && !Exists(s, ById(newId))
    ensures r.Answered? && r.response.succeeded ==>
      r == Answered(s + [Registered(newId, now, h, nameSurname, email, userName, password)],
                    MakeLegacy(WithDataAndMessage(newId, UserCreated)))
  {
    if Exists(s, ByEmail(ToUpperInvariant(email))) then Answered(s, MakeLegacy(WithMessage(EmailTaken)))
    else if Exists(s, ByUserName(ToUpperInvariant(userName))) then Answered(s, MakeLegacy(WithMessage(UserNameTaken)))
    else if Exists(s, ById(newId)) then KeyViolated(s)
    else Answered(s + [Registered(newId, now, h, nameSurname, email, userName, password)],
                  MakeLegacy(WithDataAndMessage(newId, UserCreated)))
  }

  /** No two rows share a normalised email or username. */
  predicate UniqueNames(s: LegacyStore) {
    forall i, j :: 0 <= i < j < |s| ==>
      s[i].normalizedEmail != s[j].normalizedEmail && s[i].normalizedUserName != s[j].normalizedUserName
  }

  /**
   * With no unique index, only the two checks keep names unique; since the checks see every
   * row, they are enough.
   */
  lemma CreateUserKeepsNamesUnique(s: LegacyStore, now: Time, h: Hasher, newId: Guid, nameSurname: string,
                                   email: string, userName: string, password: string)
    requires UniqueNames(s)
    ensures UniqueNames(CreateUser(s, now, h, newId, nameSurname, email, userName, password).store)
  {
    var r := CreateUser(s, now, h, newId, nameSurname, email, userName, password);
    if r.Answered? && r.response.succeeded {
      var u := Registered(newId, now, h, nameSurname, email, userName, password);
      assert forall j :: 0 <= j < |s| ==> !Matches(s[j], ByEmail(u.normalizedEmail)) && !Matches(s[j], ByUserName(u.normalizedUserName));
    }
  }

  /** No two rows share an id. */
  predicate UniqueIds(s: LegacyStore) {
    forall i, j :: 0 <= i < j < |s| ==> s[i].id != s[j].id
  }

  /** The primary key keeps ids unique: a taken id never reaches the table. */
  lemma CreateUserKeepsIdsUnique(s: LegacyStore, now: Time, h: Hasher, newId: Guid, nameSurname: string,
                                 email: string, userName: string, password: string)
    requires UniqueIds(s)
    ensures UniqueIds(CreateUser(s, now, h, newId, nameSurname, email, userName, password).store)
  {
    var r := CreateUser(s, now, h, newId, nameSurname, email, userName, password);
    if r.Answered? && r.response.succeeded {
      assert forall j :: 0 <= j < |s| ==> !Matches(s[j], ById(newId));
    }
  }

  /** `CheckPasswordAsync` */
  function CheckPassword(s: LegacyStore, h: Hasher, id: Guid, password: string): (r: bool)
    ensures Find(s, ById(id)).None? ==> !r
    ensures Find(s, ById(id)).Some? ==> (r <==> h.verify(password, s[Find(s, ById(id)).value].passwordHash))
  {
    match Find(s, ById(id))
    case None => false
    case Some(i) => h.verify(password, s[i].passwordHash)
  }

  /** With a sound hasher, a freshly registered account's password checks out. */
  lemma RegisteredPasswordChecks(s: LegacyStore, now: Time, h: Hasher, newId: Guid, nameSurname: string,
                                 email: string, userName: string, password: string)
    requires Sound(h)
    requires CreateUser(s, now, h, newId, nameSurname, email, userName, password).Answered?
    requires CreateUser(s, now, h, newId, nameSurname, email, userName, password).response.succeeded
    ensures CheckPassword(CreateUser(s, now, h, newId, nameSurname, email, userName, password).store, h, newId, password)
  {
    var s' := CreateUser(s, now, h, newId, nameSurname, email, userName, password).store;
    assert forall j :: 0 <= j < |s| ==> !Matches(s[j], ById(newId));
    assert Matches(s'[|s|], ById(newId));
    assert forall j :: 0 <= j < |s| ==> s'[j] == s[j];
  }

  /** `UpdateRefreshTokenAsync`: both refresh fields, stamped when a value changed; nothing for an unknown id. */
  function UpdateRefreshToken(s: LegacyStore, now: Time, id: Guid, refreshToken: string, endDate: Time): (r: LegacyStore)
    ensures |r| == |s|
    ensures Find(s, ById(id)).None? ==> r == s
    ensures Find(s, ById(id)).Some? ==>
      var i := Find(s, ById(id)).value;
      && r[i].refreshToken == Some(refreshToken) && r[i].refreshTokenEndDate == Some(endDate)
      && r[i].updatedDate == (if s[i].refreshToken == Some(refreshToken) && s[i].refreshTokenEndDate == Some(endDate)
                              then s[i].updatedDate else Some(now))
      && r == s[i := s[i].(refreshToken := r[i].refreshToken, refreshTokenEndDate := r[i].refreshTokenEndDate,
                           updatedDate := r[i].updatedDate)]
  {
    match Find(s, ById(id))
    case None => s
    case Some(i) =>
      var u := s[i].(refreshToken := Some(refreshToken), refreshTokenEndDate := Some(endDate));
      s[i := if u == s[i] then u else u.(updatedDate := Stamp(Modified, Stamps(u.createdDate, u.updatedDate), now).updatedDate)]
  }
}

=== FILE: login.dfy ===
/**
 * `LoginUserCommandHandler.Handle`: look the account up by upper-cased email or username,
 * refuse a locked account, count a wrong password towards a 15-minute lock, and on a correct
 * password clear the lockout state and issue an access/refresh token pair.
 */
module LoginUser {
  import opened Wrappers
  import opened Clock
  import opened Int32
  import opened Text
  import opened Accounts
  import opened Credentials
  import opened UserStore
  import opened Responses

  const MaxFailedAttempts: int := 5
  const LockoutDuration: int := 15 * TicksPerMinute

  const BadCredentials := "Incorrect username or password"
  const LoggedIn := "Authentication successful"

  /** The lock notice, naming the whole minutes (rounded up) until the lock ends. */
  function LockedMessage(minutes: nat): string {
    "Account is locked due to too many failed attempts. Please try again in " + Decimal(minutes)
    + " minutes, or use 'Forgot Password' to reset your password."
  }

  /** `Math.Ceiling(remaining.TotalMinutes)` for a positive remaining time. */
  function MinutesLeft(u: Account, now: Time): (m: nat)
    requires LiftedGreater(u.lockoutEnd, now)
    ensures (m - 1) * TicksPerMinute < u.lockoutEnd.value - now <= m * TicksPerMinute
  {
    (u.lockoutEnd.value - now + TicksPerMinute - 1) / TicksPerMinute
  }

  datatype LoginRequest = LoginRequest(emailOrUserName: string, password: string)

  /** The account is locked at `now`: lockout is on and the lock ends strictly later. */
  predicate IsLocked(u: Account, now: Time) {
    u.lockoutEnabled && LiftedGreater(u.lockoutEnd, now)
  }

  /**
   * A wrong password: the counter goes up by one (with `int` wrap-around), and when lockout
   * is on and the count has reached the threshold the lock is set to end 15 minutes from now.
   * Nothing else but the update stamp changes.
   */
  function FailedAttempt(u: Account, now: Time): (r: Account)
    ensures r.failedLoginAttempts == Increment(u.failedLoginAttempts)
    ensures u.failedLoginAttempts < Max ==> r.failedLoginAttempts == u.failedLoginAttempts + 1
    ensures r.lockoutEnd == Some(now + LockoutDuration)
            <== u.lockoutEnabled && r.failedLoginAttempts >= MaxFailedAttempts
    ensures !(u.lockoutEnabled && r.failedLoginAttempts >= MaxFailedAttempts) ==> r.lockoutEnd == u.lockoutEnd
    ensures r == u.(failedLoginAttempts := r.failedLoginAttempts, lockoutEnd := r.lockoutEnd,
                    updatedDate := Some(now))
  {
    var counted := u.(failedLoginAttempts := Increment(u.failedLoginAttempts));
    var locked :=
      if counted.lockoutEnabled && counted.failedLoginAttempts >= MaxFailedAttempts
      then counted.(lockoutEnd := Some(now + LockoutDuration))
      else counted;
    Updated(locked, now)
  }

  /** The account after a correct password, and the token issued to it. */
  datatype Granted = Granted(account: Account, token: Token)

  /**
   * A correct password: a positive count or a set lock is cleared, then a token is issued for
   * the account and its refresh token is stored to live seven days past the access token.
   */
  function SuccessfulAttempt(u: Account, now: Time, iss: TokenIssuer): (g: Granted)
    ensures g.account.lockoutEnd.None?
    ensures g.account.failedLoginAttempts <= 0
    ensures u.failedLoginAttempts >= 0 ==> g.account.failedLoginAttempts == 0
    ensures g.token == CreateAccessToken(iss, u.(failedLoginAttempts := g.account.failedLoginAttempts, lockoutEnd := None), now)
    ensures g.account.refreshToken == Some(g.token.refreshToken)
    ensures g.account.refreshTokenEndDate == Some(g.token.expiration + RefreshLifetime)
    ensures g.account == u.(failedLoginAttempts := g.account.failedLoginAttempts, lockoutEnd := None,
                            refreshToken := g.account.refreshToken,
                            refreshTokenEndDate := g.account.refreshTokenEndDate, updatedDate := Some(now))
  {
    var cleared :=
      if u.failedLoginAttempts > 0 || u.lockoutEnd.Some?
      then u.(failedLoginAttempts := 0, lockoutEnd := None)
      else u;
    var token := CreateAccessToken(iss, cleared, now);
    var issued := cleared.(refreshToken := Some(token.refreshToken),
                           refreshTokenEndDate := Some(token.expiration + RefreshLifetime));
    Granted(Updated(issued, now), token)
  }

  /** What happens once the lookup has picked the row at `found` (or none). */
  function AttemptAt(s: Store, found: Option<nat>, now: Time, h: Hasher, iss: TokenIssuer,
                     password: string): (r: Handled<ServiceResponse<Token>>)
    requires found.Some? ==> found.value < |s|
    ensures found.None? ==> r == Handled(s, OfMessage(BadCredentials))
    ensures found.Some? && IsLocked(s[found.value], now) ==>
              r == Handled(s, OfMessage(LockedMessage(MinutesLeft(s[found.value], now))))
    ensures found.Some? && !IsLocked(s[found.value], now) && !h.verify(password, s[found.value].passwordHash) ==>
              r == Handled(s[found.value := FailedAttempt(s[found.value], now)], OfMessage(BadCredentials))
    ensures found.Some? && !IsLocked(s[found.value], now) && h.verify(password, s[found.value].passwordHash) ==>
              var g := SuccessfulAttempt(s[found.value], now, iss);
              r == Handled(s[found.value := g.account], OfDataMessage(g.token, LoggedIn))
  {
    match found
    case None => Handled(s, OfMessage(BadCredentials))
    case Some(i) =>
      var u := s[i];
      if IsLocked(u, now) then
        Handled(s, OfMessage(LockedMessage(MinutesLeft(u, now))))
      else if !h.verify(password, u.passwordHash) then
        Handled(s[i := FailedAttempt(u, now)], OfMessage(BadCredentials))
      else
        var g := SuccessfulAttempt(u, now, iss);
        Handled(s[i := g.account], OfDataMessage(g.token, LoggedIn))
  }

  /**
   * The two lookups a login can make: the repository's `FindByEmailOrUsernameAsync` as written,
   * which returns the first row whose normalised email or normalised username is the key,
   * whichever field matched; and the one it evidently intends, where an email match wins.
   */
  datatype Lookup = AsWritten | EmailFirst

  function LookUp(lookup: Lookup, s: Store, k: string): (r: Option<nat>)
    ensures r.Some? ==> r.value < |s| && Selects(s[r.value], ByEmailOrUserName(k))
    ensures r.None? <==> forall j :: 0 <= j < |s| ==> !Selects(s[j], ByEmailOrUserName(k))
  {
    match lookup
    case AsWritten => Find(s, ByEmailOrUserName(k))
    case EmailFirst => FindForLogin(s, k)
  }

  /** `Handle` over either lookup of the upper-cased identifier. */
  function LoginWith(lookup: Lookup, s: Store, now: Time, h: Hasher, iss: TokenIssuer, req: LoginRequest): (r: Handled<ServiceResponse<Token>>)
    ensures var found := LookUp(lookup, s, ToUpperInvariant(req.emailOrUserName));
      && (found.None? ==> r == Handled(s, OfMessage(BadCredentials)))
      && (r.response.succeeded <==>
            found.Some? && !IsLocked(s[found.value], now) && h.verify(req.password, s[found.value].passwordHash))
      && (r.response.succeeded ==> r.response.message == LoggedIn)
  {
    var k := ToUpperInvariant(req.emailOrUserName);
    AttemptAt(s, LookUp(lookup, s, k), now, h, iss, req.password)
  }

  /** `Handle` as written: the account is the first visible row whose email or username is the key. */
  function LoginAsWritten(s: Store, now: Time, h: Hasher, iss: TokenIssuer, req: LoginRequest): (r: Handled<ServiceResponse<Token>>)
    ensures var found := Find(s, ByEmailOrUserName(ToUpperInvariant(req.emailOrUserName)));
      && (found.None? ==> r == Handled(s, OfMessage(BadCredentials)))
      && (r.response.succeeded <==>
            found.Some? && !IsLocked(s[found.value], now) && h.verify(req.password, s[found.value].passwordHash))
      && (r.response.succeeded ==> r.response.message == LoggedIn)
  {
    LoginWith(AsWritten, s, now, h, iss, req)
  }

  /**
   * `Handle` with the lookup it evidently intends: an email match wins over a username match,
   * so an account's own email always reaches it.
   */
  function Login(s: Store, now: Time, h: Hasher, iss: TokenIssuer, req: LoginRequest): (r: Handled<ServiceResponse<Token>>)
    ensures var found := FindForLogin(s, ToUpperInvariant(req.emailOrUserName));
      && (found.None? ==> r == Handled(s, OfMessage(BadCredentials)))
      && (r.response.succeeded <==>
            found.Some? && !IsLocked(s[found.value], now) && h.verify(req.password, s[found.value].passwordHash))
  {
    LoginWith(EmailFirst, s, now, h, iss, req)
  }

  /**
   * A login, with either lookup, saves at most the one row its lookup found; every other row
   * stays as it was.
   */
  lemma LoginChangesOneRow(lookup: Lookup, s: Store, now: Time, h: Hasher, iss: TokenIssuer, req: LoginRequest, j: nat)
    requires j < |s|
    requires LookUp(lookup, s, ToUpperInvariant(req.emailOrUserName)) != Some(j)
    ensures |LoginWith(lookup, s, now, h, iss, req).store| == |s|
    ensures LoginWith(lookup, s, now, h, iss, req).store[j] == s[j]
  {
  }

  /**
   * An unknown identifier and a wrong password are answered alike, with either lookup: the
   * same failure message and no data, so a caller cannot tell which of the two happened.
   */
  lemma UnknownAndWrongPasswordLookAlike(lookup: Lookup, s: Store, now: Time, h: Hasher, iss: TokenIssuer,
                                         unknown: LoginRequest, wrong: LoginRequest)
    requires LookUp(lookup, s, ToUpperInvariant(unknown.emailOrUserName)).None?
    requires var f := LookUp(lookup, s, ToUpperInvariant(wrong.emailOrUserName));
      f.Some? && !IsLocked(s[f.value], now) && !h.verify(wrong.password, s[f.value].passwordHash)
    ensures LoginWith(lookup, s, now, h, iss, unknown).response == LoginWith(lookup, s, now, h, iss, wrong).response
    ensures !LoginWith(lookup, s, now, h, iss, unknown).response.succeeded
  {
  }

  /** Login, with either lookup, ignores the case of the identifier: it is upper-cased before the lookup. */
  lemma LoginIgnoresCase(lookup: Lookup, s: Store, now: Time, h: Hasher, iss: TokenIssuer, req: LoginRequest)
    ensures LoginWith(lookup, s, now, h, iss, req.(emailOrUserName := ToUpperInvariant(req.emailOrUserName)))
         == LoginWith(lookup, s, now, h, iss, req)
  {
    ToUpperIdempotent(req.emailOrUserName);
  }

  /**
   * A locked account is refused without the password being looked at, with either lookup: the
   * outcome is the same for every hasher and every password, and nothing is saved.
   */
  lemma LockedAccountIsNotChecked(lookup: Lookup, s: Store, now: Time, h: Hasher, h': Hasher, iss: TokenIssuer,
                                  req: LoginRequest, password': string)
    requires var f := LookUp(lookup, s, ToUpperInvariant(req.emailOrUserName));
      f.Some? && IsLocked(s[f.value], now)
    ensures LoginWith(lookup, s, now, h, iss, req) == LoginWith(lookup, s, now, h', iss, req.(password := password'))
    ensures LoginWith(lookup, s, now, h, iss, req).store == s
    ensures !LoginWith(lookup, s, now, h, iss, req).response.succeeded
  {
  }

  /**
   * With lockout turned off, failed attempts never set a lock, however many there are.
   */
  lemma {:induction false} LockoutDisabledNeverLocks(u: Account, now: seq<Time>)
    requires !u.lockoutEnabled
    ensures FailRepeatedly(u, now).lockoutEnd == u.lockoutEnd
  {
    if now != [] {
      LockoutDisabledNeverLocks(u, now[..|now| - 1]);
    }
  }

  /** The account after a wrong password at each instant of `now`, in turn. */
  function FailRepeatedly(u: Account, now: seq<Time>): (r: Account)
    ensures r.lockoutEnabled == u.lockoutEnabled
    ensures r.passwordHash == u.passwordHash && r.refreshToken == u.refreshToken
    ensures r.refreshTokenEndDate == u.refreshTokenEndDate
  {
    if now == [] then u else FailedAttempt(FailRepeatedly(u, now[..|now| - 1]), now[|now| - 1])
  }

  /**
   * Wrong passwords count one by one, and while the count stays below the threshold no lock
   * is set.
   */
  lemma {:induction false} FailuresCount(u: Account, now: seq<Time>)
    requires 0 <= u.failedLoginAttempts && u.failedLoginAttempts + |now| <= Max
    ensures FailRepeatedly(u, now).failedLoginAttempts == u.failedLoginAttempts + |now|
    ensures u.failedLoginAttempts + |now| < MaxFailedAttempts ==> FailRepeatedly(u, now).lockoutEnd == u.lockoutEnd
  {
    if now != [] {
      FailuresCount(u, now[..|now| - 1]);
    }
  }

  /**
   * Five wrong passwords in a row on a fresh, unlocked account lock it for 15 minutes from the
   * fifth.
   */
  lemma FiveFailuresLock(u: Account, now: seq<Time>)
    requires u.lockoutEnabled && u.failedLoginAttempts == 0 && |now| == MaxFailedAttempts
    ensures var v := FailRepeatedly(u, now);
      && v.failedLoginAttempts == MaxFailedAttempts
      && v.lockoutEnd == Some(now[4] + LockoutDuration)
      && IsLocked(v, now[4]) && !IsLocked(v, now[4] + LockoutDuration)
  {
    FailuresCount(u, now);
  }

  /**
   * The counter survives the end of a lock: once the threshold has been reached, the first
   * wrong password after the lock has ended locks the account again at once.
   */
  lemma ExpiredLockRelocksOnNextFailure(u: Account, now: Time)
    requires u.lockoutEnabled && MaxFailedAttempts <= u.failedLoginAttempts < Max
    requires !IsLocked(u, now)
    ensures FailedAttempt(u, now).lockoutEnd == Some(now + LockoutDuration)
    ensures IsLocked(FailedAttempt(u, now), now)
  {
  }

  /** An attempt writes only the identity-free columns of one row, so the store stays valid. */
  lemma AttemptKeepsValid(s: Store, found: Option<nat>, now: Time, h: Hasher, iss: TokenIssuer, password: string)
    requires Valid(s) && (found.Some? ==> found.value < |s|)
    ensures Valid(AttemptAt(s, found, now, h, iss, password).store)
  {
    if found.Some? {
      var i := found.value;
      var r := AttemptAt(s, found, now, h, iss, password);
      if IsLocked(s[i], now) {
      } else if !h.verify(password, s[i].passwordHash) {
        UpdateKeepsValid(s, i, FailedAttempt(s[i], now));
      } else {
        UpdateKeepsValid(s, i, SuccessfulAttempt(s[i], now, iss).account);
      }
    }
  }

  /** Both lookups leave a valid store valid. */
  lemma LoginKeepsValid(s: Store, now: Time, h: Hasher, iss: TokenIssuer, req: LoginRequest)
    requires Valid(s)
    ensures Valid(Login(s, now, h, iss, req).store)
    ensures Valid(LoginAsWritten(s, now, h, iss, req).store)
  {
    var k := ToUpperInvariant(req.emailOrUserName);
    AttemptKeepsValid(s, FindForLogin(s, k), now, h, iss, req.password);
    AttemptKeepsValid(s, Find(s, ByEmailOrUserName(k)), now, h, iss, req.password);
  }

  // ----- the lookup ambiguity -----

  /** An account registered with email `b@x`. */
  const EmailOwner: Account := NewUser(1).(email := "b@x", normalizedEmail := "B@X", userName := "ann",
                                            normalizedUserName := "ANN", passwordHash := "pw")

  /** Another account, older in store order, that chose `b@x` as its username. */
  const NameSquatter: Account := NewUser(2).(email := "c@y", normalizedEmail := "C@Y", userName := "b@x",
                                              normalizedUserName := "B@X", passwordHash := "other")

  /** A hasher that stores passwords as they are; it satisfies the hashing law. */
  const PlainHasher := Hasher(p => p, (p, hashed) => p == hashed)

  /** The two accounts form a valid store in which the key `B@X` is ambiguous. */
  lemma AmbiguousKey()
    ensures Sound(PlainHasher)
    ensures Valid([NameSquatter, EmailOwner])
    ensures ToUpperInvariant("b@x") == "B@X"
    ensures Find([NameSquatter, EmailOwner], ByEmailOrUserName("B@X")) == Some(0)
    ensures FindForLogin([NameSquatter, EmailOwner], "B@X") == Some(1)
  {
    var s := [NameSquatter, EmailOwner];
    assert Selects(s[0], ByEmailOrUserName("B@X"));
    assert Find(s, ByEmail("B@X")) == Some(1) by {
      assert !Selects(s[0], ByEmail("B@X"));
      assert Selects(s[1], ByEmail("B@X"));
    }
  }

  /**
   * As written, the owner of `b@x` cannot log in with it when an older account's username is
   * `b@x`: the lookup returns the other account, the correct password fails against it, and
   * the other account's counter goes up.
   */
  lemma EmailLoginHijackedByUsername(now: Time, iss: TokenIssuer)
    ensures var r := LoginAsWritten([NameSquatter, EmailOwner], now, PlainHasher, iss, LoginRequest("b@x", "pw"));
      && r.response == OfMessage(BadCredentials)
      && r.store[0].failedLoginAttempts == 1 && r.store[1] == EmailOwner
  {
    AmbiguousKey();
    var s := [NameSquatter, EmailOwner];
    assert !IsLocked(s[0], now) && !PlainHasher.verify("pw", s[0].passwordHash);
    assert LoginAsWritten(s, now, PlainHasher, iss, LoginRequest("b@x", "pw"))
        == AttemptAt(s, Some(0), now, PlainHasher, iss, "pw");
  }

  /** With the corrected lookup the owner of `b@x` logs in with it. */
  lemma EmailOwnerLogsInWhenCorrected(now: Time, iss: TokenIssuer)
    ensures Login([NameSquatter, EmailOwner], now, PlainHasher, iss, LoginRequest("b@x", "pw")).response.succeeded
  {
    AmbiguousKey();
    var s := [NameSquatter, EmailOwner];
    assert !IsLocked(s[1], now) && PlainHasher.verify("pw", s[1].passwordHash);
  }
}

=== FILE: refresh.dfy ===
/**
 * `RefreshTokenCommandHandler.Handle`: exchange a refresh token for a new token pair. The
 * presented token is looked up exactly; a missing or expired one is refused; otherwise the
 * stored refresh token is rotated.
 */
module RefreshToken {
  import opened Wrappers
  import opened Clock
  import opened Accounts
  import opened Credentials
  import opened UserStore
  import opened Responses

  const InvalidRefresh := "Invalid or expired refresh token."
  const Refreshed := "Tokens refreshed successfully!"

  /**
   * The refusal test `user.RefreshTokenEndDate < now`: lifted, so an account without an end
   * date is not refused, and an end date equal to `now` is still good.
   */
  predicate Expired(u: Account, now: Time) {
    LiftedLess(u.refreshTokenEndDate, now)
  }

  /** The account with its refresh pair replaced by the one issued with `t`. */
  function Rotated(u: Account, t: Token, now: Time): (r: Account)
    ensures r.refreshToken == Some(t.refreshToken)
    ensures r.refreshTokenEndDate == Some(t.expiration + RefreshLifetime)
    ensures r == u.(refreshToken := r.refreshToken, refreshTokenEndDate := r.refreshTokenEndDate,
                    updatedDate := Some(now))
  {
    Updated(u.(refreshToken := Some(t.refreshToken), refreshTokenEndDate := Some(t.expiration + RefreshLifetime)), now)
  }

  function Refresh(s: Store, now: Time, iss: TokenIssuer, presented: string): (r: Handled<ServiceResponse<Token>>)
    ensures var f := Find(s, ByRefreshToken(presented));
      && (r.response.succeeded <==> f.Some? && !Expired(s[f.value], now))
      && (!r.response.succeeded ==> r == Handled(s, OfMessage(InvalidRefresh)))
      && (r.response.succeeded ==>
            var t := CreateAccessToken(iss, s[f.value], now);
            r == Handled(s[f.value := Rotated(s[f.value], t, now)], OfDataMessage(t, Refreshed)))
  {
    match Find(s, ByRefreshToken(presented))
    case None => Handled(s, OfMessage(InvalidRefresh))
    case Some(i) =>
      if Expired(s[i], now) then Handled(s, OfMessage(InvalidRefresh))
      else
        var t := CreateAccessToken(iss, s[i], now);
        Handled(s[i := Rotated(s[i], t, now)], OfDataMessage(t, Refreshed))
  }

  /** An unknown token is refused and nothing is saved. */
  lemma UnknownTokenRefused(s: Store, now: Time, iss: TokenIssuer, presented: string)
    requires forall j :: 0 <= j < |s| ==> !Selects(s[j], ByRefreshToken(presented))
    ensures Refresh(s, now, iss, presented) == Handled(s, OfMessage(InvalidRefresh))
  {
  }

  /**
   * The expiry boundary: the token is refused exactly when its end date is strictly before
   * `now`; an end date equal to `now`, or none at all, is accepted.
   */
  lemma ExpiryBoundary(s: Store, i: nat, now: Time, iss: TokenIssuer, presented: string)
    requires Find(s, ByRefreshToken(presented)) == Some(i)
    ensures Refresh(s, now, iss, presented).response.succeeded
            <==> s[i].refreshTokenEndDate.None? || s[i].refreshTokenEndDate.value >= now
  {
  }

  /**
   * Rotation is single-use: once a refresh has succeeded, presenting the same token again
   * fails, provided the issuer handed out a different refresh string and no other account
   * holds the old one.
   */
  lemma RotationIsSingleUse(s: Store, now: Time, later: Time, iss: TokenIssuer, iss': TokenIssuer, presented: string)
    requires Refresh(s, now, iss, presented).response.succeeded
    requires iss.freshRefresh != presented
    requires forall j :: 0 <= j < |s| && s[j].refreshToken == Some(presented) ==> j == Find(s, ByRefreshToken(presented)).value
    ensures !Refresh(Refresh(s, now, iss, presented).store, later, iss', presented).response.succeeded
  {
    var i := Find(s, ByRefreshToken(presented)).value;
    var s' := Refresh(s, now, iss, presented).store;
    assert forall j :: 0 <= j < |s'| ==> !Selects(s'[j], ByRefreshToken(presented)) by {
      forall j | 0 <= j < |s'| ensures !Selects(s'[j], ByRefreshToken(presented)) {
        if j != i {
          assert s'[j] == s[j];
        }
      }
    }
  }

  /** A refresh rewrites only the refresh pair and update stamp of one row, so the store stays valid. */
  lemma RefreshKeepsValid(s: Store, now: Time, iss: TokenIssuer, presented: string)
    requires Valid(s)
    ensures Valid(Refresh(s, now, iss, presented).store)
  {
    var f := Find(s, ByRefreshToken(presented));
    if f.Some? && !Expired(s[f.value], now) {
      UpdateKeepsValid(s, f.value, Rotated(s[f.value], CreateAccessToken(iss, s[f.value], now), now));
    }
  }
}

=== FILE: reset_password.dfy ===
/**
 * `ResetPasswordCommandHandler.Handle`: redeem a reset token. An unknown email, a token that
 * does not match, and a missing or past expiry are refused with one and the same answer; a
 * good token sets the new password hash and clears the reset pair and the refresh pair.
 */
module ResetPassword {
  import opened Wrappers
  import opened Clock
  import opened Text
  import opened Accounts
  import opened Credentials
  import opened UserStore
  import opened Responses

  const InvalidReset := "Invalid or expired reset token."
  const PasswordReset := "Password has been reset successfully. Please log in with your new password."

  /** Every refusal: the message with `Succeeded = false`. */
  const Refusal: ServiceResponse<string> := OfMessage<string>(InvalidReset)

  /** The success answer: the message with `Succeeded` forced to true, and no data. */
  const Done: ServiceResponse<string> := OfMessage<string>(PasswordReset).(succeeded := true)

  datatype ResetRequest = ResetRequest(email: string, token: string, newPassword: string)

  /** The token presented is the one stored and its expiry, which must exist, is not before `now`. */
  predicate Redeemable(u: Account, token: string, now: Time) {
    u.passwordResetToken == Some(token) && u.passwordResetTokenExpiry.Some? && u.passwordResetTokenExpiry.value >= now
  }

  /**
   * The account after a successful reset: the new hash, and neither a reset pair nor a refresh
   * pair; the lockout state and identity are kept.
   */
  function Redeemed(u: Account, h: Hasher, newPassword: string, now: Time): (r: Account)
    ensures r.passwordHash == h.hash(newPassword)
    ensures r.passwordResetToken.None? && r.passwordResetTokenExpiry.None?
    ensures r.refreshToken.None? && r.refreshTokenEndDate.None?
    ensures r == u.(passwordHash := r.passwordHash, passwordResetToken := None, passwordResetTokenExpiry := None,
                    refreshToken := None, refreshTokenEndDate := None, updatedDate := Some(now))
  {
    Updated(u.(passwordHash := h.hash(newPassword), passwordResetToken := None, passwordResetTokenExpiry := None,
               refreshToken := None, refreshTokenEndDate := None), now)
  }

  function Reset(s: Store, now: Time, h: Hasher, req: ResetRequest): (r: Handled<ServiceResponse<string>>)
    ensures var f := Find(s, ByEmail(ToUpperInvariant(req.email)));
      && (r.response.succeeded <==> f.Some? && Redeemable(s[f.value], req.token, now))
      && (!r.response.succeeded ==> r == Handled(s, Refusal))
      && (r.response.succeeded ==>
            r == Handled(s[f.value := Redeemed(s[f.value], h, req.newPassword, now)], Done))
  {
    match Find(s, ByEmail(ToUpperInvariant(req.email)))
    case None => Handled(s, Refusal)
    case Some(i) =>
      var u := s[i];
      if u.passwordResetToken != Some(req.token) then Handled(s, Refusal)
      else if u.passwordResetTokenExpiry.None? || LiftedLess(u.passwordResetTokenExpiry, now) then Handled(s, Refusal)
      else Handled(s[i := Redeemed(u, h, req.newPassword, now)], Done)
  }

  /** The expiry boundary: an expiry equal to `now` is accepted, one tick earlier is not. */
  lemma ExpiryBoundary(u: Account, token: string, now: Time)
    requires u.passwordResetToken == Some(token)
    ensures u.passwordResetTokenExpiry == Some(now) ==> Redeemable(u, token, now)
    ensures u.passwordResetTokenExpiry == Some(now - 1) ==> !Redeemable(u, token, now)
  {
  }

  /** A token is good once: redeeming it again fails, whatever the time and password. */
  lemma TokenIsSingleUse(s: Store, now: Time, later: Time, h: Hasher, req: ResetRequest, newPassword': string)
    requires Reset(s, now, h, req).response.succeeded
    ensures !Reset(Reset(s, now, h, req).store, later, h, req.(newPassword := newPassword')).response.succeeded
  {
    var k := ToUpperInvariant(req.email);
    var i := Find(s, ByEmail(k)).value;
    var s1 := Reset(s, now, h, req).store;
    assert Find(s1, ByEmail(k)) == Some(i) by {
      assert forall j :: 0 <= j < |s1| ==> (Selects(s1[j], ByEmail(k)) <==> Selects(s[j], ByEmail(k)));
    }
  }

  /** After a reset the account holds no refresh token, so no refresh token can reach it. */
  lemma ResetEndsSessions(s: Store, now: Time, h: Hasher, req: ResetRequest, t: string)
    requires Reset(s, now, h, req).response.succeeded
    ensures var i := Find(s, ByEmail(ToUpperInvariant(req.email))).value;
      !Selects(Reset(s, now, h, req).store[i], ByRefreshToken(t))
  {
  }

  /** With a sound hasher, the new password verifies against the stored hash after a reset. */
  lemma NewPasswordVerifies(s: Store, now: Time, h: Hasher, req: ResetRequest)
    requires Sound(h) && Reset(s, now, h, req).response.succeeded
    ensures var i := Find(s, ByEmail(ToUpperInvariant(req.email))).value;
      h.verify(req.newPassword, Reset(s, now, h, req).store[i].passwordHash)
  {
  }

  /** A reset writes only credential columns of one row, so the store stays valid. */
  lemma ResetKeepsValid(s: Store, now: Time, h: Hasher, req: ResetRequest)
    requires Valid(s)
    ensures Valid(Reset(s, now, h, req).store)
  {
    var f := Find(s, ByEmail(ToUpperInvariant(req.email)));
    if f.Some? && Redeemable(s[f.value], req.token, now) {
      UpdateKeepsValid(s, f.value, Redeemed(s[f.value], h, req.newPassword, now));
    }
  }
}

=== FILE: responses.dfy ===
/**
 * The values handlers answer with: the application layer's `ServiceResponse<T>` and the
 * domain layer's `Result<T>` / `Result`. Each C# constructor or factory is one case of a
 * `Ctor` datatype, so the laws can be stated for every way a value comes into being.
 */
module Responses {
  import opened Wrappers

  /**
   * `ServiceResponse<T>`. `data` is `None` where the C# property holds `default`, and
   * `errors` is `None` where the list is null.
   */
  datatype ServiceResponse<T> = ServiceResponse(
    data: Option<T>,
    succeeded: bool,
    message: string,
    errors: Option<seq<string>>)

  /** The four constructors of `ServiceResponse<T>`. */
  datatype Ctor<T> =
    | WithData(d: T)
    | WithDataAndMessage(d: T, m: string)
    | WithMessage(m: string)
    | Parameterless

  /** What each constructor leaves in the four properties. */
  function Make<T>(c: Ctor<T>): (r: ServiceResponse<T>)
    ensures r.errors.None?
    ensures c.WithData? ==> r.succeeded && r.data == Some(c.d) && r.message == ""
    ensures c.WithDataAndMessage? ==> r.succeeded && r.data == Some(c.d) && r.message == c.m
    ensures c.WithMessage? ==> !r.succeeded && r.data.None? && r.message == c.m
    ensures c.Parameterless? ==> !r.succeeded && r.data.None? && r.message == ""
  {
    match c
    case WithData(d) => ServiceResponse(Some(d), true, "", None)
    case WithDataAndMessage(d, m) => ServiceResponse(Some(d), true, m, None)
    case WithMessage(m) => ServiceResponse(None, false, m, None)
    case Parameterless => ServiceResponse(None, false, "", None)
  }

  function OfData<T>(d: T): ServiceResponse<T> {
    Make(WithData(d))
  }

  function OfDataMessage<T>(d: T, m: string): ServiceResponse<T> {
    Make(WithDataAndMessage(d, m))
  }

  /** The failure constructor every handler uses for its error answers. */
  function OfMessage<T>(m: string): ServiceResponse<T> {
    Make(WithMessage(m))
  }

  /** The two-argument form each constructor amounts to, with the message defaulting to `""`. */
  function Normal<T>(c: Ctor<T>): Ctor<T> {
    match c
    case WithData(d) => WithDataAndMessage(d, "")
    case Parameterless => WithMessage("")
    case _ => c
  }

  /**
   * A constructed response carries data exactly when it reports success, and two constructor
   * calls give the same response exactly when they agree once the default message is filled in.
   */
  lemma MakeSucceedsIffData<T>(c: Ctor<T>, c': Ctor<T>)
    ensures Make(c).succeeded <==> Make(c).data.Some?
    ensures Make(c) == Make(c') <==> Normal(c) == Normal(c')
  {
    if Make(c) == Make(c') {
      if Make(c).succeeded {
        assert Normal(c) == WithDataAndMessage(Make(c).data.value, Make(c).message);
      } else {
        assert Normal(c) == WithMessage(Make(c).message);
      }
    }
  }

  // ----- Result<T> and Result -----

  /**
   * `Result<T>`: `value` is `None` for `default`, `error` is `None` for null. `Errors` is
   * never null: the constructor turns a missing list into the empty one.
   */
  datatype Result<T> = Result(isSuccess: bool, value: Option<T>, error: Option<string>, errors: seq<string>)

  /** `Result<T>.Success(value)` */
  function Success<T>(v: T): (r: Result<T>)
    ensures r.isSuccess && r.value == Some(v) && r.error.None? && r.errors == []
  {
    Result(true, Some(v), None, [])
  }

  /** `Result<T>.Failure(string error)` */
  function Failure<T>(e: string): (r: Result<T>)
    ensures !r.isSuccess && r.value.None? && r.error == Some(e) && r.errors == []
  {
    Result(false, None, Some(e), [])
  }

  /** `errors.FirstOrDefault()` */
  function FirstOrNone(list: seq<string>): (r: Option<string>)
    ensures r.None? <==> list == []
    ensures r.Some? ==> r.value == list[0]
  {
    if list == [] then None else Some(list[0])
  }

  /** `Result<T>.Failure(IEnumerable<string> errors)` */
  function FailureList<T>(list: seq<string>): (r: Result<T>)
    ensures !r.isSuccess && r.value.None? && r.errors == list
    ensures r.error == if list == [] then None else Some(list[0])
  {
    Result(false, None, FirstOrNone(list), list)
  }

  const UnknownError := "Unknown error"

  /**
   * `Match(onSuccess, onFailure)`. The success branch receives `Value!`, which the model
   * passes on as the option it is.
   */
  function Match<T, R>(r: Result<T>, onSuccess: Option<T> -> R, onFailure: string -> R): R {
    if r.isSuccess then onSuccess(r.value) else onFailure(r.error.OrElse(UnknownError))
  }

  /** The branch `Match` takes is decided by the factory alone. */
  lemma MatchLaws<T, R>(v: T, e: string, list: seq<string>, f: Option<T> -> R, g: string -> R)
    ensures Match(Success(v), f, g) == f(Some(v))
    ensures Match(Failure<T>(e), f, g) == g(e)
    ensures Match(FailureList<T>(list), f, g) == g(if list == [] then UnknownError else list[0])
  {
  }

  /** The non-generic `Result`. */
  datatype UnitResult = UnitResult(isSuccess: bool, error: Option<string>, errors: seq<string>)

  function UnitSuccess(): (r: UnitResult)
    ensures r.isSuccess && r.error.None? && r.errors == []
  {
    UnitResult(true, None, [])
  }

  function UnitFailure(e: string): (r: UnitResult)
    ensures !r.isSuccess && r.error == Some(e) && r.errors == []
  {
    UnitResult(false, Some(e), [])
  }

  function UnitFailureList(list: seq<string>): (r: UnitResult)
    ensures !r.isSuccess && r.errors == list
    ensures r.error == if list == [] then None else Some(list[0])
  {
    UnitResult(false, FirstOrNone(list), list)
  }

  /** The non-generic factories agree with the generic ones on every shared property. */
  lemma UnitAgreesWithGeneric<T>(v: T, e: string, list: seq<string>)
    ensures UnitSuccess().isSuccess == Success(v).isSuccess && UnitSuccess().error == Success(v).error
    ensures UnitFailure(e).error == Failure<T>(e).error && UnitFailure(e).errors == Failure<T>(e).errors
    ensures UnitFailureList(list).error == FailureList<T>(list).error
    ensures UnitFailureList(list).errors == FailureList<T>(list).errors
  {
  }
}

=== FILE: scenarios.dfy ===
/** End-to-end properties that run several handlers one after another over the same store. */
module Scenarios {
  import opened Wrappers
  import opened Clock
  import opened Text
  import opened Hex
  import opened Accounts
  import opened Credentials
  import opened UserStore
  import opened Responses
  import UserService
  import LoginUser
  import RefreshToken
  import ForgotPassword
  import ResetPassword

  /**
   * Register, then log in with the email and password just registered. With the corrected
   * lookup the login succeeds. With the lookup as written it succeeds provided no older
   * visible account took that email as its username.
   */
  lemma RegisterThenLogin(s: Store, now: Time, later: Time, h: Hasher, iss: TokenIssuer, newId: Guid,
                          nameSurname: string, email: string, userName: string, password: string)
    requires Valid(s) && Sound(h)
    requires UserService.CreateUser(s, now, h, newId, nameSurname, email, userName, password).Committed?
    requires UserService.CreateUser(s, now, h, newId, nameSurname, email, userName, password).handled.response.succeeded
    ensures var s' := UserService.CreateUser(s, now, h, newId, nameSurname, email, userName, password).handled.store;
      LoginUser.Login(s', later, h, iss, LoginUser.LoginRequest(email, password)).response.succeeded
    ensures var s' := UserService.CreateUser(s, now, h, newId, nameSurname, email, userName, password).handled.store;
      (forall j :: 0 <= j < |s| ==> !Selects(s[j], ByUserName(ToUpperInvariant(email)))) ==>
        LoginUser.LoginAsWritten(s', later, h, iss, LoginUser.LoginRequest(email, password)).response.succeeded
  {
    var s' := UserService.CreateUser(s, now, h, newId, nameSurname, email, userName, password).handled.store;
    var u := UserService.Registered(newId, now, h, nameSurname, email, userName, password);
    var k := ToUpperInvariant(email);
    assert s' == s + [u];
    UserService.CreateUserKeepsValid(s, now, h, newId, nameSurname, email, userName, password);
    FindForLoginReachesEmailOwner(s', |s|);
    assert !LoginUser.IsLocked(s'[|s|], later);
    if forall j :: 0 <= j < |s| ==> !Selects(s[j], ByUserName(k)) {
      assert Selects(s'[|s|], ByEmailOrUserName(k));
      assert forall j :: 0 <= j < |s| ==> !Selects(s'[j], ByEmailOrUserName(k)) by {
        forall j | 0 <= j < |s| ensures !Selects(s'[j], ByEmailOrUserName(k)) {
          assert s'[j] == s[j] && !Selects(s[j], ByUserName(k));
          assert s[j].normalizedEmail != u.normalizedEmail;
        }
      }
      assert Find(s', ByEmailOrUserName(k)) == Some(|s|);
    }
  }

  /**
   * A password reset ends the session: the refresh token the account held before is refused
   * afterwards, provided no other account held the same string.
   */
  lemma ResetRevokesRefreshToken(s: Store, now: Time, later: Time, h: Hasher, iss: TokenIssuer,
                                 req: ResetPassword.ResetRequest, t: string)
    requires ResetPassword.Reset(s, now, h, req).response.succeeded
    requires forall j :: 0 <= j < |s| && Selects(s[j], ByRefreshToken(t)) ==>
      j == Find(s, ByEmail(ToUpperInvariant(req.email))).value
    ensures !RefreshToken.Refresh(ResetPassword.Reset(s, now, h, req).store, later, iss, t).response.succeeded
  {
    var i := Find(s, ByEmail(ToUpperInvariant(req.email))).value;
    var s' := ResetPassword.Reset(s, now, h, req).store;
    forall j | 0 <= j < |s'| ensures !Selects(s'[j], ByRefreshToken(t)) {
      if j != i {
        assert s'[j] == s[j];
      }
    }
  }

  /**
   * The reset link lasts one hour: the token just mailed redeems up to and including
   * `now + 1h`, and is refused one tick later.
   */
  lemma ResetTokenLastsOneHour(s: Store, now: Time, g1: Guid, g2: Guid, h: Hasher, email: string, newPassword: string)
    requires Find(s, ByEmail(ToUpperInvariant(email))).Some?
    ensures var s1 := ForgotPassword.Forgot(s, now, g1, g2, email, false).handled.store;
      var req := ResetPassword.ResetRequest(email, ForgotPassword.ResetToken(g1, g2), newPassword);
      && ResetPassword.Reset(s1, now + ForgotPassword.ResetTokenLifetime, h, req).response.succeeded
      && !ResetPassword.Reset(s1, now + ForgotPassword.ResetTokenLifetime + 1, h, req).response.succeeded
  {
    var k := ToUpperInvariant(email);
    var i := Find(s, ByEmail(k)).value;
    var s1 := ForgotPassword.Forgot(s, now, g1, g2, email, false).handled.store;
    assert Find(s1, ByEmail(k)) == Some(i) by {
      assert forall j :: 0 <= j < |s1| ==> (Selects(s1[j], ByEmail(k)) <==> Selects(s[j], ByEmail(k)));
    }
  }
}

=== FILE: seqs.dfy ===
/** The LINQ operators the store's queries are built from, over sequences in store order. */
module Seqs {
  import opened Wrappers

  /** `FirstOrDefault(p)` as an index: the first position whose element satisfies `p`. */
  function FirstWhere<T>(s: seq<T>, p: T -> bool): (r: Option<nat>)
    ensures r.Some? ==> r.value < |s| && p(s[r.value])
    ensures r.Some? ==> forall j :: 0 <= j < r.value ==> !p(s[j])
    ensures r.None? <==> forall j :: 0 <= j < |s| ==> !p(s[j])
  {
    FirstWhereFrom(s, p, 0)
  }

  function FirstWhereFrom<T>(s: seq<T>, p: T -> bool, from: nat): (r: Option<nat>)
    requires from <= |s|
    requires forall j :: 0 <= j < from ==> !p(s[j])
    ensures r.Some? ==> from <= r.value < |s| && p(s[r.value])
    ensures r.Some? ==> forall j :: 0 <= j < r.value ==> !p(s[j])
    ensures r.None? <==> forall j :: 0 <= j < |s| ==> !p(s[j])
    decreases |s| - from
  {
    if from == |s| then None
    else if p(s[from]) then Some(from)
    else FirstWhereFrom(s, p, from + 1)
  }

  /** `Count(p)`: how many elements satisfy `p`. */
  function CountWhere<T>(s: seq<T>, p: T -> bool): (n: nat)
    ensures n <= |s|
    ensures n == 0 <==> forall j :: 0 <= j < |s| ==> !p(s[j])
  {
    if s == [] then 0
    else (if p(s[0]) then 1 else 0) + CountWhere(s[1..], p)
  }

  lemma CountWhereAppend<T>(s: seq<T>, x: T, p: T -> bool)
    ensures CountWhere(s + [x], p) == CountWhere(s, p) + (if p(x) then 1 else 0)
  {
    if s != [] {
      assert (s + [x])[1..] == s[1..] + [x];
      CountWhereAppend(s[1..], x, p);
    }
  }

  /** Counting over one more element of a prefix. */
  lemma CountWherePrefixStep<T>(s: seq<T>, i: nat, p: T -> bool)
    requires i < |s|
    ensures CountWhere(s[..i + 1], p) == CountWhere(s[..i], p) + (if p(s[i]) then 1 else 0)
  {
    assert s[..i + 1] == s[..i] + [s[i]];
    CountWhereAppend(s[..i], s[i], p);
  }

  /** Two sequences whose elements answer two predicates alike have the same count. */
  lemma {:induction false} CountWhereAgree<T, U>(s: seq<T>, p: T -> bool, t: seq<U>, q: U -> bool)
    requires |s| == |t| && forall i :: 0 <= i < |s| ==> p(s[i]) == q(t[i])
    ensures CountWhere(s, p) == CountWhere(t, q)
  {
    if s != [] {
      assert p(s[0]) == q(t[0]);
      CountWhereAgree(s[1..], p, t[1..], q);
    }
  }

  /**
   * `Skip(offset).Take(size)` run as `OFFSET offset LIMIT size` by PostgreSQL, which refuses a
   * negative bound with an error (`None`) instead of reading it as zero.
   */
  function SqlPage<T>(s: seq<T>, offset: int, size: int): (r: Option<seq<T>>)
    ensures r.None? <==> offset < 0 || size < 0
    ensures r.Some? ==> r.value == if offset >= |s| then [] else s[offset..Lesser(offset + size, |s|)]
  {
    if offset < 0 || size < 0 then None else Some(Page(s, offset, size))
  }

  /** `Skip(n)`: a count of zero or less skips nothing. */
  function Skip<T>(s: seq<T>, n: int): (r: seq<T>)
    ensures n <= 0 ==> r == s
    ensures 0 <= n <= |s| ==> r == s[n..]
    ensures n >= |s| ==> r == []
  {
    if n <= 0 then s else if n >= |s| then [] else s[n..]
  }

  /** `Take(n)`: a count of zero or less takes nothing. */
  function Take<T>(s: seq<T>, n: int): (r: seq<T>)
    ensures n <= 0 ==> r == []
    ensures 0 <= n <= |s| ==> r == s[..n]
    ensures n >= |s| ==> r == s
  {
    if n <= 0 then [] else if n >= |s| then s else s[..n]
  }

  function Lesser(a: int, b: int): int {
    if a <= b then a else b
  }

  /** Where `Skip(offset).Take(size)` starts in a sequence of length `n`. */
  function PageStart(n: nat, offset: int): (a: nat)
    ensures a <= n
  {
    if offset <= 0 then 0 else Lesser(offset, n)
  }

  /** Where `Skip(offset).Take(size)` ends in a sequence of length `n`. */
  function PageEnd(n: nat, offset: int, size: int): (b: nat)
    ensures PageStart(n, offset) <= b <= n
  {
    if size <= 0 then PageStart(n, offset) else Lesser(PageStart(n, offset) + size, n)
  }

  /** `Skip(offset).Take(size)`: the window of at most `size` elements starting at `offset`. */
  function Page<T>(s: seq<T>, offset: int, size: int): (r: seq<T>)
    ensures r == s[PageStart(|s|, offset)..PageEnd(|s|, offset, size)]
    ensures |r| <= if size < 0 then 0 else size
    ensures 0 <= offset && 0 <= size ==>
      r == if offset >= |s| then [] else s[offset..Lesser(offset + size, |s|)]
  {
    Take(Skip(s, offset), size)
  }

  /** A window appended to everything before it is everything up to its end. */
  lemma PageExtendsPrefix<T>(s: seq<T>, offset: nat, size: nat)
    ensures s[..Lesser(offset, |s|)] + Page(s, offset, size) == s[..Lesser(offset + size, |s|)]
  {
  }

  /** `c * n` as repeated addition, so that induction over pages stays linear. */
  function Times(c: nat, n: nat): nat
  {
    if c == 0 then 0 else Times(c - 1, n) + n
  }

  lemma {:induction false} TimesIsProduct(c: nat, n: nat)
    ensures Times(c, n) == c * n
  {
    if c > 0 {
      TimesIsProduct(c - 1, n);
    }
  }

  /** Pages `0 .. count - 1` of `size` elements each, concatenated. */
  function Pages<T>(s: seq<T>, count: nat, size: nat): seq<T>
  {
    if count == 0 then [] else Pages(s, count - 1, size) + Page(s, Times(count - 1, size), size)
  }

  /** Paging never skips or repeats: the first `count` pages are the first `count * size` elements. */
  lemma PagesArePrefix<T>(s: seq<T>, count: nat, size: nat)
    ensures Pages(s, count, size) == s[..Lesser(count * size, |s|)]
  {
    PagesUpTo(s, count, size);
    TimesIsProduct(count, size);
  }

  lemma {:induction false} PagesUpTo<T>(s: seq<T>, count: nat, size: nat)
    ensures Pages(s, count, size) == s[..Lesser(Times(count, size), |s|)]
  {
    if count > 0 {
      PagesUpTo(s, count - 1, size);
      PageExtendsPrefix(s, Times(count - 1, size), size);
    }
  }

  /** A window holds nothing but elements of the sequence. */
  lemma PageWithin<T>(s: seq<T>, offset: int, size: int)
    ensures forall x :: x in Page(s, offset, size) ==> x in s
  {
    var r := Page(s, offset, size);
    forall x | x in r ensures x in s {
      var i :| 0 <= i < |r| && r[i] == x;
      assert r[i] == s[PageStart(|s|, offset) + i];
    }
  }

  lemma PageKeepsOrder<T>(s: seq<T>, offset: int, size: int, key: T -> int)
    requires SortedBy(s, key)
    ensures SortedBy(Page(s, offset, size), key)
  {
    var a := PageStart(|s|, offset);
    var r := Page(s, offset, size);
    assert forall i :: 0 <= i < |r| ==> r[i] == s[a + i];
  }

  /** `Select(f)` */
  function Map<T, U>(s: seq<T>, f: T -> U): (r: seq<U>)
    ensures |r| == |s|
    ensures forall i :: 0 <= i < |s| ==> r[i] == f(s[i])
  {
    if s == [] then [] else [f(s[0])] + Map(s[1..], f)
  }

  /** `Where(p)`: every occurrence of an element that satisfies `p`, and nothing else. */
  function Filter<T>(s: seq<T>, p: T -> bool): (r: seq<T>)
    ensures |r| <= |s|
    ensures forall i :: 0 <= i < |r| ==> p(r[i])
    ensures multiset(r) <= multiset(s)
    ensures forall i :: 0 <= i < |s| && p(s[i]) ==> multiset(r)[s[i]] == multiset(s)[s[i]]
  {
    if s == [] then []
    else
      assert s == [s[0]] + s[1..];
      (if p(s[0]) then [s[0]] else []) + Filter(s[1..], p)
  }

  ghost predicate SortedBy<T>(s: seq<T>, key: T -> int) {
    forall i, j :: 0 <= i < j < |s| ==> key(s[i]) <= key(s[j])
  }

  /** Places `x` after every element whose key is not greater than its own. */
  function Insert<T>(x: T, s: seq<T>, key: T -> int): (r: seq<T>)
    ensures multiset(r) == multiset(s) + multiset{x}
    ensures |r| == |s| + 1
  {
    if s == [] then [x]
    else if key(x) < key(s[0]) then [x] + s
    else
      assert s == [s[0]] + s[1..];
      [s[0]] + Insert(x, s[1..], key)
  }

  /** A lower bound on the keys of `x` and of `s` bounds the keys after the insertion. */
  lemma {:induction false} InsertAbove<T>(x: T, s: seq<T>, key: T -> int, b: int)
    requires key(x) >= b && forall i :: 0 <= i < |s| ==> key(s[i]) >= b
    ensures forall i :: 0 <= i < |Insert(x, s, key)| ==> key(Insert(x, s, key)[i]) >= b
  {
    if s != [] && key(x) >= key(s[0]) {
      InsertAbove(x, s[1..], key, b);
    }
  }

  /** Inserting into a sorted sequence keeps it sorted. */
  lemma {:induction false} InsertSorted<T>(x: T, s: seq<T>, key: T -> int)
    requires SortedBy(s, key)
    ensures SortedBy(Insert(x, s, key), key)
  {
    if s != [] && key(x) >= key(s[0]) {
      var rest := Insert(x, s[1..], key);
      InsertSorted(x, s[1..], key);
      InsertAbove(x, s[1..], key, key(s[0]));
      var r := [s[0]] + rest;
      assert forall i :: 1 <= i < |r| ==> r[i] == rest[i - 1];
    }
  }

  /** `OrderBy(key)`: a sorted permutation; the contract fixes no order among equal keys. */
  function SortBy<T>(s: seq<T>, key: T -> int): (r: seq<T>)
    ensures SortedBy(r, key)
    ensures multiset(r) == multiset(s)
    ensures |r| == |s|
  {
    if s == [] then []
    else
      assert s == s[..|s| - 1] + [s[|s| - 1]];
      InsertSorted(s[|s| - 1], SortBy(s[..|s| - 1], key), key);
      Insert(s[|s| - 1], SortBy(s[..|s| - 1], key), key)
  }
}

=== FILE: stamping.dfy ===
/**
 * Audit timestamps written by `SaveChangesAsync`: every tracked entry that derives from
 * `BaseEntity<Guid>` gets `CreatedDate` when Added and `UpdatedDate` when Modified.
 */
module Stamping {
  import opened Wrappers
  import opened Clock

  datatype EntityState = Detached | Unchanged | Deleted | Modified | Added

  datatype Stamps = Stamps(createdDate: Time, updatedDate: Option<Time>)

  /** The entity types a change tracker can hold, across both revisions. */
  datatype EntityKind = UserEntity | RoleEntity | UserRoleEntity | IdentityUser | IdentityRole

  /** Which entity types derive from `BaseEntity<Guid>` (the identity types do not). */
  predicate IsBaseEntity(k: EntityKind) {
    k.UserEntity? || k.RoleEntity? || k.UserRoleEntity?
  }

  datatype Entry = Entry(kind: EntityKind, state: EntityState, stamps: Stamps)

  /** The switch on the entry state. */
  function Stamp(state: EntityState, st: Stamps, now: Time): (r: Stamps)
    ensures state == Added ==> r.createdDate == now
    ensures state == Modified ==> r.updatedDate == Some(now)
    ensures state != Added ==> r.createdDate == st.createdDate
    ensures state != Modified ==> r.updatedDate == st.updatedDate
  {
    match state
    case Added => st.(createdDate := now)
    case Modified => st.(updatedDate := Some(now))
    case _ => st
  }

  /** Stamping twice at the same instant is stamping once. */
  lemma StampIdempotent(state: EntityState, st: Stamps, now: Time)
    ensures Stamp(state, Stamp(state, st, now), now) == Stamp(state, st, now)
  {
  }

  /** One entry of `ChangeTracker.Entries<BaseEntity<Guid>>()` after the loop body. */
  function StampEntry(e: Entry, now: Time): Entry {
    if IsBaseEntity(e.kind) then e.(stamps := Stamp(e.state, e.stamps, now)) else e
  }

  /** The stamping pass of `SaveChangesAsync`, before the base save. */
  function SaveChanges(entries: seq<Entry>, now: Time): (r: seq<Entry>)
    ensures |r| == |entries|
    ensures forall i :: 0 <= i < |entries| ==>
      r[i].kind == entries[i].kind && r[i].state == entries[i].state
    ensures forall i :: 0 <= i < |entries| && IsBaseEntity(entries[i].kind) && entries[i].state == Added ==>
      r[i].stamps == entries[i].stamps.(createdDate := now)
    ensures forall i :: 0 <= i < |entries| && IsBaseEntity(entries[i].kind) && entries[i].state == Modified ==>
      r[i].stamps == entries[i].stamps.(updatedDate := Some(now))
    ensures forall i :: 0 <= i < |entries| && !(entries[i].state in {Added, Modified}) ==>
      r[i] == entries[i]
    ensures forall i :: 0 <= i < |entries| && !IsBaseEntity(entries[i].kind) ==> r[i] == entries[i]
  {
    if entries == [] then [] else [StampEntry(entries[0], now)] + SaveChanges(entries[1..], now)
  }
}

=== FILE: text.dfy ===
/** The string primitives of .NET the core relies on. */
module Text {

  /**
   * `char.IsWhiteSpace`: the Unicode separators (space, line, paragraph) plus
   * U+0009..U+000D and U+0085.
   */
  predicate IsWhiteSpace(c: char) {
    || c == ' ' || ('\t' <= c <= '\r') || c == '\U{85}' || c == '\U{A0}'
    || c == '\U{1680}' || ('\U{2000}' <= c <= '\U{200A}') || c == '\U{2028}' || c == '\U{2029}'
    || c == '\U{202F}' || c == '\U{205F}' || c == '\U{3000}'
  }

  /** `string.IsNullOrWhiteSpace` on a non-null string: empty or whitespace only. */
  predicate IsBlank(s: string) {
    forall i :: 0 <= i < |s| ==> IsWhiteSpace(s[i])
  }

  /** `char.ToUpperInvariant` on the ASCII letters; every other character is kept. */
  function UpperChar(c: char): char {
    if 'a' <= c <= 'z' then (c as int - 32) as char else c
  }

  predicate IsLowerAscii(c: char) {
    'a' <= c <= 'z'
  }

  /** `string.ToUpperInvariant`: upper-cases character by character. */
  function ToUpperInvariant(s: string): (r: string)
    ensures |r| == |s|
    ensures forall i :: 0 <= i < |s| ==> r[i] == UpperChar(s[i])
  {
    if s == [] then [] else [UpperChar(s[0])] + ToUpperInvariant(s[1..])
  }

  /** Upper-casing twice is upper-casing once, so a normalised key normalises to itself. */
  lemma ToUpperIdempotent(s: string)
    ensures ToUpperInvariant(ToUpperInvariant(s)) == ToUpperInvariant(s)
  {
    var u := ToUpperInvariant(s);
    var uu := ToUpperInvariant(u);
    assert forall i :: 0 <= i < |s| ==> uu[i] == u[i];
  }

  /** An upper-cased string holds no lower-case ASCII letter, and those are all it changes. */
  lemma ToUpperFixesExactlyUpperStrings(s: string)
    ensures ToUpperInvariant(s) == s <==> forall i :: 0 <= i < |s| ==> !IsLowerAscii(s[i])
  {
    if ToUpperInvariant(s) == s {
      forall i | 0 <= i < |s| ensures !IsLowerAscii(s[i]) {
        assert ToUpperInvariant(s)[i] == UpperChar(s[i]);
      }
    }
  }

  /** `s.StartsWith(prefix)`, compared character by character. */
  predicate StartsWith(s: string, prefix: string) {
    |prefix| <= |s| && s[..|prefix|] == prefix
  }

  /** `t` occurs inside `s` starting at position `i`. */
  predicate OccursAt(s: string, t: string, i: int) {
    0 <= i <= |s| - |t| && s[i..i + |t|] == t
  }

  /** `s.Contains(t)` */
  predicate Contains(s: string, t: string) {
    exists i | 0 <= i <= |s| - |t| :: OccursAt(s, t, i)
  }

  predicate IsDecimalDigit(c: char) {
    '0' <= c <= '9'
  }

  /** The decimal text of a non-negative whole number, as string interpolation writes it. */
  function Decimal(n: nat): (r: string)
    ensures |r| >= 1
    ensures forall i :: 0 <= i < |r| ==> IsDecimalDigit(r[i])
  {
    var d := [('0' as int + n % 10) as char];
    if n < 10 then d else Decimal(n / 10) + d
  }

  /** The number a string of decimal digits spells. */
  function DecimalValue(s: string): nat
    requires forall i :: 0 <= i < |s| ==> IsDecimalDigit(s[i])
  {
    if s == [] then 0
    else
      assert IsDecimalDigit(s[|s| - 1]);
      10 * DecimalValue(s[..|s| - 1]) + (s[|s| - 1] as int - '0' as int)
  }

  /** Reading back the decimal text gives the number written. */
  lemma {:induction false} DecimalRoundTrip(n: nat)
    ensures DecimalValue(Decimal(n)) == n
  {
    if n >= 10 {
      DecimalRoundTrip(n / 10);
      var r := Decimal(n);
      assert r[..|r| - 1] == Decimal(n / 10);
    }
  }
}

=== FILE: token_storage.dfy ===
/**
 * The web client's `CookieTokenStorageService`: a cached token in front of the protected
 * session storage under one key. A storage read either returns what is stored, reports
 * failure, or throws; which one happens is a parameter.
 */
module TokenStorage {
  import opened Wrappers
  import opened Clock

  /** The shared `TokenDto`; a string read back from storage may be null. */
  datatype TokenDto = TokenDto(accessToken: Option<string>, expiration: Time, refreshToken: Option<string>)

  /** `_cachedToken`, and the value stored under the token key. */
  datatype StorageState = StorageState(cached: Option<TokenDto>, stored: Option<TokenDto>)

  /** How the storage read goes: it returns the stored value, reports `Success = false`, or throws. */
  datatype ReadFault = Readable | Unreadable | Throws

  /** The cache never disagrees with storage: whenever a token is cached, it is the stored one. */
  predicate Coherent(st: StorageState) {
    st.cached.Some? ==> st.cached == st.stored
  }

  /** `GetTokenAsync`: the token it returns and the state it leaves. */
  function GetToken(st: StorageState, fault: ReadFault): (r: (Option<TokenDto>, StorageState))
    ensures st.cached.Some? ==> r == (st.cached, st)
    ensures st.cached.None? && fault == Readable ==> r == (st.stored, st.(cached := st.stored))
    ensures st.cached.None? && fault != Readable ==> r.0.None? && r.1.stored == st.stored
    ensures Coherent(st) ==> Coherent(r.1)
    ensures r.0.Some? && Coherent(st) ==> r.0 == st.stored
  {
    if st.cached.Some? then (st.cached, st)
    else match fault
      case Readable => (st.stored, st.(cached := st.stored))
      case Unreadable => (None, st.(cached := None))
      case Throws => (None, st)
  }

  /** `SetTokenAsync` */
  function SetToken(st: StorageState, t: TokenDto): (r: StorageState)
    ensures r.cached == Some(t) && r.stored == Some(t) && Coherent(r)
  {
    StorageState(Some(t), Some(t))
  }

  /** `ClearTokenAsync` */
  function ClearToken(st: StorageState): (r: StorageState)
    ensures r.cached.None? && r.stored.None? && Coherent(r)
  {
    StorageState(None, None)
  }

  /** `IsAuthenticatedAsync`: a token is found and expires strictly after `now`. */
  function IsAuthenticated(st: StorageState, now: Time, fault: ReadFault): (r: (bool, StorageState))
    ensures r.0 <==> GetToken(st, fault).0.Some? && GetToken(st, fault).0.value.expiration > now
    ensures r.1 == GetToken(st, fault).1
  {
    var (token, st') := GetToken(st, fault);
    (token.Some? && token.value.expiration > now, st')
  }

  /** After `SetTokenAsync(t)` the next read returns `t`, whatever the storage does. */
  lemma GetAfterSet(st: StorageState, t: TokenDto, fault: ReadFault)
    ensures GetToken(SetToken(st, t), fault).0 == Some(t)
  {
  }

  /** After `ClearTokenAsync` no token is found, and the client is not authenticated. */
  lemma NothingAfterClear(st: StorageState, now: Time, fault: ReadFault)
    ensures GetToken(ClearToken(st), fault).0.None?
    ensures !IsAuthenticated(ClearToken(st), now, fault).0
  {
  }

  /** Expiry is strict: a token expiring exactly now no longer authenticates. */
  lemma ExpiryIsStrict(st: StorageState, t: TokenDto, fault: ReadFault)
    ensures !IsAuthenticated(SetToken(st, t), t.expiration, fault).0
    ensures IsAuthenticated(SetToken(st, t), t.expiration - 1, fault).0
  {
  }
}

=== FILE: uri_escape.dfy ===
/**
 * `Uri.EscapeDataString` as the reset-link builder uses it: percent-encoding as in section 2.1
 * of RFC 3986. A character in the unreserved set of section 2.3 stays as it is; any other
 * character is encoded as UTF-8 (RFC 3629) and each byte is written `%XY` with upper-case hex
 * digits. A Dafny `char` is a Unicode scalar value, so a string here never holds a lone
 * surrogate.
 */
module UriEscape {
  import opened Wrappers
  import opened Hex

  type Byte = x: int | 0 <= x < 256

  /** ALPHA / DIGIT / "-" / "." / "_" / "~" */
  predicate IsUnreserved(c: char) {
    ('A' <= c <= 'Z') || ('a' <= c <= 'z') || ('0' <= c <= '9') || c == '-' || c == '.' || c == '_' || c == '~'
  }

  predicate IsContinuation(b: Byte) {
    0x80 <= b < 0xC0
  }

  // ----- UTF-8 -----

  /** The UTF-8 bytes of one scalar value: one to four bytes by its range. */
  function Utf8(c: char): (r: seq<Byte>)
    ensures 1 <= |r| <= 4
    ensures |r| == 1 <==> c as int < 0x80
    ensures |r| == 1 ==> r[0] == c as int
    ensures forall k :: 1 <= k < |r| ==> IsContinuation(r[k])
  {
    var x := c as int;
    if x < 0x80 then [x]
    else if x < 0x800 then [0xC0 + x / 64, 0x80 + x % 64]
    else if x < 0x10000 then [0xE0 + (x / 64) / 64, 0x80 + (x / 64) % 64, 0x80 + x % 64]
    else [0xF0 + ((x / 64) / 64) / 64, 0x80 + ((x / 64) / 64) % 64, 0x80 + (x / 64) % 64, 0x80 + x % 64]
  }

  function Utf8Encode(s: string): (r: seq<Byte>)
    ensures |r| >= |s|
  {
    if s == [] then [] else Utf8(s[0]) + Utf8Encode(s[1..])
  }

  predicate IsScalar(x: int) {
    (0 <= x < 0xD800) || (0xE000 <= x <= 0x10FFFF)
  }

  /**
   * The first character of `b` and the number of bytes it takes. Overlong forms, surrogates,
   * values above U+10FFFF and missing continuation bytes are refused.
   */
  function DecodeOne(b: seq<Byte>): (r: Option<(char, nat)>)
    ensures r.Some? ==> 1 <= r.value.1 <= |b|
  {
    if b == [] then None
    else if b[0] < 0x80 then Some((b[0] as char, 1))
    else if 0xC0 <= b[0] < 0xE0 && |b| >= 2 && IsContinuation(b[1]) then
      var x := (b[0] as int - 0xC0) * 64 + (b[1] as int - 0x80);
      if x >= 0x80 then Some((x as char, 2)) else None
    else if 0xE0 <= b[0] < 0xF0 && |b| >= 3 && IsContinuation(b[1]) && IsContinuation(b[2]) then
      var x := ((b[0] as int - 0xE0) * 64 + (b[1] as int - 0x80)) * 64 + (b[2] as int - 0x80);
      if x >= 0x800 && IsScalar(x) then Some((x as char, 3)) else None
    else if 0xF0 <= b[0] < 0xF8 && |b| >= 4 && IsContinuation(b[1]) && IsContinuation(b[2]) && IsContinuation(b[3]) then
      var x := (((b[0] as int - 0xF0) * 64 + (b[1] as int - 0x80)) * 64 + (b[2] as int - 0x80)) * 64 + (b[3] as int - 0x80);
      if 0x10000 <= x && IsScalar(x) then Some((x as char, 4)) else None
    else None
  }

  function Utf8Decode(b: seq<Byte>): (r: Option<string>)
    decreases |b|
  {
    if b == [] then Some([])
    else match DecodeOne(b)
      case None => None
      case Some((c, n)) =>
        match Utf8Decode(b[n..])
        case None => None
        case Some(rest) => Some([c] + rest)
  }

  /** The bytes of one character decode back to it, whatever follows them. */
  lemma DecodeOneUtf8(c: char, rest: seq<Byte>)
    ensures DecodeOne(Utf8(c) + rest) == Some((c, |Utf8(c)|))
  {
    var x := c as int;
    var b := Utf8(c) + rest;
    if x < 0x80 {
    } else if x < 0x800 {
      assert b[0] == 0xC0 + x / 64 && b[1] == 0x80 + x % 64;
    } else if x < 0x10000 {
      var q := x / 64;
      assert b[0] == 0xE0 + q / 64 && b[1] == 0x80 + q % 64 && b[2] == 0x80 + x % 64;
      assert ((b[0] as int - 0xE0) * 64 + (b[1] as int - 0x80)) * 64 + (b[2] as int - 0x80) == x;
    } else {
      var q := x / 64;
      var q2 := q / 64;
      assert b[0] == 0xF0 + q2 / 64 && b[1] == 0x80 + q2 % 64 && b[2] == 0x80 + q % 64 && b[3] == 0x80 + x % 64;
      assert (((b[0] as int - 0xF0) * 64 + (b[1] as int - 0x80)) * 64 + (b[2] as int - 0x80)) * 64 + (b[3] as int - 0x80) == x;
    }
  }

  /** UTF-8 round trip: decoding the encoding of a string gives the string back. */
  lemma {:induction false} Utf8RoundTrip(s: string)
    ensures Utf8Decode(Utf8Encode(s)) == Some(s)
  {
    if s != [] {
      var b := Utf8Encode(s);
      var head := Utf8(s[0]);
      DecodeOneUtf8(s[0], Utf8Encode(s[1..]));
      assert b[|head|..] == Utf8Encode(s[1..]);
      Utf8RoundTrip(s[1..]);
      assert s == [s[0]] + s[1..];
    }
  }

  // ----- percent-encoding -----

  /** `%XY` for one byte, upper-case hex. */
  function PercentByte(b: Byte): (r: string)
    ensures |r| == 3 && r[0] == '%' && IsUpperHexDigit(r[1]) && IsUpperHexDigit(r[2])
    ensures DigitValue(r[1]) * 16 + DigitValue(r[2]) == b
  {
    DigitRoundTrip(b / 16);
    DigitRoundTrip(b % 16);
    ['%', UpperDigit(b / 16), UpperDigit(b % 16)]
  }

  function PercentBytes(b: seq<Byte>): (r: string)
    ensures |r| == 3 * |b|
  {
    if b == [] then [] else PercentByte(b[0]) + PercentBytes(b[1..])
  }

  function EscapeChar(c: char): (r: string)
    ensures IsUnreserved(c) ==> r == [c]
    ensures !IsUnreserved(c) ==> |r| >= 3 && r[0] == '%'
  {
    if IsUnreserved(c) then [c] else PercentBytes(Utf8(c))
  }

  /** `Uri.EscapeDataString` */
  function Escape(s: string): (r: string)
    ensures |r| >= |s|
  {
    if s == [] then [] else EscapeChar(s[0]) + Escape(s[1..])
  }

  /**
   * The receiving side's percent-decoding: `%XY` gives the byte `XY`, any other ASCII
   * character gives its own code, and a stray `%` or a non-ASCII character is refused.
   */
  function PercentDecode(t: string): (r: Option<seq<Byte>>)
    decreases |t|
  {
    if t == [] then Some([])
    else if t[0] == '%' then
      if |t| >= 3 && (IsUpperHexDigit(t[1]) || IsLowerHexDigit(t[1])) && (IsUpperHexDigit(t[2]) || IsLowerHexDigit(t[2])) then
        match PercentDecode(t[3..])
        case None => None
        case Some(rest) => Some([DigitValue(t[1]) * 16 + DigitValue(t[2])] + rest)
      else None
    else if t[0] as int < 0x80 then
      match PercentDecode(t[1..])
      case None => None
      case Some(rest) => Some([t[0] as int] + rest)
    else None
  }

  /** `Uri.UnescapeDataString` on what `Escape` produces: percent-decode, then UTF-8 decode. */
  function Unescape(t: string): (r: Option<string>) {
    match PercentDecode(t)
    case None => None
    case Some(b) => Utf8Decode(b)
  }

  lemma {:induction false} PercentBytesDecode(b: seq<Byte>, rest: string)
    requires PercentDecode(rest).Some?
    ensures PercentDecode(PercentBytes(b) + rest) == Some(b + PercentDecode(rest).value)
  {
    if b != [] {
      var t := PercentBytes(b) + rest;
      var p := PercentByte(b[0]);
      assert t[0] == p[0] && t[1] == p[1] && t[2] == p[2];
      assert t[3..] == PercentBytes(b[1..]) + rest;
      PercentBytesDecode(b[1..], rest);
      assert PercentDecode(t) == Some([b[0]] + (b[1..] + PercentDecode(rest).value));
      var x := PercentDecode(rest).value;
      assert b + x == [b[0]] + (b[1..] + x);
    } else {
      assert PercentBytes(b) + rest == rest;
      assert b + PercentDecode(rest).value == PercentDecode(rest).value;
    }
  }

  /** Escaping one character and percent-decoding it gives the character's UTF-8 bytes. */
  lemma EscapeCharDecodes(c: char, rest: string)
    requires PercentDecode(rest).Some?
    ensures PercentDecode(EscapeChar(c) + rest) == Some(Utf8(c) + PercentDecode(rest).value)
  {
    if IsUnreserved(c) {
      assert (EscapeChar(c) + rest)[1..] == rest;
    } else {
      PercentBytesDecode(Utf8(c), rest);
    }
  }

  /** Percent-decoding the escaped string gives exactly the string's UTF-8 bytes. */
  lemma {:induction false} EscapeDecodesToUtf8(s: string)
    ensures PercentDecode(Escape(s)) == Some(Utf8Encode(s))
  {
    if s != [] {
      EscapeDecodesToUtf8(s[1..]);
      EscapeCharDecodes(s[0], Escape(s[1..]));
    }
  }

  /** Round trip: unescaping an escaped string gives the string back. */
  lemma EscapeRoundTrip(s: string)
    ensures Unescape(Escape(s)) == Some(s)
  {
    EscapeDecodesToUtf8(s);
    Utf8RoundTrip(s);
  }

  /**
   * Escaping leaves a string as it is, and keeps its length, exactly when every character is
   * unreserved.
   */
  lemma {:induction false} EscapeChangesExactlyReserved(s: string)
    ensures Escape(s) == s <==> forall i :: 0 <= i < |s| ==> IsUnreserved(s[i])
    ensures |Escape(s)| == |s| <==> forall i :: 0 <= i < |s| ==> IsUnreserved(s[i])
  {
    if s != [] {
      EscapeChangesExactlyReserved(s[1..]);
      if IsUnreserved(s[0]) {
        assert Escape(s) == [s[0]] + Escape(s[1..]);
        assert s == [s[0]] + s[1..];
        if Escape(s) == s {
          assert Escape(s[1..]) == s[1..];
        }
      } else {
        assert |Escape(s)| >= 3 + |s[1..]|;
      }
    }
  }

  /** A hex token, such as a reset token, passes through unchanged. */
  lemma HexTokenIsNotEscaped(t: string)
    requires forall i :: 0 <= i < |t| ==> IsLowerHexDigit(t[i])
    ensures Escape(t) == t
  {
    EscapeChangesExactlyReserved(t);
  }
}

=== FILE: user_service.dfy ===
/**
 * The application layer's `UserService`: registration with its two uniqueness checks, the
 * password check, refresh-token update, and the lookups that return `UserDto`s.
 */
module UserService {
  import opened Wrappers
  import opened Clock
  import opened Int32
  import opened Text
  import opened Hex
  import opened Seqs
  import opened Stamping
  import opened Accounts
  import opened Credentials
  import opened UserStore
  import opened Responses

  const EmailTaken := "A user with this email already exists."
  const UserNameTaken := "A user with this username already exists."
  const UserCreated := "User created successfully."

  /**
   * A handler's end: it returned an answer after its saves, or the save threw
   * `DbUpdateException` because a database constraint refused the row; then nothing was
   * written.
   */
  datatype Saving<R> = Committed(handled: Handled<R>) | ConstraintViolated(store: Store)

  /**
   * The uniqueness checks in their order: the email first, then the username, each on its
   * upper-cased form and among visible accounts.
   */
  function Conflict(s: Store, email: string, userName: string): (r: Option<string>)
    ensures r == Some(EmailTaken) <==> Exists(s, ByEmail(ToUpperInvariant(email)))
    ensures r == Some(UserNameTaken) <==>
      !Exists(s, ByEmail(ToUpperInvariant(email))) && Exists(s, ByUserName(ToUpperInvariant(userName)))
    ensures r.None? || r == Some(EmailTaken) || r == Some(UserNameTaken)
  {
    if Exists(s, ByEmail(ToUpperInvariant(email))) then Some(EmailTaken)
    else if Exists(s, ByUserName(ToUpperInvariant(userName))) then Some(UserNameTaken)
    else None
  }

  /** The checks ignore case: upper-casing either input first changes nothing. */
  lemma ConflictIgnoresCase(s: Store, email: string, userName: string)
    ensures Conflict(s, ToUpperInvariant(email), ToUpperInvariant(userName)) == Conflict(s, email, userName)
  {
    ToUpperIdempotent(email);
    ToUpperIdempotent(userName);
  }

  /**
   * The row `CreateUserAsync` adds, as the save leaves it: the names as typed, their
   * upper-cased forms, the password's hash, the creation stamp, and every other column at its
   * default.
   */
  function Registered(newId: Guid, now: Time, h: Hasher, nameSurname: string, email: string,
                      userName: string, password: string): (u: Account)
    ensures u.id == newId && u.createdDate == now && u.updatedDate.None? && !u.isDeleted
    ensures u.email == email && u.normalizedEmail == ToUpperInvariant(email)
    ensures u.userName == userName && u.normalizedUserName == ToUpperInvariant(userName)
    ensures u.nameSurname == nameSurname && u.passwordHash == h.hash(password)
    ensures u.refreshToken.None? && u.passwordResetToken.None? && PairsConsistent(u)
    ensures u.failedLoginAttempts == 0 && u.lockoutEnd.None? && u.lockoutEnabled
  {
    var u := NewUser(newId).(userName := userName, normalizedUserName := ToUpperInvariant(userName),
                             email := email, normalizedEmail := ToUpperInvariant(email),
                             nameSurname := nameSurname, passwordHash := h.hash(password));
    Saved(u, Added, now)
  }

  /** `CreateUserAsync`; `newId` is the `Guid.NewGuid()` drawn for the account. */
  function CreateUser(s: Store, now: Time, h: Hasher, newId: Guid, nameSurname: string, email: string,
                      userName: string, password: string): (r: Saving<ServiceResponse<Guid>>)
    ensures Conflict(s, email, userName).Some? ==>
      r == Committed(Handled(s, OfMessage(Conflict(s, email, userName).value)))
    ensures Conflict(s, email, userName).None? ==>
      var u := Registered(newId, now, h, nameSurname, email, userName, password);
      && (CanInsert(s, u) ==> r == Committed(Handled(s + [u], OfDataMessage(newId, UserCreated))))
      && (!CanInsert(s, u) ==> r == ConstraintViolated(s))
  {
    match Conflict(s, email, userName)
    case Some(message) => Committed(Handled(s, OfMessage(message)))
    case None =>
      var u := Registered(newId, now, h, nameSurname, email, userName, password);
      if CanInsert(s, u) then Committed(Handled(s + [u], OfDataMessage(newId, UserCreated)))
      else ConstraintViolated(s)
  }

  /** On a double conflict the email is the one reported, and nothing is added. */
  lemma EmailReportedFirst(s: Store, now: Time, h: Hasher, newId: Guid, nameSurname: string,
                           email: string, userName: string, password: string)
    requires Exists(s, ByEmail(ToUpperInvariant(email))) && Exists(s, ByUserName(ToUpperInvariant(userName)))
    ensures CreateUser(s, now, h, newId, nameSurname, email, userName, password)
         == Committed(Handled(s, OfMessage(EmailTaken)))
  {
  }

  /**
   * Registration keeps the store valid: the checks and the constraints together let in only a
   * row that clashes with no other.
   */
  lemma CreateUserKeepsValid(s: Store, now: Time, h: Hasher, newId: Guid, nameSurname: string,
                             email: string, userName: string, password: string)
    requires Valid(s)
    ensures var r := CreateUser(s, now, h, newId, nameSurname, email, userName, password);
      Valid(if r.Committed? then r.handled.store else r.store)
  {
    var u := Registered(newId, now, h, nameSurname, email, userName, password);
    if Conflict(s, email, userName).None? && CanInsert(s, u) {
      InsertKeepsValid(s, u);
    }
  }

  /**
   * The unique indexes also cover soft-deleted rows, which the checks do not see: an email last
   * used by a deleted account passes the check and is then refused by the database.
   */
  lemma DeletedEmailIsRefusedByTheDatabase(s: Store, now: Time, h: Hasher, newId: Guid, nameSurname: string,
                                           email: string, userName: string, password: string, i: nat)
    requires i < |s| && s[i].isDeleted && s[i].normalizedEmail == ToUpperInvariant(email)
    requires Conflict(s, email, userName).None?
    ensures CreateUser(s, now, h, newId, nameSurname, email, userName, password) == ConstraintViolated(s)
  {
  }

  // ----- lookups returning UserDto -----

  /** `FindByEmailOrUsernameAsync`: the dto of the account the repository's lookup returns. */
  function FindByEmailOrUserName(s: Store, emailOrUserName: string): (r: Option<UserDto>)
    ensures r.None? <==> forall j :: 0 <= j < |s| ==> !Selects(s[j], ByEmailOrUserName(ToUpperInvariant(emailOrUserName)))
    ensures r.Some? ==> exists j :: 0 <= j < |s| && Selects(s[j], ByEmailOrUserName(ToUpperInvariant(emailOrUserName)))
                                    && r.value == MapToDto(s[j])
  {
    match Find(s, ByEmailOrUserName(ToUpperInvariant(emailOrUserName)))
    case None => None
    case Some(i) => Some(MapToDto(s[i]))
  }

  /** `FindByRefreshTokenAsync`: the dto of an account holding exactly that refresh token. */
  function FindByRefreshToken(s: Store, refreshToken: string): (r: Option<UserDto>)
    ensures r.None? <==> forall j :: 0 <= j < |s| ==> !Selects(s[j], ByRefreshToken(refreshToken))
    ensures r.Some? ==> r.value.refreshToken == Some(refreshToken)
    ensures r.Some? ==> exists j :: 0 <= j < |s| && Selects(s[j], ByRefreshToken(refreshToken))
                                    && r.value == MapToDto(s[j])
  {
    match Find(s, ByRefreshToken(refreshToken))
    case None => None
    case Some(i) => Some(MapToDto(s[i]))
  }

  /** `CheckPasswordAsync`: false for an unknown id, otherwise what the hasher says. */
  function CheckPassword(s: Store, h: Hasher, id: Guid, password: string): (r: bool)
    ensures Find(s, ById(id)).None? ==> !r
    ensures Find(s, ById(id)).Some? ==> (r <==> h.verify(password, s[Find(s, ById(id)).value].passwordHash))
  {
    match Find(s, ById(id))
    case None => false
    case Some(i) => h.verify(password, s[i].passwordHash)
  }

  /** With a sound hasher the password an account was registered with checks out. */
  lemma RegisteredPasswordChecks(s: Store, now: Time, h: Hasher, newId: Guid, nameSurname: string,
                                 email: string, userName: string, password: string)
    requires Sound(h)
    requires CreateUser(s, now, h, newId, nameSurname, email, userName, password).Committed?
    requires CreateUser(s, now, h, newId, nameSurname, email, userName, password).handled.response.succeeded
    ensures CheckPassword(CreateUser(s, now, h, newId, nameSurname, email, userName, password).handled.store,
                          h, newId, password)
  {
    var u := Registered(newId, now, h, nameSurname, email, userName, password);
    var s' := s + [u];
    assert Selects(s'[|s|], ById(newId));
    assert forall j :: 0 <= j < |s| ==> !Selects(s'[j], ById(newId));
  }

  /**
   * `UpdateRefreshTokenAsync`: sets both refresh fields of the account with that id, and does
   * nothing for an unknown id. The save stamps the row only when a value actually changed.
   */
  function UpdateRefreshToken(s: Store, now: Time, id: Guid, refreshToken: string, endDate: Time): (r: Store)
    ensures |r| == |s|
    ensures Find(s, ById(id)).None? ==> r == s
    ensures Find(s, ById(id)).Some? ==>
      var i := Find(s, ById(id)).value;
      && r[i].refreshToken == Some(refreshToken) && r[i].refreshTokenEndDate == Some(endDate)
      && r[i].updatedDate == (if s[i].refreshToken == Some(refreshToken) && s[i].refreshTokenEndDate == Some(endDate)
                              then s[i].updatedDate else Some(now))
      && r == s[i := s[i].(refreshToken := r[i].refreshToken, refreshTokenEndDate := r[i].refreshTokenEndDate,
                           updatedDate := r[i].updatedDate)]
  {
    match Find(s, ById(id))
    case None => s
    case Some(i) =>
      var u := s[i].(refreshToken := Some(refreshToken), refreshTokenEndDate := Some(endDate));
      s[i := if u == s[i] then u else Updated(u, now)]
  }

  /** Setting the same pair twice is setting it once, apart from nothing at all. */
  lemma UpdateRefreshTokenIdempotent(s: Store, now: Time, later: Time, id: Guid, refreshToken: string, endDate: Time)
    ensures UpdateRefreshToken(UpdateRefreshToken(s, now, id, refreshToken, endDate), later, id, refreshToken, endDate)
         == UpdateRefreshToken(s, now, id, refreshToken, endDate)
  {
    var s1 := UpdateRefreshToken(s, now, id, refreshToken, endDate);
    assert forall j :: 0 <= j < |s| ==> (Selects(s1[j], ById(id)) <==> Selects(s[j], ById(id)));
  }

  /**
   * `GetAllUsersAsync(page, size)`: the dtos of one page of the repository's query as written,
   * in the page's order; nothing when the database refuses the query.
   */
  function GetAllUsers(s: Store, page: int32, size: int32): (r: Option<seq<UserDto>>)
    ensures r.None? <==> Multiply(page, size) < 0 || size < 0
    ensures r.Some? ==> var rows := GetAllAsWritten(s, page, size).value;
      && |r.value| == |rows| <= size
      && forall i :: 0 <= i < |rows| ==> Visible(rows[i]) && rows[i] in s && r.value[i] == MapToDto(rows[i])
  {
    match GetAllAsWritten(s, page, size)
    case None => None
    case Some(rows) => Some(Map(rows, MapToDto))
  }
}

=== FILE: user_store.dfy ===
/**
 * The account store the handlers rely on: the `Users` and `Roles` sets of the database context
 * seen through the user repository. Rows are kept in store order; every query sees only rows
 * the soft-delete filter lets through, and the unique indexes and column lengths of the user
 * configuration are the store invariant.
 */
module UserStore {
  import opened Wrappers
  import opened Clock
  import opened Int32
  import opened Text
  import opened Hex
  import opened Seqs
  import opened Accounts

  type Store = seq<Account>

  /** The global query filter `!e.IsDeleted`. */
  predicate Visible(u: Account) {
    !u.isDeleted
  }

  /** The predicates of the repository's lookups. */
  datatype Key =
    | ById(id: Guid)
    | ByEmail(normalizedEmail: string)
    | ByUserName(normalizedUserName: string)
    | ByEmailOrUserName(normalized: string)
    | ByRefreshToken(refreshToken: string)

  predicate Matches(u: Account, key: Key) {
    match key
    case ById(id) => u.id == id
    case ByEmail(e) => u.normalizedEmail == e
    case ByUserName(n) => u.normalizedUserName == n
    case ByEmailOrUserName(k) => u.normalizedEmail == k || u.normalizedUserName == k
    case ByRefreshToken(t) => u.refreshToken == Some(t)
  }

  /** A row a query with `key` returns: visible and matching. */
  predicate Selects(u: Account, key: Key) {
    Visible(u) && Matches(u, key)
  }

  /**
   * `FirstOrDefaultAsync(predicate)` (and `FindAsync` for `ById`): the position of the first
   * visible row that matches, or nothing when no visible row does.
   */
  function Find(s: Store, key: Key): (r: Option<nat>)
    ensures r.Some? ==> r.value < |s| && Visible(s[r.value]) && Matches(s[r.value], key)
    ensures r.Some? ==> forall j :: 0 <= j < r.value ==> !Selects(s[j], key)
    ensures r.None? <==> forall j :: 0 <= j < |s| ==> !Selects(s[j], key)
  {
    FirstWhere(s, u => Selects(u, key))
  }

  /** `AnyAsync(predicate)` */
  predicate Exists(s: Store, key: Key) {
    exists i | 0 <= i < |s| :: Selects(s[i], key)
  }

  /** `ExistsWith*Async(k)` holds exactly when `Find*Async(k)` returns an account. */
  lemma ExistsIffFound(s: Store, key: Key)
    ensures Exists(s, key) <==> Find(s, key).Some?
  {
  }

  /** A soft-deleted row is never returned, whatever the key. */
  lemma DeletedRowsAreInvisible(s: Store, i: nat, key: Key)
    requires i < |s| && s[i].isDeleted
    ensures Find(s, key) != Some(i)
  {
  }

  /**
   * The lookup login should make: an account whose normalised email is `k`, and only when
   * there is none, one whose normalised username is `k`.
   */
  function FindForLogin(s: Store, k: string): (r: Option<nat>)
    ensures r.Some? ==> r.value < |s| && Selects(s[r.value], ByEmailOrUserName(k))
    ensures r.None? <==> Find(s, ByEmailOrUserName(k)).None?
  {
    match Find(s, ByEmail(k))
    case Some(i) => Some(i)
    case None => Find(s, ByUserName(k))
  }

  // ----- unique indexes, column lengths, primary key -----

  const MaxNameLength: nat := 256

  /** `HasMaxLength(256)` on `UserName` and `Email`. */
  predicate WithinLengthLimits(u: Account) {
    |u.userName| <= MaxNameLength && |u.email| <= MaxNameLength
  }

  /**
   * The primary key and the two unique indexes. The indexes have no filter, so they span
   * soft-deleted rows too; the `RefreshToken` and `PasswordResetToken` indexes are not unique.
   */
  predicate UniqueKeys(s: Store) {
    forall i, j :: 0 <= i < j < |s| ==>
      s[i].id != s[j].id && s[i].normalizedEmail != s[j].normalizedEmail
      && s[i].normalizedUserName != s[j].normalizedUserName
  }

  /** What the database enforces of every state it stores. */
  predicate Valid(s: Store) {
    UniqueKeys(s) && forall i :: 0 <= i < |s| ==> WithinLengthLimits(s[i])
  }

  /** Whether inserting `u` passes the database's constraints. */
  predicate CanInsert(s: Store, u: Account) {
    && WithinLengthLimits(u)
    && forall i :: 0 <= i < |s| ==>
         s[i].id != u.id && s[i].normalizedEmail != u.normalizedEmail
         && s[i].normalizedUserName != u.normalizedUserName
  }

  lemma InsertKeepsValid(s: Store, u: Account)
    requires Valid(s) && CanInsert(s, u)
    ensures Valid(s + [u])
  {
  }

  /** Two rows changed only outside the indexed and length-limited columns. */
  predicate SameIndexedColumns(u: Account, v: Account) {
    u.id == v.id && u.normalizedEmail == v.normalizedEmail && u.normalizedUserName == v.normalizedUserName
    && u.userName == v.userName && u.email == v.email
  }

  lemma UpdateKeepsValid(s: Store, i: nat, u: Account)
    requires Valid(s) && i < |s| && SameIndexedColumns(s[i], u)
    ensures Valid(s[i := u])
  {
  }

  /** Rewriting every row outside the indexed and length-limited columns keeps a store valid. */
  lemma RowwiseUpdateKeepsValid(s: Store, t: Store)
    requires Valid(s) && |t| == |s|
    requires forall i :: 0 <= i < |s| ==> SameIndexedColumns(s[i], t[i])
    ensures Valid(t)
  {
    assert forall i :: 0 <= i < |s| ==> WithinLengthLimits(t[i]) by {
      forall i | 0 <= i < |s| ensures WithinLengthLimits(t[i]) {
        assert WithinLengthLimits(s[i]);
      }
    }
  }

  /** Under the unique index an email selects at most one row: the visible row holding it. */
  lemma FindByEmailIsUnique(s: Store, i: nat)
    requires Valid(s) && i < |s| && Visible(s[i])
    ensures Find(s, ByEmail(s[i].normalizedEmail)) == Some(i)
  {
  }

  /** The token indexes are not unique: a valid store may hold one refresh token twice. */
  lemma RefreshTokenMayRepeat()
    ensures exists s: Store :: (Valid(s) && |s| == 2 && s[0].refreshToken == s[1].refreshToken == Some("t")
                                 && Find(s, ByRefreshToken("t")) == Some(0))
  {
    var a := NewUser(1).(normalizedEmail := "A", normalizedUserName := "A", refreshToken := Some("t"));
    var b := NewUser(2).(normalizedEmail := "B", normalizedUserName := "B", refreshToken := Some("t"));
    var s := [a, b];
    assert Selects(s[0], ByRefreshToken("t"));
    assert Valid(s) && Find(s, ByRefreshToken("t")) == Some(0);
  }

  /** In a valid store, logging in with an account's own email always reaches that account. */
  lemma FindForLoginReachesEmailOwner(s: Store, i: nat)
    requires Valid(s) && i < |s| && Visible(s[i])
    ensures FindForLogin(s, s[i].normalizedEmail) == Some(i)
  {
    FindByEmailIsUnique(s, i);
  }

  /**
   * Logging in with an account's username reaches that account unless the same text is some
   * visible account's email.
   */
  lemma FindForLoginReachesUserNameOwner(s: Store, i: nat)
    requires Valid(s) && i < |s| && Visible(s[i])
    requires forall j :: 0 <= j < |s| ==> !Selects(s[j], ByEmail(s[i].normalizedUserName))
    ensures FindForLogin(s, s[i].normalizedUserName) == Some(i)
  {
    assert Selects(s[i], ByUserName(s[i].normalizedUserName));
  }

  /** What a handler leaves behind: the store after its saves, and its answer. */
  datatype Handled<R> = Handled(store: Store, response: R)

  // ----- listing -----

  function CreatedKey(u: Account): int {
    u.createdDate
  }

  /**
   * `Users.OrderBy(u => u.CreatedDate)`: the visible rows, oldest first. Every visible row is
   * there as often as in the store, and nothing else is.
   */
  function OrderedByCreation(s: Store): (r: seq<Account>)
    ensures SortedBy(r, CreatedKey)
    ensures multiset(r) <= multiset(s)
    ensures forall x :: x in r ==> Visible(x) && x in s
    ensures forall i :: 0 <= i < |s| && Visible(s[i]) ==> multiset(r)[s[i]] == multiset(s)[s[i]]
    ensures forall i :: 0 <= i < |s| && Visible(s[i]) ==> s[i] in r
  {
    var v := Filter(s, Visible);
    var r := SortBy(v, CreatedKey);
    assert forall x :: x in r ==> x in multiset(v) && x in multiset(s);
    assert forall i :: 0 <= i < |s| && Visible(s[i]) ==> multiset(r)[s[i]] == multiset(s)[s[i]] > 0;
    r
  }

  /**
   * The window of the creation-ordered list that starts at `offset`: at most `size` visible
   * accounts, still in creation order. PostgreSQL refuses a negative `OFFSET` or `LIMIT`, and
   * the query then throws (`None`).
   */
  function Window(s: Store, offset: int, size: int): (r: Option<seq<Account>>)
    ensures r.None? <==> offset < 0 || size < 0
    ensures r.Some? ==> |r.value| <= size
    ensures r.Some? ==> SortedBy(r.value, CreatedKey)
    ensures r.Some? ==> forall x :: x in r.value ==> Visible(x) && x in s
  {
    var o := OrderedByCreation(s);
    PageWithin(o, offset, size);
    PageKeepsOrder(o, offset, size, CreatedKey);
    SqlPage(o, offset, size)
  }

  /** A window at a non-negative offset is the slice of the creation order that starts there. */
  lemma WindowIsSlice(s: Store, offset: int, size: int)
    requires 0 <= offset && 0 <= size
    ensures var o := OrderedByCreation(s);
      Window(s, offset, size) == Some(if offset >= |o| then [] else o[offset..Lesser(offset + size, |o|)])
  {
  }

  /**
   * `GetAllAsync(page, size)` as written: `Skip(page * size).Take(size)` with the product
   * computed in 32-bit arithmetic, so a large page number wraps around, to an offset that is
   * too small or, more often, negative and refused by the database.
   */
  function GetAllAsWritten(s: Store, page: int32, size: int32): (r: Option<seq<Account>>)
    ensures r.None? <==> Multiply(page, size) < 0 || size < 0
    ensures r.Some? ==> |r.value| <= size
    ensures r.Some? ==> forall x :: x in r.value ==> Visible(x) && x in s
  {
    Window(s, Multiply(page, size), size)
  }

  /**
   * `GetAllAsync(page, size)` with the offset the query means: the window that starts
   * `page * size` accounts into the creation order. A negative page or size is still refused.
   */
  function GetAll(s: Store, page: int32, size: int32): (r: Option<seq<Account>>)
    ensures r.None? <==> page * size < 0 || size < 0
    ensures r.Some? ==> |r.value| <= size
    ensures r.Some? ==> SortedBy(r.value, CreatedKey)
    ensures r.Some? ==> forall x :: x in r.value ==> Visible(x) && x in s
  {
    Window(s, page * size, size)
  }

  /** The page that starts `page * size` accounts in is the window at that offset. */
  lemma GetAllIsWindow(s: Store, page: int32, size: int32)
    requires page >= 0 && size >= 0
    ensures GetAll(s, page, size) == Window(s, Times(page, size), size)
  {
    TimesIsProduct(page, size);
  }

  /** The first `n` accounts of the creation order (all of them when there are fewer). */
  function Oldest(s: Store, n: nat): (r: seq<Account>)
    ensures |r| == Lesser(n, |OrderedByCreation(s)|)
  {
    var o := OrderedByCreation(s);
    o[..Lesser(n, |o|)]
  }

  /** A window appended to everything before it is everything up to the window's end. */
  lemma WindowExtendsPrefix(s: Store, offset: nat, size: nat)
    ensures Window(s, offset, size).Some?
    ensures Oldest(s, offset) + Window(s, offset, size).value == Oldest(s, offset + size)
  {
    var o := OrderedByCreation(s);
    PageExtendsPrefix(o, offset, size);
  }

  /**
   * Consecutive pages fit together: the accounts before page `page` followed by that page
   * are the accounts before page `page + 1`, so paging never skips or repeats an account.
   */
  lemma NextPageContinues(s: Store, page: int32, size: int32)
    requires 0 <= page && size >= 0
    ensures GetAll(s, page, size).Some?
    ensures Oldest(s, page * size) + GetAll(s, page, size).value == Oldest(s, (page + 1) * size)
  {
    GetAllIsWindow(s, page, size);
    WindowExtendsPrefix(s, Times(page, size), size);
    TimesIsProduct(page, size);
    TimesIsProduct(page + 1, size);
  }

  /** The first `count` pages are exactly the first `count * size` accounts of the creation order. */
  lemma FirstPagesArePrefix(s: Store, count: nat, size: int32)
    requires size >= 0
    ensures Pages(OrderedByCreation(s), count, size) == Oldest(s, count * size)
  {
    PagesArePrefix(OrderedByCreation(s), count, size);
  }

  lemma PageProductWraps()
    ensures Multiply(65536, 65536) == 0
    ensures Multiply(46341, 46341) < 0
  {
    assert 65536 * 65536 == Modulus;
    assert 46341 * 46341 == Modulus / 2 + 4633;
  }

  /** A store holds at least as many rows as its creation order. */
  lemma OrderedWithinStore(s: Store)
    ensures |OrderedByCreation(s)| <= |s|
  {
    var o := OrderedByCreation(s);
    assert |multiset(o)| <= |multiset(s)|;
  }

  /**
   * The wrap-around to zero: with `page = size = 65536` the product is 2^32, which 32-bit
   * arithmetic turns into offset 0, so the page that should be empty repeats the first page.
   */
  lemma PageOffsetWraps(s: Store)
    requires 0 < |OrderedByCreation(s)| && |s| <= Modulus
    ensures GetAll(s, 65536, 65536) == Some([])
    ensures GetAllAsWritten(s, 65536, 65536) == GetAll(s, 0, 65536) != Some([])
  {
    PageProductWraps();
    OrderedWithinStore(s);
    assert GetAll(s, 65536, 65536) == Window(s, Modulus, 65536);
    assert GetAllAsWritten(s, 65536, 65536) == Window(s, 0, 65536);
    assert GetAll(s, 0, 65536) == Window(s, 0, 65536);
  }

  /**
   * The wrap-around to a negative offset: with `page = size = 46341` the product exceeds
   * `int.MaxValue` and turns negative, so the database refuses the query, while the page
   * meant is simply empty.
   */
  lemma PageOffsetTurnsNegative(s: Store)
    requires |s| <= Modulus / 2
    ensures GetAll(s, 46341, 46341) == Some([])
    ensures GetAllAsWritten(s, 46341, 46341).None?
  {
    PageProductWraps();
    OrderedWithinStore(s);
    assert GetAll(s, 46341, 46341) == Window(s, 46341 * 46341, 46341);
  }

  // ----- roles -----

  /** `GetRoleByNameAsync(name)`: the first visible role whose normalised name is `name` upper-cased. */
  function FindRoleByName(roles: seq<Role>, name: string): (r: Option<nat>)
    ensures r.Some? ==> (r.value < |roles| && !roles[r.value].isDeleted
                         && roles[r.value].normalizedName == ToUpperInvariant(name))
    ensures r.None? <==> forall j :: 0 <= j < |roles| ==>
      roles[j].isDeleted || roles[j].normalizedName != ToUpperInvariant(name)
  {
    FirstWhere(roles, (ro: Role) => !ro.isDeleted && ro.normalizedName == ToUpperInvariant(name))
  }

  /** Role lookup ignores the case of the name it is given. */
  lemma FindRoleByNameIgnoresCase(roles: seq<Role>, name: string)
    ensures FindRoleByName(roles, ToUpperInvariant(name)) == FindRoleByName(roles, name)
  {
    ToUpperIdempotent(name);
  }
}

=== FILE: validators.dfy ===
/**
 * The FluentValidation rules of the registration and login requests. Every rule runs, and
 * inside a rule every check runs (the default cascade), so a request gets the messages of all
 * the checks it fails, in declaration order. A string property may be null (`None`).
 */
module Validators {
  import opened Wrappers
  import opened Text

  /** `NotEmpty()` on a string: not null, not empty, not only white space. */
  predicate NotEmpty(v: Option<string>) {
    v.Some? && !IsBlank(v.value)
  }

  /** `MaximumLength(n)`: a null value passes. */
  predicate AtMost(v: Option<string>, n: nat) {
    v.None? || |v.value| <= n
  }

  /** `MinimumLength(n)`: a null value passes. */
  predicate AtLeast(v: Option<string>, n: nat) {
    v.None? || |v.value| >= n
  }

  /** The message of a check, when the check fails. */
  function Check(passes: bool, message: string): (r: seq<string>)
    ensures r == [] <==> passes
    ensures !passes ==> r == [message]
  {
    if passes then [] else [message]
  }

  // ----- registration -----

  datatype CreateUserRequest = CreateUserRequest(
    nameSurname: Option<string>,
    email: Option<string>,
    userName: Option<string>,
    password: Option<string>,
    passwordConfirm: Option<string>)

  const MaxNameSurname: nat := 50
  const MinUserName: nat := 3
  const MinPassword: nat := 6

  function NameSurnameErrors(v: Option<string>): (r: seq<string>)
    ensures r == [] <==> NotEmpty(v) && |v.value| <= MaxNameSurname
    ensures v.None? ==> r == ["Fullname can't be empty.", "Fullname can't be null."]
  {
    Check(NotEmpty(v), "Fullname can't be empty.")
    + Check(v.Some?, "Fullname can't be null.")
    + Check(AtMost(v, MaxNameSurname), "Full name can't be longer than 50 characters.")
  }

  function UserNameErrors(v: Option<string>): (r: seq<string>)
    ensures r == [] <==> NotEmpty(v) && |v.value| >= MinUserName
  {
    Check(NotEmpty(v), "Username can't be empty.")
    + Check(AtLeast(v, MinUserName), "Username can't be smaller than 3 characters.")
  }

  /**
   * `EmailAddress()` is passed in as `isEmail`; like the library check, it is not consulted
   * for a null value.
   */
  function EmailErrors(v: Option<string>, isEmail: string -> bool): (r: seq<string>)
    ensures r == [] <==> NotEmpty(v) && isEmail(v.value)
  {
    Check(NotEmpty(v), "Mail can't be empty.")
    + Check(v.None? || isEmail(v.value), "Please enter a valid email address.")
  }

  function PasswordErrors(v: Option<string>): (r: seq<string>)
    ensures r == [] <==> NotEmpty(v) && |v.value| >= MinPassword
  {
    Check(NotEmpty(v), "Password can't be empty.")
    + Check(AtLeast(v, MinPassword), "Password can't be smaller than 6 characters.")
  }

  function PasswordConfirmErrors(v: Option<string>, password: Option<string>): (r: seq<string>)
    ensures r == [] <==> NotEmpty(v) && v == password
  {
    Check(NotEmpty(v), "Confirm password can't be empty.")
    + Check(v == password, "Passwords do not match.")
  }

  /** The registration rules as one condition. */
  predicate AcceptableRegistration(req: CreateUserRequest, isEmail: string -> bool) {
    && NotEmpty(req.nameSurname) && |req.nameSurname.value| <= MaxNameSurname
    && NotEmpty(req.userName) && |req.userName.value| >= MinUserName
    && NotEmpty(req.email) && isEmail(req.email.value)
    && NotEmpty(req.password) && |req.password.value| >= MinPassword
    && req.passwordConfirm == req.password
  }

  /**
   * `CreateUserCommandValidator`: all five rules, in order. A request passes exactly when it
   * meets every rule, and the full-name messages come first.
   */
  function ValidateCreateUser(req: CreateUserRequest, isEmail: string -> bool): (r: seq<string>)
    ensures r == [] <==> AcceptableRegistration(req, isEmail)
    ensures NameSurnameErrors(req.nameSurname) <= r
  {
    NameSurnameErrors(req.nameSurname) + UserNameErrors(req.userName) + EmailErrors(req.email, isEmail)
    + PasswordErrors(req.password) + PasswordConfirmErrors(req.passwordConfirm, req.password)
  }

  // ----- login -----

  datatype LoginRequest = LoginRequest(emailOrUserName: Option<string>, password: Option<string>)

  function LoginErrors(req: LoginRequest): (r: seq<string>)
    ensures req.password.None? ==> "Password can't be null." in r
    ensures r == [] <==> NotEmpty(req.emailOrUserName) && NotEmpty(req.password) && |req.password.value| >= MinPassword
  {
    Check(NotEmpty(req.emailOrUserName), "Email or username can't be empty.")
    + Check(NotEmpty(req.password), "Password can't be empty.")
    + Check(req.password.Some?, "Password can't be null.")
    + Check(AtLeast(req.password, MinPassword), "Password must have at least 6 characters.")
  }

  /** A blank, short password gets both its messages, the emptiness one first, and nothing else. */
  lemma LoginErrorsAreOrdered(req: LoginRequest)
    requires NotEmpty(req.emailOrUserName) && req.password.Some? && IsBlank(req.password.value)
             && |req.password.value| < MinPassword
    ensures LoginErrors(req) == ["Password can't be empty.", "Password must have at least 6 characters."]
  {
  }
}

=== FILE: wrappers.dfy ===
/** Nullable values of the C# source (`T?`) as an explicit option type. */
module Wrappers {

  datatype Option<+T> = None | Some(value: T) {

    /** `x ?? fallback` */
    function OrElse(fallback: T): T {
      match this
      case Some(v) => v
      case None => fallback
    }
  }
}
